=== FILE: README.md ===
# CRM dashboard rules in Dafny

A model of the decision logic of a role-based HR dashboard written as React pages. It has a
login screen, administrator, HR and manager dashboards, and an authentication context. The
model covers:

- **The payslip calculator, builder and ledger** (`amounts.dfy`, `payslips.dfy`,
  `payslip_forms.dfy`, `payslip_history.dfy`, `payslip_view.dfy`).
  - Free-text amounts are read as `parseFloat(...) || 0` and summed. The result is shown to
    two decimals, and net pay is earnings minus deductions.
  - A `"<Month> <Year>"` pay period becomes a month and a `"<y>-<y+1>"` financial year.
  - The admin form upserts the employee by id and appends the payslip to the ledger.
  - The history lists the ledger for one period, joins each payslip to its employee and
    selects the latest period.
  - The payslip dialog and the printed document show totals and a pay period.
- **Signing in** (`login_form.dfy`, `auth_context.dfy`):
  - the employee-id format and the password-strength hint;
  - per-mode validation and the sign-in → forgot → verify → reset → sign-in mode machine;
  - credential lookup, the role a restored session gets from its id prefix, verification
    codes and logout.
- **Employee directories** (`employee_records.dfy`, `employee_directory.dfy`,
  `employee_intake.dfy`):
  - add, edit, confirmed delete and case-insensitive search;
  - the detail view's dotted field edit, full name, initials and age;
  - the intake form's digit and upper-case filters, size limits, document slots and
    education edits.
- **Approvals** (`approvals.dfy`): leave and reimbursement approve/reject, "process
  payroll", and the record and name filters.
- **Attendance**:
  - `manager_attendance.dfy`: inclusive day counts, the multi-criteria filter, distinct
    head counts per work type, and the check-in/check-out toggle that files a summary
    record;
  - `attendance_counters.dfy`: the administrator's work-mode counters and leave form.
- **Small state machines**:
  - `onboarding.dfy`: the five-step onboarding wizard;
  - `manager_dashboard.dfy`: the notification filter and counts, and the password-change
    dialog;
  - `admin_sidebar.dfy`: the sidebar's active item, resolved from the path;
  - `task_board.dfy`: the project role swap.

**How the source is modelled.**
- Each screen whose handlers update React state is a `class`. Its fields are the state
  and its methods the handlers, each specified against functions on values. Pure
  computations are functions, with lemmas for what they promise.
- Amounts are exact decimals (`real`). A figure shown with `toFixed(2)` is an integer
  number of hundredths.
- Dates are day numbers, and a moment is a millisecond count.
- Strings are sequences of characters, with ASCII case mapping.
- Browser storage is a `Storage` object whose keys hold a list, nothing, or text that does
  not parse.
- Fresh ids, random draws, "today" and the current year are parameters.
- Alerts are recorded as the last alert text and navigation as the location reached.
- An exception thrown out of an effect, which no error boundary catches, is recorded as a
  `crashed` flag on the screen.
- The login screen's one-second mode switches and the onboarding upload's one-second delay
  are collapsed: the handler leaves the state those timers reach once they have fired. The
  timers that clear a shown message are not modelled, so a message stays as it was set.

**Where the code and its written description differ, the model follows the code:**
- A pay period made only of blanks is not empty, so it does not fall back to January. The
  month becomes the empty text and the financial year "NaN-NaN" (`Payslips.PeriodOfBlank`).
- The history page reads payslips first. When only the stored employees are unreadable,
  the payslips are already replaced when the error is caught
  (`PayslipHistory.HistoryPage.LoadData`).
- On mounting, the sidebar starts from the saved item, but the path effect then replaces
  it with the path's own item (`AdminSidebar.Sidebar.constructor`).

## Model

| member | source | states |
|---|---|---|
| Amounts.ParseAmount | app/dashboard/admin/payrollandexpenses/payslip-form.tsx:79 | unreadable text counts as 0, and any non-zero amount is the decimal the text starts with |
| Amounts.Total | app/dashboard/admin/payrollandexpenses/payslip-form.tsx:76-81 | rows whose amounts all read as non-negative give a non-negative total |
| Amounts.Cents | app/dashboard/admin/payrollandexpenses/payslip-form.tsx:82 | the shown hundredths keep the sign of the exact total |
| Amounts.UnreadableRowsAddNothing | app/dashboard/admin/payrollandexpenses/payslip-form.tsx:76-82 | rows whose text does not read as a number add 0 to a total |
| Amounts.UnreadableText | app/dashboard/admin/payrollandexpenses/payslip-form.tsx:79 | empty text, and text starting with no digit, sign or point, is unreadable and counts as 0 |
| Amounts.ParseWholeNumber | app/dashboard/admin/payrollandexpenses/payslip-form.tsx:79 | a run of digits reads as that whole number |
| Amounts.ParsePointed | app/dashboard/admin/payrollandexpenses/payslip-form.tsx:79 | digits, a point and digits read as that decimal value |
| Amounts.ParseSignedDigits | app/dashboard/admin/payrollandexpenses/payslip-form.tsx:79 | a '-' or '+' before a run of digits is read as the sign of the digits' value |
| Amounts.ParseSignedNumber | app/dashboard/admin/payrollandexpenses/payslip-form.tsx:79 | "-n" reads as minus n and "+n" as n, for every whole number n |
| Amounts.ParseDecimalNumber | app/dashboard/admin/payrollandexpenses/payslip-form.tsx:79 | a whole number, a point and a fraction read as whole + fraction / 10^length |
| Amounts.TotalSingle | app/dashboard/admin/payrollandexpenses/payslip-form.tsx:76-82 | a one-row table totals that row's parsed amount |
| Amounts.TotalAppend | app/dashboard/admin/payrollandexpenses/payslip-form.tsx:76-82 | the total of two stretches of rows is the sum of their totals |
| Amounts.TotalOrderIrrelevant | app/dashboard/admin/payrollandexpenses/payslip-form.tsx:76-82 | the order of the rows does not change a total |
| Amounts.CentsIsNearest | app/dashboard/admin/payrollandexpenses/payslip-form.tsx:82 | a shown total is within half a hundredth of the exact one |
| Amounts.CentsOfCents | app/dashboard/admin/payrollandexpenses/payslip-form.tsx:87 | a figure with two decimals is shown unchanged |
| Amounts.ShownTotal | app/dashboard/admin/payrollandexpenses/payslip-form.tsx:76-83 | the shown total is within half a hundredth of the exact sum of the parsed rows, and not negative when no row is |
| Amounts.ShownNet | app/dashboard/admin/payrollandexpenses/payslip-form.tsx:85-87 | the shown net is within half a hundredth of the shown earnings read back minus the shown deductions read back |
| Amounts.ShownNetIsDifference | app/dashboard/admin/payrollandexpenses/payslip-form.tsx:85-87 | the shown net is exactly the shown earnings minus the shown deductions, with no clamp at zero |
| Payslips.FindIndex | app/dashboard/admin/payrollandexpenses/payslip-form.tsx:148 | the first position holding the id, or -1 exactly when no record has it |
| Payslips.Upsert | app/dashboard/admin/payrollandexpenses/payslip-form.tsx:148-155 | the list grows by one exactly for a new id, every position keeps its id, records with other ids are untouched, and a new id goes last |
| Payslips.UpsertStoresRecord | app/dashboard/admin/payrollandexpenses/payslip-form.tsx:148-155 | after an upsert the record is found under its id with the new fields and the old extra keys; the list grows only for a new id; other records stay in place; unique ids stay unique |
| Payslips.Storage.SavePayslip | app/dashboard/admin/payrollandexpenses/payslip-form.tsx:148-162 | the employee is upserted into the stored employees and the payslip appended after the stored payslips |
| Payslips.PeriodOf | app/dashboard/admin/payrollandexpenses/payslip-form.tsx:91-97 | the month has no space: "January" for an empty pay period, else the whole text before the first space (a prefix followed by a space or by the end) |
| Payslips.FinancialYearOf | app/dashboard/admin/payrollandexpenses/payslip-form.tsx:138 | "NaN-NaN" exactly when the year does not start with an integer; otherwise the text starts with that same integer |
| Payslips.PeriodOfMonthAndYear | app/dashboard/admin/payrollandexpenses/payslip-form.tsx:91-138 | "Month Year" gives that month and year, and the financial year "y-(y+1)" |
| Payslips.FinancialYearOfRendered | app/dashboard/admin/payrollandexpenses/payslip-form.tsx:138 | a rendered year gives the financial year that starts in it |
| Payslips.PeriodOfEmpty | app/dashboard/admin/payrollandexpenses/payslip-form.tsx:91-94 | an empty pay period gives "January" and the current year's financial year |
| Payslips.PeriodOfBlank | app/dashboard/admin/payrollandexpenses/payslip-form.tsx:91-138 | a pay period of blanks gives month "" and financial year "NaN-NaN" |
| Payslips.PeriodOfMonthOnly | app/dashboard/admin/payrollandexpenses/payslip-form.tsx:94-97 | a single word is the month, and the current year is kept |
| PayslipForms.BlankInfo | app/dashboard/admin/payrollandexpenses/payslip-form.tsx:25-34 | every detail key starts as the empty text |
| PayslipForms.BlankItems | app/dashboard/admin/payrollandexpenses/payslip-form.tsx:36-54 | the initial tables carry the six labels, with nothing typed |
| PayslipForms.ClearAmounts | app/dashboard/admin/payrollandexpenses/payslip-form.tsx:181-182 | every amount is emptied and the rows and their count are kept |
| PayslipForms.ClearedTableIsBlank | app/dashboard/admin/payrollandexpenses/payslip-form.tsx:181-182 | a cleared table is the blank table of its own labels |
| PayslipForms.SetAmount | app/dashboard/admin/payrollandexpenses/payslip-form.tsx:64-74 | only row i's amount changes; the labels and other rows are kept |
| PayslipForms.EmployeeOf | app/dashboard/admin/payrollandexpenses/payslip-form.tsx:120-131 | the stored employee has the typed id (or the fresh one), the typed name, department "N/A", the typed bank details and tax number, and exactly the typed PF and UTI numbers as its other fields |
| PayslipForms.EarningsOf | app/dashboard/admin/payrollandexpenses/payslip-form.tsx:101-108 | each of the six stored earnings is the parsed amount of the row at its position (basic salary row 0 … bonus row 5), and they add up to the form's total |
| PayslipForms.DeductionsFrom | app/dashboard/admin/payrollandexpenses/payslip-form.tsx:110-117 | each of the six stored deductions is the parsed amount of the row at its position (provident fund row 0 … other deduction row 5), and they add up to the form's total |
| PayslipForms.PayslipOf | app/dashboard/admin/payrollandexpenses/payslip-form.tsx:133-141 | the saved payslip carries the given ids, the earnings and deductions taken row by row from the two tables, the form's two totals, and a month with no space taken from the start of the pay period |
| PayslipForms.SavedNetMatchesForm | app/dashboard/admin/payrollandexpenses/payslip-form.tsx:87 | the saved payslip's rounded net is the net the form showed, for totals in whole hundredths |
| PayslipForms.AdminPayslipForm.constructor | app/dashboard/admin/payrollandexpenses/payslip-form.tsx:24-55 | the form starts blank, with the six-row tables |
| PayslipForms.AdminPayslipForm.SetInfo | app/dashboard/admin/payrollandexpenses/payslip-form.tsx:57-62 | one detail field takes the value and nothing else changes |
| PayslipForms.AdminPayslipForm.SetEarning | app/dashboard/admin/payrollandexpenses/payslip-form.tsx:64-68 | only the chosen earnings row's amount changes |
| PayslipForms.AdminPayslipForm.SetDeduction | app/dashboard/admin/payrollandexpenses/payslip-form.tsx:70-74 | only the chosen deductions row's amount changes |
| PayslipForms.AdminPayslipForm.Save | app/dashboard/admin/payrollandexpenses/payslip-form.tsx:89-186 | with both stored lists readable, the employee is upserted, the payslip appended after every earlier entry, and the form cleared; otherwise nothing changes |
| PayslipForms.AdminPayslipForm.Reset | app/dashboard/admin/payrollandexpenses/payslip-form.tsx:171-184 | every field and amount is emptied and the labels are kept |
| PayslipForms.ManagerPayslipForm.constructor | app/dashboard/manager/components/payslip-form.tsx:20-49 | the form starts blank, with the six-row tables |
| PayslipForms.ManagerPayslipForm.SetInfo | app/dashboard/manager/components/payslip-form.tsx:51-56 | one detail field takes the value |
| PayslipForms.ManagerPayslipForm.SetEarning | app/dashboard/manager/components/payslip-form.tsx:58-62 | only the chosen earnings row's amount changes |
| PayslipForms.ManagerPayslipForm.SetDeduction | app/dashboard/manager/components/payslip-form.tsx:64-68 | only the chosen deductions row's amount changes |
| PayslipForms.ManagerPayslipForm.Save | app/dashboard/manager/components/payslip-form.tsx:83-111 | nothing is stored; every field, amount and signature is emptied, keeping the labels |
| PayslipForms.BlankFormShowsZero | app/dashboard/manager/components/payslip-form.tsx:30-81 | a blank form shows 0.00 for both totals and the net |
| PayslipHistory.Merged | app/dashboard/admin/payrollandexpenses/payslip-history.tsx:25-44 | stored entries followed by the demo entries, the demo entries alone when nothing is stored, and no result when the text does not parse |
| PayslipHistory.ListedIff | app/dashboard/admin/payrollandexpenses/payslip-history.tsx:68-70 | a payslip is listed iff it is in the ledger with exactly the selected year and month |
| PayslipHistory.ListedAppend | app/dashboard/admin/payrollandexpenses/payslip-history.tsx:68-70 | listing keeps the ledger's order |
| PayslipHistory.EmployeeById | app/dashboard/admin/payrollandexpenses/payslip-history.tsx:72-74 | the first employee with the id, else the first employee; nothing only for an empty directory |
| PayslipHistory.EmployeeByIdFinds | app/dashboard/admin/payrollandexpenses/payslip-history.tsx:72-74 | when some employee has the id, the join returns an employee with that id |
| PayslipHistory.Rows | app/dashboard/admin/payrollandexpenses/payslip-history.tsx:147-151 | one row per listed payslip, numbered from 1, joined to its employee |
| PayslipHistory.RenderFailsIff | app/dashboard/admin/payrollandexpenses/payslip-history.tsx:146-152 | some row lacks its employee exactly when payslips are listed and the employee list is empty, because every row is joined to the first employee |
| PayslipHistory.LatestWithoutEmployeesFails | app/dashboard/admin/payrollandexpenses/payslip-history.tsx:77-90 | with stored payslips and no employees, the table of the latest stored period lists a payslip whose employee is missing, so rendering it crashes |
| PayslipHistory.LatestPeriod | app/dashboard/admin/payrollandexpenses/payslip-history.tsx:77-90 | a period exactly when a non-empty list is stored: the last payslip's month and year, each replaced by "April"/"2024-2025" when empty, so never empty |
| PayslipHistory.LatestIsListed | app/dashboard/admin/payrollandexpenses/payslip-history.tsx:68-90 | after the load and the auto-selection, the most recently stored payslip with both period fields filled in is in the listing |
| PayslipHistory.HistoryPage.constructor | app/dashboard/admin/payrollandexpenses/payslip-history.tsx:18-21 | the selection starts at "2024-2025" and "April", with no data and no crash |
| PayslipHistory.HistoryPage.LoadData | app/dashboard/admin/payrollandexpenses/payslip-history.tsx:24-45 | payslips, then employees, become the merged lists; an unreadable list stops the load where it is read, and the error is caught so the page does not crash |
| PayslipHistory.HistoryPage.AutoSelect | app/dashboard/admin/payrollandexpenses/payslip-history.tsx:77-90 | with stored payslips, the selection moves to the last one's period, with "April"/"2024-2025" for an empty field; unreadable stored payslips crash the page |
| PayslipHistory.HistoryPage.Mount | app/dashboard/admin/payrollandexpenses/payslip-history.tsx:47-90 | mounting loads the merged lists, moves the selection to the latest stored period, so that the latest stored payslip is listed, and crashes when the stored payslips are unreadable or when a listed payslip has no employee to render (`RenderFails`) |
| PayslipHistory.HistoryPage.Refresh | app/dashboard/admin/payrollandexpenses/payslip-history.tsx:52-90 | a new refresh signal reloads the merged lists and re-selects the latest stored period; unreadable stored payslips, or a listed payslip without an employee to render, crash the page |
| PayslipHistory.HistoryPage.StorageEvent | app/dashboard/admin/payrollandexpenses/payslip-history.tsx:57-66 | for the "payslips" and "employees" keys both lists are reloaded as by loadData, for any other key nothing changes; the selection is kept, and the page crashes only when the reloaded table lists a payslip without an employee |
| PayslipHistory.HistoryPage.SelectYear | app/dashboard/admin/payrollandexpenses/payslip-history.tsx:98-105 | only the selected year changes, and the page crashes when the new table lists a payslip without an employee |
| PayslipHistory.HistoryPage.SelectMonth | app/dashboard/admin/payrollandexpenses/payslip-history.tsx:110-128 | only the selected month changes, and the page crashes when the new table lists a payslip without an employee |
| PayslipHistory.HistoryPage.Render | app/dashboard/admin/payrollandexpenses/payslip-history.tsx:146-152 | rendering the table crashes the page exactly when a listed payslip has no employee, whose name the row reads; nothing else changes |
| PayslipHistory.HistoryDialog.constructor | app/dashboard/admin/payrollandexpenses/paysliphistorymodal.tsx:17-20 | the selection starts at "2024-2025" and "April", with no data and no crash |
| PayslipHistory.HistoryDialog.Mount | app/dashboard/admin/payrollandexpenses/paysliphistorymodal.tsx:22-38 | the one load on mounting: the merged lists, stopping at an unreadable one, which crashes the dialog; a listed payslip without an employee crashes it when rendered |
| PayslipHistory.HistoryDialog.SelectYear | app/dashboard/admin/payrollandexpenses/paysliphistorymodal.tsx:17 | only the selected year changes, and the dialog crashes when the new table lists a payslip without an employee |
| PayslipHistory.HistoryDialog.SelectMonth | app/dashboard/admin/payrollandexpenses/paysliphistorymodal.tsx:18 | only the selected month changes, and the dialog crashes when the new table lists a payslip without an employee |
| PayslipHistory.HistoryDialog.Render | app/dashboard/admin/payrollandexpenses/paysliphistorymodal.tsx:104-110 | rendering the table crashes the dialog exactly when a listed payslip has no employee; nothing else changes |
| PayslipHistory.YearOptionsAreRendered | app/dashboard/admin/payrollandexpenses/payslip-history.tsx:102-104 | the offered years are the financial years the form renders for 2023 to 2025 |
| PayslipHistory.SavedPayslipIsListed | app/dashboard/admin/payrollandexpenses/payslip-history.tsx:68-70 | a payslip saved for an offered period is listed under it, after the earlier stored ones |
| PayslipHistory.UnofferedMonthNeverListed | app/dashboard/admin/payrollandexpenses/payslip-history.tsx:116-127 | a payslip whose month is not offered is never listed |
| PayslipHistory.SavedMonth | app/dashboard/admin/payrollandexpenses/payslip-form.tsx:94-97 | the saved month is the text before the first space |
| PayslipHistory.UnofferedSavedMonthNeverListed | app/dashboard/admin/payrollandexpenses/payslip-form.tsx:236 | a payslip saved with a month the selector does not offer is never listed for any selected period |
| PayslipHistory.PlaceholderMonthUnoffered | app/dashboard/admin/payrollandexpenses/payslip-form.tsx:236 | example of the general lemma above: the form's own placeholder "Jan 2025" has such a month |
| PayslipView.Dialog | app/dashboard/admin/payrollandexpenses/payslip-modal.tsx:18 | the dialog renders exactly when both the employee and the payslip are present |
| PayslipView.PrintDocument | app/dashboard/manager/lib/pdf-generator.ts:11-15 | a document is produced exactly when a print window opens, showing the same statement as the dialog |
| PayslipView.StatementOf | app/dashboard/admin/payrollandexpenses/payslip-modal.tsx:20-22 | the rows are the payslip's earnings and deductions rows, each total is the sum of its six rows and the payslip's own total, net = gross − deductions unrounded and unclamped, and the employee's name, id, bank details and tax number, the payslip's pay period and the cycle "Monthly" are shown |
| PayslipView.RowLabelsAreFormLabels | app/dashboard/manager/lib/pdf-generator.ts:158-230 | there are as many rows as form labels, each row carries the form's label at its position, and its value is the payslip field of that name |
| PayslipView.StatementShowsTypedAmounts | app/dashboard/manager/lib/pdf-generator.ts:158-230 | a payslip saved from the admin form shows in every row the form's label and the amount typed into the form's row at the same position |
| PayslipView.NetNotClamped | app/dashboard/manager/lib/pdf-generator.ts:6-8 | for every payslip the net is the difference, negative exactly when deductions exceed earnings |
| PayslipView.PayPeriodRoundTrip | app/dashboard/admin/payrollandexpenses/payslip-modal.tsx:69 | for a year y ≥ 0, the shown pay period is exactly the typed "Month y" |
| PayslipView.PayPeriodOfNegativeYear | app/dashboard/manager/lib/pdf-generator.ts:144 | for a negative year the pay period shows only the month and a space |
| AuthContext.FindUser | context/AuthContext.tsx:88-94 | a user is found iff some user's id equals the input ignoring case and the password is exactly equal |
| AuthContext.RoleFromSessionId | context/AuthContext.tsx:56-66 | administrator iff the id starts with "admin-", manager iff "mgr-", HR iff "hr-", compared with case; an employee otherwise |
| AuthContext.DashboardRoute | context/AuthContext.tsx:105-120 | the route `login` pushes for a role is a page under "/dashboard/" |
| AuthContext.DashboardRouteInjective | context/AuthContext.tsx:105-120 | different roles are sent to different dashboards |
| AuthContext.VerifyCode | context/AuthContext.tsx:158-160 | a code passes only when it has the generated code's length and the same character at every position; no trimming or case folding |
| AuthContext.ResetPassword | context/AuthContext.tsx:163-166 | always reports success, whatever the id and password |
| AuthContext.SendVerificationCode | context/AuthContext.tsx:138-155 | true iff some user has the id, ignoring case |
| AuthContext.AuthProvider.constructor | context/AuthContext.tsx:40-41 | no user and loading |
| AuthContext.AuthProvider.RestoreSession | context/AuthContext.tsx:45-79 | a stored session becomes the user, with the role of its id prefix; an unreadable one is removed; loading ends |
| AuthContext.AuthProvider.Login | context/AuthContext.tsx:82-128 | on a match, the user and session are set and the role's route returned; otherwise nothing changes but loading |
| AuthContext.AuthProvider.Logout | context/AuthContext.tsx:131-135 | the user and the stored session are cleared and the route pushed is "/auth/login" |
| AuthContext.FindUserByOwnId | context/AuthContext.tsx:88-94 | with unique ids, an id equal up to case signs in as that user exactly with its password |
| AuthContext.SampleIdsDistinct | context/AuthContext.tsx:28-33 | no two demonstration users share an id |
| AuthContext.SampleLogins | context/AuthContext.tsx:88-94 | demonstration users sign in with their id in any case and only with their exact password |
| AuthContext.RestoredRoleIsLoginRole | context/AuthContext.tsx:56-66 | a restored session gets the role its user signed in with |
| AuthContext.RestoredRoleIsCaseSensitive | context/AuthContext.tsx:58-64 | example of the role rule: an upper-case administrator id is restored as an employee |
| AuthContext.SendCodeIffUserExists | context/AuthContext.tsx:141-150 | a code can be requested exactly for ids that can sign in with some password |
| LoginForm.OtpCode | app/auth/login/page.tsx:231 | a generated code is in [100000, 999999] |
| LoginForm.OtpText | app/auth/login/page.tsx:231 | the code's text is six digits reading as the code |
| LoginForm.ValidEmpId | app/auth/login/page.tsx:83-86 | a valid id has 6 to 9 characters and ends in three digits |
| LoginForm.PasswordStrength | app/auth/login/page.tsx:88-100 | one of the five hints; none exactly for an empty password; from six characters on, strong, medium or weak |
| LoginForm.ValidateForm | app/auth/login/page.tsx:120-152 | every message is non-empty, and each mode reports only its own fields |
| LoginForm.SignInOutcome | app/auth/login/page.tsx:167-169 | a route exactly when `login` finds the user |
| LoginForm.AuthForm.constructor | app/auth/login/page.tsx:36-48 | signing-in mode with every field empty and no errors |
| LoginForm.AuthForm.SetMode | app/auth/login/page.tsx:77-81 | a change of mode clears every error and the message; nothing else changes |
| LoginForm.AuthForm.HandleChange | app/auth/login/page.tsx:102-118 | the field takes the value, a password refreshes the hint, and only that field's error is dropped |
| LoginForm.AuthForm.SetOtp | app/auth/login/page.tsx:319-320 | the code input keeps at most six characters |
| LoginForm.AuthForm.ClearCredentials | app/auth/login/page.tsx:191-195 | id, password and confirmation are emptied |
| LoginForm.AuthForm.Submit | app/auth/login/page.tsx:154-208 | an empty `required` input of the current mode stops the form before `handleSubmit`, and nothing changes; past that, with an error, no call and the errors shown; else sign-in calls `login`, verify moves to reset exactly on the right code, reset returns to sign-in |
| LoginForm.RequiredMessagesOnlyForBlanks | app/auth/login/page.tsx:297-411 | past the browser's `required` check, "Password is required" and "Confirm password is required" never appear, and the id and code are reported missing only when they hold blanks |
| LoginForm.BlockedFormsAreInvalid | app/auth/login/page.tsx:297-411 | every form the browser holds back would also fail `validateForm` |
| LoginForm.AuthForm.SubmitSignIn | app/auth/login/page.tsx:167-201 | the route is the sign-in outcome, with the success or invalid-credentials message |
| LoginForm.AuthForm.SubmitCode | app/auth/login/page.tsx:171-183 | the right code moves to reset and empties the input; a wrong one is flagged |
| LoginForm.AuthForm.SubmitNewPassword | app/auth/login/page.tsx:184-196 | the form returns to sign-in with empty credentials |
| LoginForm.AuthForm.SendOtp | app/auth/login/page.tsx:210-244 | a valid, registered id gets a fresh code and the verify mode; otherwise the id's error is shown |
| LoginForm.AuthForm.ResendOtp | app/auth/login/page.tsx:246-262 | a fresh code replaces the old one and the typed code is cleared |
| LoginForm.AuthForm.ForgotPassword | app/auth/login/page.tsx:385-391 | forgot mode with empty credentials |
| LoginForm.AuthForm.BackToLogin | app/auth/login/page.tsx:460-467 | sign-in mode with empty credentials |
| LoginForm.ValidIdNotBlank | app/auth/login/page.tsx:83-86 | a valid id is never blank |
| LoginForm.ValidEmpIdIgnoresCase | app/auth/login/page.tsx:83-86 | the id check ignores case, both ways |
| LoginForm.ValidFromParts | app/auth/login/page.tsx:83-86 | each prefix followed by three digits is valid |
| LoginForm.SampleIdsAreValid | context/AuthContext.tsx:28-33 | every demonstration id has the format |
| LoginForm.StrengthByKinds | app/auth/login/page.tsx:88-100 | from six characters on: all three kinds is strong, two medium, fewer weak (iff each) |
| LoginForm.ShortPasswordHint | app/auth/login/page.tsx:88-92 | empty gives no hint; 1 to 5 characters give the length message |
| LoginForm.SignInValidation | app/auth/login/page.tsx:125-129 | sign-in passes iff a password is given and the id has the format; a format error overwrites "required" |
| LoginForm.ForgotValidation | app/auth/login/page.tsx:131-134 | forgot passes iff the id has the format |
| LoginForm.ResetValidation | app/auth/login/page.tsx:136-148 | reset passes iff the password has six characters and is confirmed |
| LoginForm.VerifyValidation | app/auth/login/page.tsx:150 | verify passes iff the code is not blank |
| LoginForm.ValidationMessagesNonEmpty | app/auth/login/page.tsx:120-152 | every validation message is non-empty |
| LoginForm.GeneratedCodeVerifies | context/AuthContext.tsx:158-160 | a generated code passes validation and only itself verifies it |
| ManagerAttendance.DayCount | app/dashboard/manager/attendanceManagement/page.tsx:92-98 | at least 1, and one more than the whole days needed to cover the span |
| ManagerAttendance.CeilDiv | app/dashboard/manager/attendanceManagement/page.tsx:97 | the least quotient whose multiple covers n |
| ManagerAttendance.Filtered | app/dashboard/manager/attendanceManagement/page.tsx:139-155 | a record is kept iff it matches every non-empty criterion |
| ManagerAttendance.CountAttendance | app/dashboard/manager/attendanceManagement/page.tsx:564-588 | each count is the number of distinct employees with an approved or pending record of that type; on-duty is office + home |
| ManagerAttendance.AddRecord | app/dashboard/manager/attendanceManagement/page.tsx:564-579 | one more record adds its employee to its work type's set only when counted |
| ManagerAttendance.LastCheckIn | app/dashboard/manager/attendanceManagement/page.tsx:428 | the last check-in of the log, or -1 exactly when there is none |
| ManagerAttendance.AttendancePage.constructor | app/dashboard/manager/attendanceManagement/page.tsx:300-303 | the given records with counts computed from them, not checked in, and an empty log |
| ManagerAttendance.AttendancePage.CompleteAttendance | app/dashboard/manager/attendanceManagement/page.tsx:416-453 | one entry is appended, check-in or check-out by the flag, the flag toggles, and a check-out after a check-in files one approved record first |
| ManagerAttendance.DayCountBasics | app/dashboard/manager/attendanceManagement/page.tsx:92-98 | the count is at least 1, 1 for the same moment, and symmetric |
| ManagerAttendance.DayCountOfDates | app/dashboard/manager/attendanceManagement/page.tsx:92-98 | between two dates, the days from one to the other with both ends included |
| ManagerAttendance.DayCountRoundsUp | app/dashboard/manager/attendanceManagement/page.tsx:97 | part of a day counts as a whole day |
| ManagerAttendance.EmptyCriteriaKeepAll | app/dashboard/manager/attendanceManagement/page.tsx:139-155 | with every criterion empty, every record is shown |
| ManagerAttendance.FilteredAppend | app/dashboard/manager/attendanceManagement/page.tsx:139-155 | filtering keeps the records' order |
| ManagerAttendance.OnDutyCountsTwice | app/dashboard/manager/attendanceManagement/page.tsx:581-588 | an employee with office and home records is counted twice on duty |
| ManagerAttendance.UncountedRecord | app/dashboard/manager/attendanceManagement/page.tsx:564-579 | rejected records and other work types add to no count |
| EmployeeRecords.Indexed | app/dashboard/hr/EmployeeManagement/employeemanagement/EmployeeView.tsx:75-78 | spreading a list gives each element under its index |
| EmployeeRecords.GetAge | app/dashboard/hr/EmployeeManagement/employeemanagement/EmployeeView.tsx:98-107 | the age is the number of birthdays reached: the age-th is on or before today and the next is after |
| EmployeeRecords.AgeOnBirthday | app/dashboard/hr/EmployeeManagement/employeemanagement/EmployeeView.tsx:98-107 | on the k-th birthday the age is k, and the day before it is k − 1 |
| EmployeeRecords.SetField | app/dashboard/hr/EmployeeManagement/employeemanagement/EmployeeView.tsx:65-83 | only the field before the first dot is added or changed; a name without a dot takes the value itself |
| EmployeeRecords.FullName | app/dashboard/hr/EmployeeManagement/employeemanagement/EmployeeView.tsx:118 | starts with the first name and a space, ends with the last name, and is one or two spaces longer than the names, as the middle name is empty or not |
| EmployeeRecords.Initials | app/dashboard/hr/EmployeeManagement/employeemanagement/EmployeeView.tsx:119 | the first characters of the first and last names, each when present |
| EmployeeRecords.EmployeeView.constructor | app/dashboard/hr/EmployeeManagement/employeemanagement/EmployeeView.tsx:62-63 | not editing, with the record as given |
| EmployeeRecords.EmployeeView.StartEditing | app/dashboard/hr/EmployeeManagement/employeemanagement/EmployeeView.tsx:525 | editing starts and keeps the edits |
| EmployeeRecords.EmployeeView.HandleChange | app/dashboard/hr/EmployeeManagement/employeemanagement/EmployeeView.tsx:65-83 | the edited record takes the plain or dotted field |
| EmployeeRecords.EmployeeView.Submit | app/dashboard/hr/EmployeeManagement/employeemanagement/EmployeeView.tsx:85-89 | the edited record is handed on and editing ends |
| EmployeeRecords.EmployeeView.StopEditing | app/dashboard/hr/EmployeeManagement/employeemanagement/EmployeeView.tsx:145 | editing ends and the edits are kept |
| EmployeeRecords.AdminEmployeeView.constructor | app/dashboard/admin/employees/page.tsx:99-100 | not editing, with the record as given |
| EmployeeRecords.AdminEmployeeView.StartEditing | app/dashboard/admin/employees/page.tsx:126 | editing starts |
| EmployeeRecords.AdminEmployeeView.HandleChange | app/dashboard/admin/employees/page.tsx:102-108 | only the named top-level field changes |
| EmployeeRecords.AdminEmployeeView.Save | app/dashboard/admin/employees/page.tsx:110-113 | the edited record is handed on, editing ends, and the saved record becomes the view's record, as the parent passes it back |
| EmployeeRecords.AdminEmployeeView.Cancel | app/dashboard/admin/employees/page.tsx:148-151 | editing ends and the record last saved (the opened one before any save) is restored |
| EmployeeRecords.SetPlainField | app/dashboard/hr/EmployeeManagement/employeemanagement/EmployeeView.tsx:79-82 | a name without a dot sets that field and leaves every other field alone |
| EmployeeRecords.SetNestedField | app/dashboard/hr/EmployeeManagement/employeemanagement/EmployeeView.tsx:67-78 | "parent.child" sets the child in the parent and keeps the parent's other entries and every other field |
| EmployeeRecords.FullNameWords | app/dashboard/hr/EmployeeManagement/employeemanagement/EmployeeView.tsx:118 | the full name's words are first, middle when non-empty, and last |
| EmployeeRecords.InitialsOfFullName | app/dashboard/hr/EmployeeManagement/employeemanagement/EmployeeView.tsx:119 | the initials are the first letters of the first and last names |
| EmployeeDirectory.MaxIdNumber | app/dashboard/hr/EmployeeManagement/page.tsx:142-154 | no employee's id number exceeds it |
| EmployeeDirectory.NewEmployeeId | app/dashboard/hr/EmployeeManagement/page.tsx:146 | an "EMP" id of at least three digits reading back as the count plus one |
| EmployeeDirectory.NextFreeEmployeeId | app/dashboard/hr/EmployeeManagement/page.tsx:142-154 | an "EMP" id whose number exceeds every listed employee's |
| EmployeeDirectory.NewRecord | app/dashboard/hr/EmployeeManagement/page.tsx:142-154 | the submitted fields plus the key, the id and the type ("Full-time" when none was given); no other field changes |
| EmployeeDirectory.Search | app/dashboard/hr/EmployeeManagement/page.tsx:195-200 | an employee is kept iff the term, ignoring case, is in the first name, last name, id or job role |
| EmployeeDirectory.ReplaceById | app/dashboard/hr/EmployeeManagement/page.tsx:166-174 | every entry with the id is replaced, others are kept, and the length is unchanged |
| EmployeeDirectory.RemoveById | app/dashboard/hr/EmployeeManagement/page.tsx:180-193 | an entry remains iff it was there and does not have the id |
| EmployeeDirectory.DirectoryPage.constructor | app/dashboard/hr/EmployeeManagement/page.tsx:54-136 | the given list, nothing selected, no modal and no pending delete |
| EmployeeDirectory.DirectoryPage.SetSearch | app/dashboard/hr/EmployeeManagement/page.tsx:138-140 | only the search term changes |
| EmployeeDirectory.DirectoryPage.OpenAddModal | app/dashboard/hr/EmployeeManagement/page.tsx:207 | the add dialog opens |
| EmployeeDirectory.DirectoryPage.CloseAddModal | app/dashboard/hr/EmployeeManagement/page.tsx:310-321 | the add dialog closes and nothing is added; nothing else changes |
| EmployeeDirectory.DirectoryPage.AddEmployee | app/dashboard/hr/EmployeeManagement/page.tsx:142-154 | the record is appended with its key, the id "EMP" + (list length + 1) and its type (default "Full-time"); the dialog closes with a success message; the id is held by no one while the ids run EMP001, EMP002, ... in order |
| EmployeeDirectory.DirectoryPage.AddEmployeeWithFreshId | app/dashboard/hr/EmployeeManagement/page.tsx:142-154 | the corrected add: as above, with an id one past the largest in use, held by no one in the list |
| EmployeeDirectory.DirectoryPage.ViewEmployee | app/dashboard/hr/EmployeeManagement/page.tsx:156-159 | the employee is selected and shown |
| EmployeeDirectory.DirectoryPage.CloseView | app/dashboard/hr/EmployeeManagement/page.tsx:161-164 | the view closes and the selection is cleared |
| EmployeeDirectory.DirectoryPage.EditEmployee | app/dashboard/hr/EmployeeManagement/page.tsx:166-174 | entries with the record's id are replaced and a message is shown; the selection and the view stay as they were |
| EmployeeDirectory.DirectoryPage.DeleteClick | app/dashboard/hr/EmployeeManagement/page.tsx:176-178 | only the pending id is recorded |
| EmployeeDirectory.DirectoryPage.CancelDelete | app/dashboard/hr/EmployeeManagement/page.tsx:176-178 | the pending id is cleared |
| EmployeeDirectory.DirectoryPage.ConfirmDelete | app/dashboard/hr/EmployeeManagement/page.tsx:180-193 | with a pending id, exactly its entries are removed, the pending id cleared and a view of it closed; with none, nothing changes |
| EmployeeDirectory.AdminEmployeesPage.constructor | app/dashboard/admin/employees/page.tsx:482-484 | the given list, no selection, empty search |
| EmployeeDirectory.AdminEmployeesPage.SetSearch | app/dashboard/admin/employees/page.tsx:527 | only the search term changes |
| EmployeeDirectory.AdminEmployeesPage.Select | app/dashboard/admin/employees/page.tsx:548 | the employee is selected |
| EmployeeDirectory.AdminEmployeesPage.CloseDetails | app/dashboard/admin/employees/page.tsx:565 | the selection is cleared |
| EmployeeDirectory.AdminEmployeesPage.SetAddModal | app/dashboard/admin/employees/page.tsx:534 | the add dialog opens or closes |
| EmployeeDirectory.AdminEmployeesPage.DeleteEmployee | app/dashboard/admin/employees/page.tsx:495-502 | only when confirmed: every entry with the id is removed and a selection of it is cleared |
| EmployeeDirectory.AdminEmployeesPage.EditEmployee | app/dashboard/admin/employees/page.tsx:505-510 | entries with the id are replaced and the selection becomes the updated record |
| EmployeeDirectory.IdNumberOfIdFor | app/dashboard/hr/EmployeeManagement/page.tsx:146 | the id for n reads back as n |
| EmployeeDirectory.IdForInjective | app/dashboard/hr/EmployeeManagement/page.tsx:146 | different numbers give different ids |
| EmployeeDirectory.NextFreeIdIsFresh | app/dashboard/hr/EmployeeManagement/page.tsx:142-154 | the corrected new id is held by no employee |
| EmployeeDirectory.NextFreeWhileNothingDeleted | app/dashboard/hr/EmployeeManagement/page.tsx:142-154 | for a directory built only by adding, the corrected id is the one the page gives |
| EmployeeDirectory.LengthIdFreshWhileNothingDeleted | app/dashboard/hr/EmployeeManagement/page.tsx:146 | while no one has been deleted, the length-based id is held by no one |
| EmployeeDirectory.NewIdRepeatsAfterDelete | app/dashboard/hr/EmployeeManagement/page.tsx:146 | after a delete, the page's new id can repeat a remaining employee's id |
| EmployeeDirectory.SearchEmptyTerm | app/dashboard/hr/EmployeeManagement/page.tsx:195-200 | an empty term keeps everyone |
| EmployeeDirectory.SearchIgnoresCase | app/dashboard/manager/EmployeeManagement/page.tsx:195-200 | an upper-cased term finds the same employees |
| EmployeeDirectory.SearchAppend | app/dashboard/admin/employees/page.tsx:487-492 | search keeps the list's order |
| EmployeeDirectory.ReplaceKeepsIds | app/dashboard/hr/EmployeeManagement/page.tsx:166-174 | entries with other ids are untouched |
| EmployeeDirectory.ReplaceIdempotent | app/dashboard/manager/EmployeeManagement/page.tsx:166-174 | repeating an edit changes nothing |
| EmployeeDirectory.RemoveAppend | app/dashboard/manager/EmployeeManagement/page.tsx:180-193 | delete keeps order |
| EmployeeDirectory.RemoveAbsent | app/dashboard/manager/EmployeeManagement/page.tsx:180-193 | deleting an id nobody has changes nothing |
| EmployeeDirectory.AddThenDelete | app/dashboard/hr/EmployeeManagement/page.tsx:142-193 | deleting a just-added fresh id restores the directory |
| EmployeeIntake.StoreDocument | app/dashboard/manager/EmployeeManagement/employeemanagement/EmployeeAdd.tsx:142-196 | each file type fills only its own entry, the Aadhaar and PAN documents their "documentFile"; text fields and the presence of a post-graduation section are kept |
| EmployeeIntake.ChangeEducation | app/dashboard/manager/EmployeeManagement/employeemanagement/EmployeeAdd.tsx:207-218 | the chosen level's field takes the value, the other level and the personal data are kept, and other graduation fields are untouched |
| EmployeeIntake.ToRecord | app/dashboard/manager/EmployeeManagement/employeemanagement/EmployeeAdd.tsx:201-205 | each text field of the form is in the record handed on |
| EmployeeIntake.IntakeForm.constructor | app/dashboard/manager/EmployeeManagement/employeemanagement/EmployeeAdd.tsx:53-101 | the empty form, no error, no preview, no file names |
| EmployeeIntake.IntakeForm.SetText | app/dashboard/manager/EmployeeManagement/employeemanagement/EmployeeAdd.tsx:247 | one text field takes the value |
| EmployeeIntake.IntakeForm.SetMobileNumber | app/dashboard/manager/EmployeeManagement/employeemanagement/EmployeeAdd.tsx:325-328 | the mobile number keeps only the typed digits |
| EmployeeIntake.IntakeForm.SetAadhaarNumber | app/dashboard/manager/EmployeeManagement/employeemanagement/EmployeeAdd.tsx:394-406 | the Aadhaar number keeps only the typed digits |
| EmployeeIntake.IntakeForm.SetPanNumber | app/dashboard/manager/EmployeeManagement/employeemanagement/EmployeeAdd.tsx:444-456 | the PAN number is stored upper-cased, with no lower-case letter |
| EmployeeIntake.IntakeForm.SetShowPostGrad | app/dashboard/manager/EmployeeManagement/employeemanagement/EmployeeAdd.tsx:493 | the post-graduation section shows or hides, and the form is kept |
| EmployeeIntake.IntakeForm.EducationChange | app/dashboard/manager/EmployeeManagement/employeemanagement/EmployeeAdd.tsx:207-218 | one field of one level changes |
| EmployeeIntake.IntakeForm.PhotoUpload | app/dashboard/manager/EmployeeManagement/employeemanagement/EmployeeAdd.tsx:107-121 | a photo over 5,000,000 bytes is refused with an error; a smaller one becomes the photo and preview |
| EmployeeIntake.IntakeForm.FileUpload | app/dashboard/manager/EmployeeManagement/employeemanagement/EmployeeAdd.tsx:123-199 | a document over 10,000,000 bytes is refused with an error; a smaller one is stored in its slot and its name recorded |
| EmployeeIntake.IntakeForm.Submit | app/dashboard/manager/EmployeeManagement/employeemanagement/EmployeeAdd.tsx:201-205 | the form's record is handed on |
| EmployeeIntake.NumberFilters | app/dashboard/manager/EmployeeManagement/employeemanagement/EmployeeAdd.tsx:325-328 | the digit and upper-case filters are idempotent, and digits pass unchanged |
| EmployeeIntake.StoreGraduationCertificate | app/dashboard/manager/EmployeeManagement/employeemanagement/EmployeeAdd.tsx:143-154 | the certificate is stored in the graduation entry and nothing else changes |
| EmployeeIntake.StoreIdentityDocument | app/dashboard/manager/EmployeeManagement/employeemanagement/EmployeeAdd.tsx:172-195 | the Aadhaar and PAN documents go to their own entries |
| EmployeeIntake.PostGraduationCertificateNeedsSection | app/dashboard/manager/EmployeeManagement/employeemanagement/EmployeeAdd.tsx:155-171 | without a post-graduation entry its certificate is ignored |
| EmployeeIntake.UnknownSlotIgnored | app/dashboard/manager/EmployeeManagement/employeemanagement/EmployeeAdd.tsx:142-196 | an unknown file type leaves the form unchanged |
| EmployeeIntake.EducationChangeFrame | app/dashboard/manager/EmployeeManagement/employeemanagement/EmployeeAdd.tsx:207-218 | the other level and all other data are kept, and a missing post-graduation starts with just this field |
| EmployeeIntake.SubmittedRecordIsListed | app/dashboard/hr/EmployeeManagement/page.tsx:195-200 | the submitted record has the text name, id and role fields that search reads |
| Text.DigitsOnly | app/dashboard/manager/EmployeeManagement/employeemanagement/EmployeeAdd.tsx:326 | the result is all digits, no longer than the input, and holds each digit as often as the input does |
| Text.DigitsOnlyAppend | app/dashboard/manager/EmployeeManagement/employeemanagement/EmployeeAdd.tsx:326 | the digits are kept in their order: filtering a joined text joins the filtered parts |
| Text.DigitsOnlyOfDigits | app/dashboard/manager/EmployeeManagement/employeemanagement/EmployeeAdd.tsx:326 | digit filtering is idempotent and leaves digits alone |
| Text.UpperAppend | app/dashboard/manager/EmployeeManagement/employeemanagement/EmployeeAdd.tsx:445 | upper-casing distributes over concatenation |
| Text.SplitJoin | app/dashboard/admin/payrollandexpenses/payslip-form.tsx:95 | splitting and joining with the separator gives the text back |
| Text.IntToStringParses | app/dashboard/admin/payrollandexpenses/payslip-form.tsx:138 | `parseInt` of a rendered integer gives it back |
| Approvals.Resolve | app/dashboard/hr/attendance/page.tsx:46-54 | every request with the id is set to the decision, the others are kept, and the length is unchanged |
| Approvals.Capitalize | app/dashboard/hr/page.tsx:172 | the first letter is upper-cased and the rest kept |
| Approvals.StatusBadge | app/dashboard/hr/attendance/page.tsx:196 | same length; letters upper-cased, the first underscore a space and later ones kept |
| Approvals.FilterRows | app/dashboard/hr/attendance/page.tsx:60-64 | a record is shown iff the filter is "all" or its status, and its name contains the term ignoring case |
| Approvals.ProcessAll | app/dashboard/hr/payroll/page.tsx:82-89 | every status becomes "processed" and nothing else changes |
| Approvals.FilterByName | app/dashboard/hr/payroll/page.tsx:91-93 | an employee is kept iff the name contains the term ignoring case |
| Approvals.LeaveDesk.constructor | app/dashboard/hr/page.tsx:39 | the given requests |
| Approvals.LeaveDesk.HandleLeaveRequest | app/dashboard/hr/page.tsx:100-108 | the requests become the resolved list |
| Approvals.PayrollPage.constructor | app/dashboard/hr/payroll/page.tsx:28-66 | the given lists, empty search, payroll view |
| Approvals.PayrollPage.SetSearch | app/dashboard/hr/payroll/page.tsx:133 | only the search term changes |
| Approvals.PayrollPage.ToggleView | app/dashboard/hr/payroll/page.tsx:100 | the view switches between payroll and reimbursements |
| Approvals.PayrollPage.HandleReimbursement | app/dashboard/hr/payroll/page.tsx:67-75 | only matching reimbursements change, to approved or rejected |
| Approvals.PayrollPage.ProcessPayroll | app/dashboard/hr/payroll/page.tsx:82-89 | every employee is processed; reimbursements are kept |
| Approvals.Decision | app/dashboard/hr/attendance/page.tsx:49-51 | "approved" iff the action is approve, "rejected" otherwise |
| Approvals.ResolveTwice | app/dashboard/hr/page.tsx:100-108 | a second decision on the same id overrides the first |
| Approvals.ResolveUnknownId | app/dashboard/hr/payroll/page.tsx:67-75 | an unknown id changes nothing |
| Approvals.ResolvedNotOffered | app/dashboard/hr/page.tsx:176 | ids are kept and a decided request is no longer offered approve/reject |
| Approvals.PendingCount | app/dashboard/hr/attendance/page.tsx:282 | the number of positions holding a request whose approve and reject buttons are shown, at most the length of the list |
| Approvals.PendingCountAppend | app/dashboard/hr/attendance/page.tsx:282 | one more request adds one pending request exactly when it is pending |
| Approvals.ResolveOnePending | app/dashboard/hr/payroll/page.tsx:295 | deciding a uniquely identified pending request lowers the pending count by one |
| Approvals.ProcessAllIdempotent | app/dashboard/hr/payroll/page.tsx:82-89 | processing twice is processing once |
| Approvals.FilterAllRows | app/dashboard/hr/attendance/page.tsx:60-64 | "all" with no term shows every record |
| Approvals.FilteredStatus | app/dashboard/hr/attendance/page.tsx:61 | with a status filter, every shown record has that status |
| Approvals.UnderscoreBecomesSpace | app/dashboard/hr/attendance/page.tsx:196 | the first underscore of a status becomes a space |
| Approvals.TwoWordBadge | app/dashboard/hr/attendance/page.tsx:196 | a two-part status is shown as its two words upper-cased |
| Onboarding.SectionOf | app/dashboard/hr/onboarding/page.tsx:103-390 | a section is shown iff the step is 1 to 5 |
| Onboarding.StoreUpload | app/dashboard/hr/onboarding/page.tsx:77-93 | the slot holds just this file and other slots are kept |
| Onboarding.UploadAllAsWritten | app/dashboard/hr/onboarding/page.tsx:343-346 | other slots are kept, and no files change nothing |
| Onboarding.AddCertificate | app/dashboard/hr/onboarding/page.tsx:343-346 | one more certificate joins the held ones; other slots are kept |
| Onboarding.OnboardingWizard.constructor | app/dashboard/hr/onboarding/page.tsx:38-75 | step 1, the three detail sections with every field empty, terms not accepted, no documents, idle uploads |
| Onboarding.OnboardingWizard.Next | app/dashboard/hr/onboarding/page.tsx:434-441 | one step on, within 1..5 |
| Onboarding.OnboardingWizard.Previous | app/dashboard/hr/onboarding/page.tsx:425-431 | one step back, within 1..5 |
| Onboarding.OnboardingWizard.SetDetail | app/dashboard/hr/onboarding/page.tsx:116-119 | one detail field takes the value |
| Onboarding.OnboardingWizard.SetTerms | app/dashboard/hr/onboarding/page.tsx:372-378 | the terms checkbox takes its state |
| Onboarding.OnboardingWizard.UploadDocument | app/dashboard/hr/onboarding/page.tsx:77-93 | the slot holds the file, replacing any earlier one, and reports success |
| Onboarding.OnboardingWizard.UploadCertificates | app/dashboard/hr/onboarding/page.tsx:343-346 | every chosen certificate is kept after the earlier ones (corrected) |
| Onboarding.OnboardingWizard.Submit | app/dashboard/hr/onboarding/page.tsx:95-101 | the HR dashboard is reached iff the terms are accepted |
| Onboarding.StepsShowSections | app/dashboard/hr/onboarding/page.tsx:103-390 | every reachable step shows a section: step 1 personal details, step 5 terms |
| Onboarding.AsWrittenKeepsLastCertificate | app/dashboard/hr/onboarding/page.tsx:343-346 | as written, only the last chosen certificate is stored |
| Onboarding.TwoCertificates | app/dashboard/hr/onboarding/page.tsx:343-346 | example of the finding: two certificates give [b] as written and [a, b] corrected |
| ManagerDashboard.OfKind | app/dashboard/manager/page.tsx:212-218 | a notification is kept iff it has the type, and the count cannot exceed the list |
| ManagerDashboard.OfKindAppend | app/dashboard/manager/page.tsx:212-218 | one more notification at the end is listed at the end exactly when it has the type |
| ManagerDashboard.OfKindConcat | app/dashboard/manager/page.tsx:212-218 | filtering a concatenation filters each part, so the filtered list keeps the notifications' order |
| ManagerDashboard.Visible | app/dashboard/manager/page.tsx:212-218 | "all" lists every notification; any other filter lists exactly those of its type |
| ManagerDashboard.FilterCount | app/dashboard/manager/page.tsx:239-246 | the "all" count is the number of notifications, and no count exceeds it |
| ManagerDashboard.UnreadCount | app/dashboard/manager/page.tsx:322 | the number of positions holding an unread notification |
| ManagerDashboard.PasswordProblem | app/dashboard/manager/page.tsx:66-89 | accepted iff new equals confirm and current and new are non-empty; the mismatch message iff they differ |
| ManagerDashboard.Dashboard.constructor | app/dashboard/manager/page.tsx:10-35 | filter "all" lists everything, empty passwords, closed dialogs |
| ManagerDashboard.Dashboard.SetFilter | app/dashboard/manager/page.tsx:209-218 | the list is the chosen filter's notifications |
| ManagerDashboard.Dashboard.ToggleProfileMenu | app/dashboard/manager/page.tsx:437 | the profile menu flips between open and closed, and nothing else changes |
| ManagerDashboard.Dashboard.ClosePasswordDialog | app/dashboard/manager/page.tsx:557-615 | the close and Cancel buttons close the change-password dialog and keep the typed passwords |
| ManagerDashboard.Dashboard.CloseProfileDialog | app/dashboard/manager/page.tsx:640-709 | the close and Cancel buttons close the edit-profile dialog and keep the edited fields |
| ManagerDashboard.Dashboard.MouseDown | app/dashboard/manager/page.tsx:110-131 | a press outside the profile menu closes it, and a press outside the open dialog closes both dialogs; nothing typed is lost |
| ManagerDashboard.Dashboard.HandleProfileAction | app/dashboard/manager/page.tsx:36-46 | the menu closes; the two paths open their dialogs; logout alerts and leaves for /login; any other path does nothing else |
| ManagerDashboard.Dashboard.HandlePasswordChange | app/dashboard/manager/page.tsx:48-54 | one password field takes the value |
| ManagerDashboard.Dashboard.HandleProfileDataChange | app/dashboard/manager/page.tsx:57-63 | one profile field takes the value |
| ManagerDashboard.Dashboard.SavePasswordChanges | app/dashboard/manager/page.tsx:66-89 | a refused change alerts its reason and keeps everything; an accepted one alerts success, clears the fields and closes the dialog |
| ManagerDashboard.Dashboard.SaveProfileChanges | app/dashboard/manager/page.tsx:92-97 | alerts success and closes the dialog |
| ManagerDashboard.FiveKindsPartition | app/dashboard/manager/page.tsx:239-246 | over five distinct types covering every notification, the type counts add up to the total |
| ManagerDashboard.KindCountsAddUp | app/dashboard/manager/page.tsx:239-246 | the five filter counts add up to the "all" count |
| ManagerDashboard.AllUnread | app/dashboard/manager/page.tsx:322 | every notification is new iff none is read, and none is new iff all are read |
| ManagerDashboard.PasswordCheckOrder | app/dashboard/manager/page.tsx:68-76 | a mismatch is reported before a missing field |
| AdminSidebar.ActiveItemOf | app/dashboard/admin/layout.tsx:42-49 | the first item whose path is the path or a '/'-bounded parent of it; "dashboard" when none matches |
| AdminSidebar.ActiveItemFromPath | app/dashboard/admin/layout.tsx:42-49 | the search loop returns the same item |
| AdminSidebar.Sidebar.constructor | app/dashboard/admin/layout.tsx:52-70 | after mounting the path's item is highlighted and saved |
| AdminSidebar.Sidebar.PathChanged | app/dashboard/admin/layout.tsx:62-70 | a new path highlights and saves its item; the same path changes nothing |
| AdminSidebar.Sidebar.Click | app/dashboard/admin/layout.tsx:97-101 | a click goes to the item's path, whose own item is then highlighted and saved |
| AdminSidebar.Sidebar.ToggleSidebar | app/dashboard/admin/layout.tsx:88 | the sidebar opens or closes and nothing else changes |
| AdminSidebar.OwnPathSelectsItem | app/dashboard/admin/layout.tsx:42-47 | an item's path, and any page below it, select it unless an earlier item matches |
| AdminSidebar.NoMatchWithoutSlash | app/dashboard/admin/layout.tsx:45 | a path continuing with another character than '/' does not match |
| AdminSidebar.EarlierParentShadows | app/dashboard/admin/layout.tsx:43-47 | an item below an earlier item's path is never highlighted for its own path |
| TaskBoard.SwapRoles | app/dashboard/admin/taskmanagement/page.tsx:47-52 | each member's role is swapped and everything else kept, in place |
| TaskBoard.RoleCount | app/dashboard/admin/taskmanagement/page.tsx:47-52 | the count cannot exceed the team |
| TaskBoard.ProjectBoard.constructor | app/dashboard/admin/taskmanagement/page.tsx:17-37 | the initial teams and no project selected |
| TaskBoard.ProjectBoard.ProjectClick | app/dashboard/admin/taskmanagement/page.tsx:40-42 | the project is selected and the teams are untouched |
| TaskBoard.ProjectBoard.Swap | app/dashboard/admin/taskmanagement/page.tsx:45-56 | the selected project's roles are swapped and the other projects kept; with none selected, nothing changes |
| TaskBoard.SwapTwiceRestores | app/dashboard/admin/taskmanagement/page.tsx:49-52 | with only front-end and back-end members, two swaps restore the team |
| TaskBoard.OtherRoleNotRestored | app/dashboard/admin/taskmanagement/page.tsx:50 | any other role ends up "backend" after two swaps |
| TaskBoard.SwapKeepsMembers | app/dashboard/admin/taskmanagement/page.tsx:48-52 | ids and names stay in place and only the two roles remain |
| TaskBoard.SwapExchangesCounts | app/dashboard/admin/taskmanagement/page.tsx:47-52 | a swap exchanges the front-end and back-end counts |
| AttendanceCounters.Click | app/dashboard/admin/attendancemanagement/page.tsx:16-21 | exactly the chosen counter goes up by one, so the total rises by one |
| AttendanceCounters.AttendancePanel.constructor | app/dashboard/admin/attendancemanagement/page.tsx:6-14 | the counters start at 0 and the form is hidden and empty |
| AttendanceCounters.AttendancePanel.HandleClick | app/dashboard/admin/attendancemanagement/page.tsx:16-21 | exactly the chosen counter goes up by one |
| AttendanceCounters.AttendancePanel.LeaveClick | app/dashboard/admin/attendancemanagement/page.tsx:23-25 | only the form is shown |
| AttendanceCounters.AttendancePanel.SetEmployeeId | app/dashboard/admin/attendancemanagement/page.tsx:79 | the id field takes the value |
| AttendanceCounters.AttendancePanel.SetReason | app/dashboard/admin/attendancemanagement/page.tsx:86 | the reason field takes the value |
| AttendanceCounters.LeaveAlert | app/dashboard/admin/attendancemanagement/page.tsx:29 | the alert starts with "Leave Applied:" and the id label, then shows the id, and ends with the reason |
| AttendanceCounters.AttendancePanel.SubmitLeave | app/dashboard/admin/attendancemanagement/page.tsx:27-33 | with both fields filled, the leave is announced, the fields are cleared and the form hides; with one empty, nothing happens |
| AttendanceCounters.AttendancePanel.CancelLeave | app/dashboard/admin/attendancemanagement/page.tsx:98 | the form hides and keeps what was typed |
| AttendanceCounters.CountersCountClicks | app/dashboard/admin/attendancemanagement/page.tsx:6-21 | each counter is the number of clicks on its mode, so together they count every click |
| AttendanceCounters.CountersGrow | app/dashboard/admin/attendancemanagement/page.tsx:16-21 | more clicks never lower a counter |

## Left out

- Browser storage and JSON are not reproduced as text. A stored key is read as nothing, an unreadable text or a list, and storage-failure logging is not modelled.
- Printing and the print window's HTML are not modelled. Only the statement's figures and pay period are.
- Floating point is not modelled; amounts are exact decimals. `parseFloat` reads only an optional sign, digits and a fraction: no exponents, "Infinity" or leading blanks.
- Amounts.Cents: `toFixed(2)` is modelled as rounding half away from zero on exact decimals, not IEEE rounding, and "-0.00" is not told apart from "0.00".
- Currency formatting in the dialog (`formatCurrency`) is not modelled: lib/utils is not part of this model.
- Randomness, the clock and ids are parameters: `uuidv4`, `Math.random`, `Date.now`, `new Date()`.
- Date parsing and locale formatting are not modelled. Dates are day numbers, and moments are millisecond counts in UTC.
- Case mapping is ASCII only. Text lengths count characters, not UTF-16 units.
- JavaScript `trim` is modelled as removing ASCII blanks.
- Timers are collapsed to their end state: the login screen's one-second mode switches and the onboarding upload's one-second delay. The onboarding upload's intermediate "uploading" status is therefore not observable.
- The three-second timers that clear the status message of the HR and manager employee-management pages (app/dashboard/hr/EmployeeManagement/page.tsx:153, 173, 186, and the same lines of the manager copy) are not modelled: the message stays as the handler set it.
- The login page's message effects are not modelled (app/auth/login/page.tsx:51-73): copying a shown message to the `authMessage` storage key, clearing it after five seconds, and restoring it from storage on mounting. The form's message stays as the handler set it.
- The onboarding upload's error branch is not modelled: the collapsed delay never fails.
- The camera and face-scan flow of the manager attendance screen is not modelled, nor `FileReader`, which the model replaces by the file's data given as a parameter.
- Routing, toasts, modals' markup, styling and menus (the profile menu items) are not modelled. Navigation is recorded as a location or a returned route.
- Loading flags are not modelled, apart from the auth context's `isLoading`.
- Credential security is out of scope. The demonstration users are data: the model checks only the lookup and comparison rules.
- The navigation items of the administrator's sidebar come from a utilities file that is not part of this model. They are a parameter.
- The HR attendance and payroll screens' month pickers take part in no filter and are not modelled. `generateMonthlyReport` and `generatePayslip` only log, and are not modelled either.
- The toggles between lists on the HR attendance screen are not modelled, nor the open state of the manager's notification panel and help menu. The outside-press handler is modelled only for the profile menu and the dialogs.
- EmployeeIntake.IntakeForm.Submit: the browser's constraint validation of the intake form (`required`, `pattern`, `maxLength`) is not modelled. The record is handed on as the form holds it.
- The initial demonstration lists (employees, requests, notifications, projects and payslips) are parameters of the constructors, not their literal contents.
- Several handlers assume what the screens guarantee, stated as preconditions:
  - EmployeeDirectory.DirectoryPage.EditEmployee requires the edited record to be listable (its names, id and role are text);
  - LoginForm.AuthForm.SubmitCode requires verify mode;
  - Onboarding.OnboardingWizard.Next and Onboarding.OnboardingWizard.Previous require the step their button is shown on.

## Findings

| source | as written | input that shows it | evidently intended | confidence | as-written member | corrected member |
|---|---|---|---|---|---|---|
| app/dashboard/hr/EmployeeManagement/page.tsx:146 | a new employee's id is "EMP" + the padded number (list length + 1), described as a unique id | employees EMP001 and EMP002; delete EMP001; add one: it gets EMP002, the id the remaining employee already holds | an id no current employee holds (one more than the largest id number) | high; not executed | EmployeeDirectory.NewIdRepeatsAfterDelete | EmployeeDirectory.DirectoryPage.AddEmployeeWithFreshId |
| app/dashboard/hr/onboarding/page.tsx:343-346 | every chosen certificate goes through the single-file upload, which replaces the slot's contents | choose two certificates a and b at once: only b is kept | every chosen certificate kept, in order | high; not executed | Onboarding.AsWrittenKeepsLastCertificate | Onboarding.OnboardingWizard.UploadCertificates |

=== FILE: admin_sidebar.dfy ===
/** The administrator's sidebar: which navigation item is highlighted for the current
    path (the first item whose path is the current path or a parent of it at a '/'
    boundary, else "dashboard"), and how the highlighted item follows clicks, path
    changes and the value saved in browser storage. The navigation items are a
    parameter; their list is not part of this model. Navigation completes at once. */
module AdminSidebar {
  import opened Text

  datatype NavItem = NavItem(id: string, title: string, path: string)

  const DefaultItem := "dashboard"

  /** `pathname === path || pathname.startsWith(path + '/')`. */
  predicate PathMatches(pathname: string, path: string) {
    pathname == path || path + "/" <= pathname
  }

  /** The item of the first navigation entry matching the path, or "dashboard". */
  function ActiveItemOf(items: seq<NavItem>, pathname: string): (r: string)
    ensures (forall k :: 0 <= k < |items| ==> !PathMatches(pathname, items[k].path)) ==> r == DefaultItem
    ensures forall k :: 0 <= k < |items| && PathMatches(pathname, items[k].path)
                        && (forall j :: 0 <= j < k ==> !PathMatches(pathname, items[j].path))
                        ==> r == items[k].id
  {
    if items == [] then DefaultItem
    else if PathMatches(pathname, items[0].path) then items[0].id
    else
      var r := ActiveItemOf(items[1..], pathname);
      assert forall k :: 1 <= k < |items| ==> items[k] == items[1..][k - 1];
      r
  }

  /** `getActiveItemFromPath`, as the loop over the navigation items it is. */
  method ActiveItemFromPath(items: seq<NavItem>, pathname: string) returns (id: string)
    ensures id == ActiveItemOf(items, pathname)
  {
    var i := 0;
    while i < |items|
      invariant 0 <= i <= |items|
      invariant ActiveItemOf(items[i..], pathname) == ActiveItemOf(items, pathname)
    {
      if PathMatches(pathname, items[i].path) {
        return items[i].id;
      }
      assert items[i..][1..] == items[i + 1..];
      i := i + 1;
    }
    return DefaultItem;
  }

  class Sidebar {
    const items: seq<NavItem>
    var pathname: string
    var activeItem: string
    /** What browser storage holds under "activeNavItem". */
    var stored: Option<string>
    var sidebarOpen: bool

    /** Storage always holds the highlighted item. */
    predicate Valid()
      reads this
    {
      stored == Some(activeItem)
    }

    /** Mounting: the state starts from the saved item when there is a non-empty one,
        else from the path; then the storage effect saves it and the path effect
        replaces it with the path's item, which is saved in turn. */
    constructor (items: seq<NavItem>, pathname: string, saved: Option<string>)
      ensures Valid() && this.items == items && this.pathname == pathname && sidebarOpen
      ensures activeItem == ActiveItemOf(items, pathname)
    {
      var fromPath := ActiveItemFromPath(items, pathname);
      this.items := items;
      this.pathname := pathname;
      sidebarOpen := true;
      activeItem := if saved.Some? && saved.value != "" then saved.value else fromPath;
      stored := Some(activeItem);
      activeItem := fromPath;
      stored := Some(activeItem);
    }

    /** The path changes (by navigation of any kind): the path's item is highlighted
        and saved. An unchanged path runs no effect. */
    method PathChanged(newPath: string)
      requires Valid()
      modifies this
      ensures Valid() && pathname == newPath
      ensures newPath != old(pathname) ==> activeItem == ActiveItemOf(items, newPath)
      ensures newPath == old(pathname) ==> activeItem == old(activeItem)
      ensures sidebarOpen == old(sidebarOpen)
    {
      if newPath != pathname {
        pathname := newPath;
        var id := ActiveItemFromPath(items, newPath);
        activeItem := id;
        stored := Some(activeItem);
      }
    }

    /** A click highlights the item and navigates to its path, whose own item then
        takes over; clicking the item of the current path keeps the clicked one. */
    method Click(k: nat)
      requires Valid() && k < |items|
      modifies this
      ensures Valid() && pathname == items[k].path
      ensures items[k].path != old(pathname) ==> activeItem == ActiveItemOf(items, items[k].path)
      ensures items[k].path == old(pathname) ==> activeItem == items[k].id
      ensures sidebarOpen == old(sidebarOpen)
    {
      activeItem := items[k].id;
      stored := Some(activeItem);
      PathChanged(items[k].path);
    }

    method ToggleSidebar()
      modifies this
      ensures sidebarOpen == !old(sidebarOpen)
      ensures activeItem == old(activeItem) && stored == old(stored) && pathname == old(pathname)
    {
      sidebarOpen := !sidebarOpen;
    }
  }

  // ---------------------------------------------------------------- lemmas

  /** An item's own path and every page below it select the item, unless an earlier
      item matches too. */
  lemma OwnPathSelectsItem(items: seq<NavItem>, k: nat, rest: string)
    requires k < |items|
    requires forall j :: 0 <= j < k ==> !PathMatches(items[k].path, items[j].path)
    requires forall j :: 0 <= j < k ==> !PathMatches(items[k].path + "/" + rest, items[j].path)
    ensures ActiveItemOf(items, items[k].path) == items[k].id
    ensures ActiveItemOf(items, items[k].path + "/" + rest) == items[k].id
  {
    var p := items[k].path;
    assert p + "/" <= p + "/" + rest;
  }

  /** The boundary: a path that merely continues an item's path with another
      character than '/' does not match it. */
  lemma NoMatchWithoutSlash(path: string, c: char, rest: string)
    requires c != '/'
    ensures !PathMatches(path + [c] + rest, path)
  {
    var pathname := path + [c] + rest;
    assert pathname[|path|] == c;
    assert (path + "/")[|path|] == '/';
  }

  /** With distinct ids, an item whose path lies below an earlier item's path is
      never highlighted for its own path: the earlier item is found first. */
  lemma {:induction false} EarlierParentShadows(items: seq<NavItem>, i: nat, j: nat)
    requires i < j < |items|
    requires forall a, b :: 0 <= a < b < |items| ==> items[a].id != items[b].id
    requires PathMatches(items[j].path, items[i].path)
    ensures ActiveItemOf(items, items[j].path) != items[j].id
    decreases |items|
  {
    var p := items[j].path;
    if PathMatches(p, items[0].path) {
      assert ActiveItemOf(items, p) == items[0].id;
    } else {
      assert i > 0;
      assert forall k :: 1 <= k < |items| ==> items[k] == items[1..][k - 1];
      EarlierParentShadows(items[1..], i - 1, j - 1);
    }
  }
}

=== FILE: amounts.dfy ===
/** The payslip calculator: free-text amounts are read with `parseFloat(...) || 0`,
    summed in list order, and shown with `toFixed(2)`. Amounts are exact decimals
    (`real`); a shown figure is an integer number of hundredths. */
module Amounts {
  import opened Text

  /** One row of the earnings or deductions table: a label and the text typed for it. */
  datatype LineItem = LineItem(name: string, amount: string)

  function Pow10(n: nat): (p: nat)
    ensures p >= 1
  {
    if n == 0 then 1 else 10 * Pow10(n - 1)
  }

  /** What `parseFloat` reads at the start of a text: the sign, the integer digits and
      the digits after a '.'. */
  datatype NumberParts = NumberParts(negative: bool, whole: string, fraction: string)

  /** The parts of the number at the start of `s`: an optional sign, integer digits
      and an optional fraction after '.'. Exponents, "Infinity" and leading blanks are
      not read. */
  function SplitNumber(s: string): (p: NumberParts)
    ensures AllDigits(p.whole) && AllDigits(p.fraction)
  {
    var negative := s != [] && s[0] == '-';
    var body := if s != [] && (s[0] == '-' || s[0] == '+') then s[1..] else s;
    var whole := LeadingDigits(body);
    var rest := body[|whole|..];
    var fraction := if rest != [] && rest[0] == '.' then LeadingDigits(rest[1..]) else [];
    NumberParts(negative, whole, fraction)
  }

  /** The decimal number at the start of `s`, with at least one digit in all; `None`
      stands for `NaN`. */
  function ParseDecimal(s: string): Option<real> {
    var p := SplitNumber(s);
    if p.whole == [] && p.fraction == [] then None
    else
      var magnitude := DecimalValue(p.whole, p.fraction);
      Some(if p.negative then -magnitude else magnitude)
  }

  /** The value of the digits `whole` "." `fraction`. */
  function DecimalValue(whole: string, fraction: string): real
    requires AllDigits(whole) && AllDigits(fraction)
  {
    DigitsValue(whole) as real + DigitsValue(fraction) as real / Pow10(|fraction|) as real
  }

  /** `Number.parseFloat(text) || 0`: an unreadable amount counts as zero, and any
      other result is the number read. */
  function ParseAmount(text: string): (r: real)
    ensures ParseDecimal(text).None? ==> r == 0.0
    ensures r != 0.0 ==> ParseDecimal(text) == Some(r)
  {
    ParseDecimal(text).GetOr(0.0)
  }

  /** `calculateTotal` before rounding: the parsed amounts added up in list order. */
  function Total(items: seq<LineItem>): (t: real)
    ensures (forall i :: 0 <= i < |items| ==> ParseAmount(items[i].amount) >= 0.0) ==> t >= 0.0
  {
    if items == [] then 0.0
    else
      var init := items[..|items| - 1];
      assert forall i :: 0 <= i < |init| ==> init[i] == items[i];
      Total(init) + ParseAmount(items[|items| - 1].amount)
  }

  /** `x.toFixed(2)` read as a whole number of hundredths: the nearest one, halves
      rounded away from zero (the sign is set aside first, then the larger candidate
      is taken). The display of "-0.00" for tiny negatives is not distinguished. */
  function Cents(x: real): (c: int)
    ensures x >= 0.0 ==> c >= 0
    ensures x <= 0.0 ==> c <= 0
  {
    if x < 0.0 then -((-x * 100.0 + 0.5).Floor) else (x * 100.0 + 0.5).Floor
  }

  /** The shown total of a list: `calculateTotal(items)`. */
  function ShownTotal(items: seq<LineItem>): (c: int)
    ensures c as real - 0.5 <= Total(items) * 100.0 <= c as real + 0.5
    ensures (forall i :: 0 <= i < |items| ==> ParseAmount(items[i].amount) >= 0.0) ==> c >= 0
  {
    CentsIsNearest(Total(items));
    Cents(Total(items))
  }

  /** The shown net salary: the two shown totals read back and subtracted, then
      rounded again. */
  function ShownNet(earnings: seq<LineItem>, deductions: seq<LineItem>): (c: int)
    ensures var diff := ShownTotal(earnings) as real / 100.0 - ShownTotal(deductions) as real / 100.0;
            c as real - 0.5 <= diff * 100.0 <= c as real + 0.5
  {
    var diff := ShownTotal(earnings) as real / 100.0 - ShownTotal(deductions) as real / 100.0;
    CentsIsNearest(diff);
    Cents(diff)
  }

  // ---------------------------------------------------------------- lemmas

  /** The shown figure is within half a hundredth of the exact one. */
  lemma CentsIsNearest(x: real)
    ensures Cents(x) as real - 0.5 <= x * 100.0 <= Cents(x) as real + 0.5
  {
  }

  /** A figure that already has two decimals is shown unchanged. */
  lemma CentsOfCents(k: int)
    ensures Cents(k as real / 100.0) == k
  {
    var x := k as real / 100.0;
    assert x * 100.0 == k as real;
    if k < 0 {
      assert -x * 100.0 + 0.5 == (-k) as real + 0.5;
    }
  }

  /** Net salary is exactly shown earnings minus shown deductions, and may be negative. */
  lemma ShownNetIsDifference(earnings: seq<LineItem>, deductions: seq<LineItem>)
    ensures ShownNet(earnings, deductions) == ShownTotal(earnings) - ShownTotal(deductions)
  {
    var e, d := ShownTotal(earnings), ShownTotal(deductions);
    assert e as real / 100.0 - d as real / 100.0 == (e - d) as real / 100.0;
    CentsOfCents(e - d);
  }

  lemma {:induction false} TotalAppend(a: seq<LineItem>, b: seq<LineItem>)
    ensures Total(a + b) == Total(a) + Total(b)
    decreases |b|
  {
    if b == [] {
      assert a + b == a;
    } else {
      var b' := b[..|b| - 1];
      assert (a + b)[..|a + b| - 1] == a + b';
      TotalAppend(a, b');
    }
  }

  /** The order of the rows does not change a total. */
  lemma TotalOrderIrrelevant(a: seq<LineItem>, b: seq<LineItem>)
    ensures Total(a + b) == Total(b + a)
  {
    TotalAppend(a, b);
    TotalAppend(b, a);
  }

  /** Every row contributes its parsed amount: a total is the sum of the rows' values. */
  lemma {:induction false} TotalSingle(item: LineItem)
    ensures Total([item]) == ParseAmount(item.amount)
  {
    assert [item][..0] == [];
  }

  /** Rows whose text is empty or unreadable contribute nothing. */
  lemma {:induction false} UnreadableRowsAddNothing(items: seq<LineItem>)
    requires forall i :: 0 <= i < |items| ==> ParseDecimal(items[i].amount).None?
    ensures Total(items) == 0.0
    decreases |items|
  {
    if items != [] {
      UnreadableRowsAddNothing(items[..|items| - 1]);
    }
  }

  /** The empty text, and text that starts with no digit, sign or point, is unreadable. */
  lemma UnreadableText(s: string)
    requires s == [] || !(IsDigit(s[0]) || s[0] == '-' || s[0] == '+' || s[0] == '.')
    ensures ParseDecimal(s).None? && ParseAmount(s) == 0.0
  {
  }

  /** A run of digits with nothing after it is all integer part. */
  lemma SplitDigits(s: string)
    requires AllDigits(s) && s != []
    ensures SplitNumber(s) == NumberParts(false, s, [])
  {
    assert IsDigit(s[0]);
    LeadingDigitsOfDigits(s, []);
    assert s + [] == s;
  }

  /** Digits, a point and digits split at the point. */
  lemma SplitPointed(whole: string, fraction: string)
    requires AllDigits(whole) && AllDigits(fraction) && whole != []
    ensures SplitNumber(whole + ['.'] + fraction) == NumberParts(false, whole, fraction)
  {
    var rest := ['.'] + fraction;
    var s := whole + rest;
    assert whole + ['.'] + fraction == s;
    assert s[0] == whole[0] && IsDigit(s[0]);
    LeadingDigitsOfDigits(whole, rest);
    assert s[|whole|..] == rest;
    assert rest[1..] == fraction;
    LeadingDigitsOfDigits(fraction, []);
    assert fraction + [] == fraction;
  }

  /** A run of digits with nothing after it reads as the digits' value. */
  lemma ParseDigits(s: string)
    requires AllDigits(s) && s != []
    ensures ParseDecimal(s) == Some(DigitsValue(s) as real)
  {
    SplitDigits(s);
    assert DecimalValue(s, []) == DigitsValue(s) as real;
  }

  /** A sign before a run of digits is set aside, and a '-' makes it negative. */
  lemma SplitSigned(sign: char, s: string)
    requires AllDigits(s) && s != [] && (sign == '-' || sign == '+')
    ensures SplitNumber([sign] + s) == NumberParts(sign == '-', s, [])
  {
    var t := [sign] + s;
    assert t[1..] == s;
    LeadingDigitsOfDigits(s, []);
    assert s + [] == s;
  }

  /** A signed run of digits reads as the digits' value with the sign applied. */
  lemma ParseSignedDigits(sign: char, s: string)
    requires AllDigits(s) && s != [] && (sign == '-' || sign == '+')
    ensures ParseDecimal([sign] + s) == Some(if sign == '-' then -DecimalValue(s, []) else DecimalValue(s, []))
  {
    SplitSigned(sign, s);
  }

  /** Digits with no fraction are worth their whole value. */
  lemma WholeDecimalValue(s: string)
    requires AllDigits(s)
    ensures DecimalValue(s, []) == DigitsValue(s) as real
  {
  }

  /** A signed whole number reads with its sign: "-n" as minus n and "+n" as n. */
  lemma ParseSignedNumber(n: nat)
    ensures ParseAmount("-" + NatToString(n)) == -(n as real)
    ensures ParseAmount("+" + NatToString(n)) == n as real
  {
    var s := NatToString(n);
    NatToStringRoundTrip(n);
    WholeDecimalValue(s);
    ParseSignedDigits('-', s);
    ParseSignedDigits('+', s);
    assert "-" + s == ['-'] + s && "+" + s == ['+'] + s;
  }

  /** A plain run of digits reads as that whole number. */
  lemma ParseWholeNumber(n: nat)
    ensures ParseAmount(NatToString(n)) == n as real
  {
    ParseDigits(NatToString(n));
    NatToStringRoundTrip(n);
  }

  /** Digits, a point and digits read as that decimal. */
  lemma ParsePointed(whole: string, fraction: string)
    requires AllDigits(whole) && AllDigits(fraction) && whole != []
    ensures ParseDecimal(whole + ['.'] + fraction) == Some(DecimalValue(whole, fraction))
  {
    SplitPointed(whole, fraction);
  }

  /** A whole number followed by a point and a run of digits. */
  lemma ParseDecimalNumber(n: nat, fraction: string)
    requires AllDigits(fraction)
    ensures ParseAmount(NatToString(n) + "." + fraction)
            == n as real + DigitsValue(fraction) as real / Pow10(|fraction|) as real
  {
    ParsePointed(NatToString(n), fraction);
    NatToStringRoundTrip(n);
  }
}

=== FILE: approvals.dfy ===
/** The HR approval lists: leave requests (the HR home page and the HR attendance
    page) and reimbursements (the HR payroll page) are approved or rejected by id, the
    payroll run marks every employee processed, and the attendance and payroll tables
    are filtered by status and by name. */
module Approvals {
  import opened Text

  /** A leave request or a reimbursement claim: the fields the handlers read, and the
      rest of the request carried along unchanged. */
  datatype Request = Request(id: string, employeeName: string, status: string, details: map<string, string>)

  /** `action === 'approve' ? 'approved' : 'rejected'`. */
  function Decision(action: string): (d: string)
    ensures d == "approved" <==> action == "approve"
    ensures d != "approved" ==> d == "rejected"
  {
    if action == "approve" then "approved" else "rejected"
  }

  /** Approve and reject buttons are offered only for pending requests. */
  predicate Offered(r: Request) {
    r.status == "pending"
  }

  /** `handleLeaveRequest` / `handleReimbursement`: every request with the id takes
      the decision; the others are kept. */
  function Resolve(requests: seq<Request>, id: string, action: string): (r: seq<Request>)
    ensures |r| == |requests|
    ensures forall i :: 0 <= i < |requests| ==>
              r[i] == if requests[i].id == id then requests[i].(status := Decision(action)) else requests[i]
  {
    if requests == [] then []
    else
      var last := requests[|requests| - 1];
      Resolve(requests[..|requests| - 1], id, action)
        + [if last.id == id then last.(status := Decision(action)) else last]
  }

  /** The positions of the requests that still await a decision. */
  function PendingPositions(requests: seq<Request>): set<int> {
    set i | 0 <= i < |requests| && Offered(requests[i])
  }

  /** How many requests still await a decision. */
  function PendingCount(requests: seq<Request>): (n: nat)
    ensures n == |PendingPositions(requests)| && n <= |requests|
  {
    if requests == [] then 0
    else
      var init, last := requests[..|requests| - 1], requests[|requests| - 1];
      var extra: set<int> := if Offered(last) then {|requests| - 1} else {};
      assert PendingPositions(requests) == PendingPositions(init) + extra;
      assert PendingPositions(init) !! extra;
      PendingCount(init) + (if Offered(last) then 1 else 0)
  }

  /** `status.charAt(0).toUpperCase() + status.slice(1)`. */
  function Capitalize(s: string): (r: string)
    ensures |r| == |s|
    ensures |s| > 0 ==> r[0] == UpperChar(s[0]) && r[1..] == s[1..]
  {
    if s == [] then [] else [UpperChar(s[0])] + s[1..]
  }

  /** `s.replace('_', ' ')`: the first underscore only becomes a space. */
  function ReplaceFirstUnderscore(s: string): (r: string)
    ensures |r| == |s|
    ensures forall i :: 0 <= i < |s| && s[i] != '_' ==> r[i] == s[i]
    ensures forall i :: 0 <= i < |s| && s[i] == '_' ==> r[i] == if '_' in s[..i] then '_' else ' '
  {
    if s == [] then []
    else if s[0] == '_' then [' '] + s[1..]
    else [s[0]] + ReplaceFirstUnderscore(s[1..])
  }

  /** The attendance table's status badge. */
  function StatusBadge(status: string): (badge: string)
    ensures |badge| == |status|
    ensures forall i :: 0 <= i < |status| && status[i] != '_' ==> badge[i] == UpperChar(status[i])
    ensures forall i :: 0 <= i < |status| && status[i] == '_' ==> badge[i] == if '_' in status[..i] then '_' else ' '
  {
    ToUpper(ReplaceFirstUnderscore(status))
  }

  // ---------------------------------------------------------------- tables

  datatype AttendanceRow = AttendanceRow(id: string, employeeName: string, date: string, status: string,
                                         checkIn: string, checkOut: string, totalHours: int)

  /** A status filter of "all" or the row's own status, and a name containing the
      search term ignoring case. The month picker takes no part. */
  predicate RowShown(row: AttendanceRow, statusFilter: string, term: string) {
    (statusFilter == "all" || row.status == statusFilter) && ContainsIgnoringCase(row.employeeName, term)
  }

  function FilterRows(rows: seq<AttendanceRow>, statusFilter: string, term: string): (r: seq<AttendanceRow>)
    ensures forall x :: x in r <==> x in rows && RowShown(x, statusFilter, term)
    ensures |r| <= |rows|
  {
    if rows == [] then []
    else
      var init := rows[..|rows| - 1];
      var last := rows[|rows| - 1];
      assert rows == init + [last];
      FilterRows(init, statusFilter, term) + (if RowShown(last, statusFilter, term) then [last] else [])
  }

  datatype PayrollRow = PayrollRow(id: string, name: string, department: string, basicSalary: int,
                                   allowances: int, deductions: int, netSalary: int, status: string)

  /** `processPayroll`: every employee's status becomes "processed". */
  function ProcessAll(rows: seq<PayrollRow>): (r: seq<PayrollRow>)
    ensures |r| == |rows|
    ensures forall i :: 0 <= i < |rows| ==> r[i] == rows[i].(status := "processed")
  {
    if rows == [] then []
    else ProcessAll(rows[..|rows| - 1]) + [rows[|rows| - 1].(status := "processed")]
  }

  function FilterByName(rows: seq<PayrollRow>, term: string): (r: seq<PayrollRow>)
    ensures forall x :: x in r <==> x in rows && ContainsIgnoringCase(x.name, term)
    ensures |r| <= |rows|
  {
    if rows == [] then []
    else
      var init := rows[..|rows| - 1];
      var last := rows[|rows| - 1];
      assert rows == init + [last];
      FilterByName(init, term) + (if ContainsIgnoringCase(last.name, term) then [last] else [])
  }

  // ---------------------------------------------------------------- pages

  /** The leave requests of the HR home page and of the HR attendance page. */
  class LeaveDesk {
    var requests: seq<Request>

    constructor (initial: seq<Request>)
      ensures requests == initial
    {
      requests := initial;
    }

    method HandleLeaveRequest(id: string, action: string)
      modifies this
      ensures requests == Resolve(old(requests), id, action)
    {
      requests := Resolve(requests, id, action);
    }
  }

  /** The HR payroll page. */
  class PayrollPage {
    var employees: seq<PayrollRow>
    var reimbursements: seq<Request>
    var searchTerm: string
    var showReimbursements: bool

    constructor (employees: seq<PayrollRow>, reimbursements: seq<Request>)
      ensures this.employees == employees && this.reimbursements == reimbursements
      ensures searchTerm == "" && !showReimbursements
    {
      this.employees := employees;
      this.reimbursements := reimbursements;
      searchTerm := "";
      showReimbursements := false;
    }

    function Shown(): seq<PayrollRow>
      reads this
    {
      FilterByName(employees, searchTerm)
    }

    method SetSearch(term: string)
      modifies this
      ensures searchTerm == term && employees == old(employees) && reimbursements == old(reimbursements)
      ensures showReimbursements == old(showReimbursements)
    {
      searchTerm := term;
    }

    method ToggleView()
      modifies this
      ensures showReimbursements == !old(showReimbursements)
      ensures employees == old(employees) && reimbursements == old(reimbursements)
      ensures searchTerm == old(searchTerm)
    {
      showReimbursements := !showReimbursements;
    }

    method HandleReimbursement(id: string, action: string)
      modifies this
      ensures reimbursements == Resolve(old(reimbursements), id, action)
      ensures employees == old(employees)
      ensures searchTerm == old(searchTerm) && showReimbursements == old(showReimbursements)
    {
      reimbursements := Resolve(reimbursements, id, action);
    }

    method ProcessPayroll()
      modifies this
      ensures employees == ProcessAll(old(employees))
      ensures reimbursements == old(reimbursements)
      ensures searchTerm == old(searchTerm) && showReimbursements == old(showReimbursements)
    {
      employees := ProcessAll(employees);
    }
  }

  // ---------------------------------------------------------------- lemmas

  /** Deciding the same request the same way twice is deciding it once, and a second
      decision replaces the first. */
  lemma ResolveTwice(requests: seq<Request>, id: string, first: string, second: string)
    ensures Resolve(Resolve(requests, id, first), id, second) == Resolve(requests, id, second)
  {
  }

  /** A decision for an id that no request has changes nothing. */
  lemma ResolveUnknownId(requests: seq<Request>, id: string, action: string)
    requires forall i :: 0 <= i < |requests| ==> requests[i].id != id
    ensures Resolve(requests, id, action) == requests
  {
  }

  /** A decision leaves the request list with the same ids in the same order and no
      longer pending. */
  lemma ResolvedNotOffered(requests: seq<Request>, id: string, action: string)
    ensures forall i :: 0 <= i < |requests| ==>
              && Resolve(requests, id, action)[i].id == requests[i].id
              && (requests[i].id == id ==> !Offered(Resolve(requests, id, action)[i]))
  {
  }

  lemma PendingCountAppend(xs: seq<Request>, x: Request)
    ensures PendingCount(xs + [x]) == PendingCount(xs) + (if Offered(x) then 1 else 0)
  {
    assert (xs + [x])[..|xs|] == xs;
  }

  /** Deciding an id that exactly one pending request holds takes one off the pending
      count. */
  lemma {:induction false} ResolveOnePending(requests: seq<Request>, k: nat, action: string)
    requires k < |requests| && Offered(requests[k])
    requires forall i :: 0 <= i < |requests| && i != k ==> requests[i].id != requests[k].id
    ensures PendingCount(Resolve(requests, requests[k].id, action)) == PendingCount(requests) - 1
    decreases |requests|
  {
    var n := |requests|;
    var init := requests[..n - 1];
    var last := requests[n - 1];
    var r := Resolve(requests, requests[k].id, action);
    var rInit := Resolve(init, requests[k].id, action);
    assert requests == init + [last];
    assert r == rInit + [r[n - 1]] by {
      assert r[..n - 1] == rInit;
    }
    PendingCountAppend(init, last);
    PendingCountAppend(rInit, r[n - 1]);
    if k == n - 1 {
      ResolveUnknownId(init, requests[k].id, action);
    } else {
      ResolveOnePending(init, k, action);
    }
  }

  /** Running the payroll twice is running it once. */
  lemma ProcessAllIdempotent(rows: seq<PayrollRow>)
    ensures ProcessAll(ProcessAll(rows)) == ProcessAll(rows)
  {
  }

  /** The all-status filter with an empty search shows every row. */
  lemma {:induction false} FilterAllRows(rows: seq<AttendanceRow>)
    ensures FilterRows(rows, "all", "") == rows
  {
    if rows != [] {
      var last := rows[|rows| - 1];
      FilterAllRows(rows[..|rows| - 1]);
      ContainsIgnoringCaseEmpty(last.employeeName);
      assert RowShown(last, "all", "");
      assert rows == rows[..|rows| - 1] + [last];
    }
  }

  /** Every row shown under a particular status has that status. */
  lemma FilteredStatus(rows: seq<AttendanceRow>, statusFilter: string, term: string)
    requires statusFilter != "all"
    ensures forall x :: x in FilterRows(rows, statusFilter, term) ==> x.status == statusFilter
  {
  }

  /** In a two-word status such as "on_leave" the underscore becomes a space; an
      underscore after the first is kept. */
  lemma {:induction false} UnderscoreBecomesSpace(a: string, b: string)
    requires '_' !in a
    ensures ReplaceFirstUnderscore(a + ['_'] + b) == a + [' '] + b
  {
    var s := a + ['_'] + b;
    if a == [] {
      assert s[0] == '_' && s[1..] == b;
    } else {
      assert s[0] == a[0] != '_';
      assert s[1..] == a[1..] + ['_'] + b;
      UnderscoreBecomesSpace(a[1..], b);
      assert a + [' '] + b == [a[0]] + (a[1..] + [' '] + b);
    }
  }

  /** The badge of a two-word status shows both words in upper case, separated by a
      space. */
  lemma TwoWordBadge(a: string, b: string)
    requires '_' !in a
    ensures StatusBadge(a + ['_'] + b) == ToUpper(a) + [' '] + ToUpper(b)
  {
    UnderscoreBecomesSpace(a, b);
    UpperAppend(a + [' '], b);
    UpperAppend(a, [' ']);
    assert ToUpper([' ']) == [' '];
  }
}

=== FILE: attendance_counters.dfy ===
/** The administrator's attendance page: three counters (work from home, from the
    office, hybrid) that each click raises by one, and a leave form that is shown,
    filled in, submitted (announcing the leave in an alert) or cancelled. The browser
    submits the form only when both of its required fields are filled in. */
module AttendanceCounters {
  import opened Text

  datatype WorkMode = FromHome | FromOffice | Hybrid

  datatype Counts = Counts(wfh: nat, wfo: nat, hybrid: nat)

  /** `handleClick`: the chosen counter goes up by one. */
  function Click(c: Counts, mode: WorkMode): (r: Counts)
    ensures r.wfh + r.wfo + r.hybrid == c.wfh + c.wfo + c.hybrid + 1
    ensures r.wfh == c.wfh + (if mode == FromHome then 1 else 0)
    ensures r.wfo == c.wfo + (if mode == FromOffice then 1 else 0)
    ensures r.hybrid == c.hybrid + (if mode == Hybrid then 1 else 0)
  {
    match mode
    case FromHome => c.(wfh := c.wfh + 1)
    case FromOffice => c.(wfo := c.wfo + 1)
    case Hybrid => c.(hybrid := c.hybrid + 1)
  }

  /** The counters after a run of clicks from zero. */
  function CountsAfter(clicks: seq<WorkMode>): Counts {
    if clicks == [] then Counts(0, 0, 0)
    else Click(CountsAfter(clicks[..|clicks| - 1]), clicks[|clicks| - 1])
  }

  /** How many of the clicks chose the mode. */
  function Occurrences(clicks: seq<WorkMode>, mode: WorkMode): nat {
    if clicks == [] then 0
    else Occurrences(clicks[..|clicks| - 1], mode) + (if clicks[|clicks| - 1] == mode then 1 else 0)
  }

  /** The alert a submitted leave shows. */
  function LeaveAlert(employeeId: string, reason: string): (text: string)
    ensures |text| == 28 + |employeeId| + 9 + |reason|
    ensures text[..28] == "Leave Applied:\nEmployee ID: "
    ensures text[28..28 + |employeeId|] == employeeId && text[|text| - |reason|..] == reason
  {
    "Leave Applied:\nEmployee ID: " + employeeId + "\nReason: " + reason
  }

  class AttendancePanel {
    var counts: Counts
    var showLeaveForm: bool
    var employeeId: string
    var reason: string
    var lastAlert: Option<string>

    constructor ()
      ensures counts == Counts(0, 0, 0) && !showLeaveForm && employeeId == "" && reason == ""
      ensures lastAlert == None
    {
      counts := Counts(0, 0, 0);
      showLeaveForm := false;
      employeeId := "";
      reason := "";
      lastAlert := None;
    }

    method HandleClick(mode: WorkMode)
      modifies this
      ensures counts == Click(old(counts), mode)
      ensures showLeaveForm == old(showLeaveForm) && employeeId == old(employeeId) && reason == old(reason)
      ensures lastAlert == old(lastAlert)
    {
      counts := Click(counts, mode);
    }

    method LeaveClick()
      modifies this
      ensures showLeaveForm && counts == old(counts) && employeeId == old(employeeId) && reason == old(reason)
      ensures lastAlert == old(lastAlert)
    {
      showLeaveForm := true;
    }

    method SetEmployeeId(value: string)
      modifies this
      ensures employeeId == value && reason == old(reason) && showLeaveForm == old(showLeaveForm)
      ensures counts == old(counts) && lastAlert == old(lastAlert)
    {
      employeeId := value;
    }

    method SetReason(value: string)
      modifies this
      ensures reason == value && employeeId == old(employeeId) && showLeaveForm == old(showLeaveForm)
      ensures counts == old(counts) && lastAlert == old(lastAlert)
    {
      reason := value;
    }

    /** Submitting the shown form: with an empty field the browser refuses and nothing
        changes; otherwise the leave is announced, the fields are cleared and the form
        closes. The counters are not touched. */
    method SubmitLeave()
      requires showLeaveForm
      modifies this
      ensures counts == old(counts)
      ensures old(employeeId) == "" || old(reason) == "" ==>
                showLeaveForm && employeeId == old(employeeId) && reason == old(reason) && lastAlert == old(lastAlert)
      ensures old(employeeId) != "" && old(reason) != "" ==>
                && lastAlert == Some(LeaveAlert(old(employeeId), old(reason)))
                && employeeId == "" && reason == "" && !showLeaveForm
    {
      if employeeId != "" && reason != "" {
        lastAlert := Some(LeaveAlert(employeeId, reason));
        employeeId := "";
        reason := "";
        showLeaveForm := false;
      }
    }

    /** Cancelling closes the form but keeps what was typed. */
    method CancelLeave()
      modifies this
      ensures !showLeaveForm && employeeId == old(employeeId) && reason == old(reason)
      ensures counts == old(counts) && lastAlert == old(lastAlert)
    {
      showLeaveForm := false;
    }
  }

  // ---------------------------------------------------------------- lemmas

  /** Each counter shows how many clicks chose its mode, so together they count every
      click. */
  lemma {:induction false} CountersCountClicks(clicks: seq<WorkMode>)
    ensures CountsAfter(clicks) == Counts(Occurrences(clicks, FromHome), Occurrences(clicks, FromOffice),
                                          Occurrences(clicks, Hybrid))
    ensures CountsAfter(clicks).wfh + CountsAfter(clicks).wfo + CountsAfter(clicks).hybrid == |clicks|
  {
    if clicks != [] {
      CountersCountClicks(clicks[..|clicks| - 1]);
    }
  }

  /** Clicks never lower a counter. */
  lemma {:induction false} CountersGrow(clicks: seq<WorkMode>, more: seq<WorkMode>)
    ensures var before := CountsAfter(clicks);
            var after := CountsAfter(clicks + more);
            before.wfh <= after.wfh && before.wfo <= after.wfo && before.hybrid <= after.hybrid
    decreases |more|
  {
    if more == [] {
      assert clicks + more == clicks;
    } else {
      var init := more[..|more| - 1];
      assert (clicks + more)[..|clicks + more| - 1] == clicks + init;
      CountersGrow(clicks, init);
    }
  }
}

=== FILE: auth_context.dfy ===
/** The authentication context: the demonstration users, credential lookup, the
    dashboard each role lands on, the role a restored session is given, and the
    verification-code and password-reset calls. */
module AuthContext {
  import opened Text

  datatype Role = Admin | Manager | Hr | Employee

  datatype SampleUser = SampleUser(empId: string, password: string, name: string, role: Role)

  /** The signed-in user the context exposes. */
  datatype User = User(empId: string, name: string, role: Role)

  /** What the browser holds under "currentUser": nothing, text that does not parse as
      a user with an id, or the record written at login. */
  datatype StoredSession = NoSession | Unreadable | Session(empId: string, name: string)

  const SampleUsers: seq<SampleUser> := [
    SampleUser("admin-001", "Admin@123", "Admin User", Admin),
    SampleUser("mgr-001", "Manager@123", "Manager User", Manager),
    SampleUser("hr-001", "HR@123", "HR User", Hr),
    SampleUser("emp-001", "Employee@123", "Employee User", Employee)
  ]

  /** The role given to a restored session, from the id's prefix, compared with case;
      an id with none of the prefixes is an employee. */
  function RoleFromSessionId(empId: string): (r: Role)
    ensures r == Admin <==> "admin-" <= empId
    ensures r == Manager <==> "mgr-" <= empId
    ensures r == Hr <==> "hr-" <= empId
  {
    // The three prefixes start with different letters, so at most one applies.
    assert "admin-" <= empId ==> empId[0] == 'a';
    assert "mgr-" <= empId ==> empId[0] == 'm';
    assert "hr-" <= empId ==> empId[0] == 'h';
    if "admin-" <= empId then Admin
    else if "mgr-" <= empId then Manager
    else if "hr-" <= empId then Hr
    else Employee
  }

  /** `users.find(u => u.empId.toLowerCase() === empId.toLowerCase() && u.password === password)`. */
  function FindUser(users: seq<SampleUser>, empId: string, password: string): (r: Option<SampleUser>)
    ensures r.Some? <==> exists i :: 0 <= i < |users| && ToLower(users[i].empId) == ToLower(empId)
                                     && users[i].password == password
    ensures r.Some? ==> r.value in users && ToLower(r.value.empId) == ToLower(empId) && r.value.password == password
  {
    if users == [] then None
    else if ToLower(users[0].empId) == ToLower(empId) && users[0].password == password then Some(users[0])
    else
      var r := FindUser(users[1..], empId, password);
      assert forall i :: 1 <= i < |users| ==> users[i] == users[1..][i - 1];
      r
  }

  /** The route `login` pushes for a role: a page under "/dashboard/", a different
      one for each role. */
  function DashboardRoute(role: Role): (r: string)
    ensures |r| > 11 && r[..11] == "/dashboard/"
  {
    match role
    case Admin => "/dashboard/admin"
    case Manager => "/dashboard/manager"
    case Hr => "/dashboard/hr"
    case Employee => "/dashboard/employee"
  }

  /** Each role signs in to a dashboard of its own. */
  lemma DashboardRouteInjective(a: Role, b: Role)
    ensures DashboardRoute(a) == DashboardRoute(b) ==> a == b
  {
  }

  /** The route `logout` pushes. */
  const LoginRoute := "/auth/login"

  /** `sendVerificationCode`: whether some user has the id, ignoring case. */
  function SendVerificationCode(users: seq<SampleUser>, empId: string): (found: bool)
    ensures found <==> exists i :: 0 <= i < |users| && ToLower(users[i].empId) == ToLower(empId)
  {
    if users == [] then false
    else if ToLower(users[0].empId) == ToLower(empId) then true
    else
      assert forall i :: 1 <= i < |users| ==> users[i] == users[1..][i - 1];
      SendVerificationCode(users[1..], empId)
  }

  /** `verifyCode`: the entered code is exactly the generated one. */
  function VerifyCode(otp: string, generatedOtp: string): (ok: bool)
    ensures ok ==> |otp| == |generatedOtp| && forall i :: 0 <= i < |otp| ==> otp[i] == generatedOtp[i]
    ensures |otp| != |generatedOtp| ==> !ok
  {
    otp == generatedOtp
  }

  /** `resetPassword` stores nothing and always reports success. */
  function ResetPassword(empId: string, password: string): (ok: bool)
    ensures ok
  {
    true
  }

  class AuthProvider {
    /** The accounts the context checks credentials against. */
    const users: seq<SampleUser>
    var user: Option<User>
    var isLoading: bool
    var session: StoredSession

    constructor (session: StoredSession)
      ensures users == SampleUsers && user == None && isLoading && this.session == session
    {
      users := SampleUsers;
      user := None;
      isLoading := true;
      this.session := session;
    }

    /** The mount effect: a stored session becomes the user, with the role its id
        prefix gives; an unreadable one is removed. Loading ends either way. */
    method RestoreSession()
      modifies this
      ensures !isLoading
      ensures old(session).Session? ==>
                user == Some(User(old(session).empId, old(session).name, RoleFromSessionId(old(session).empId)))
                && session == old(session)
      ensures old(session).NoSession? ==> user == old(user) && session == NoSession
      ensures old(session).Unreadable? ==> user == old(user) && session == NoSession
    {
      isLoading := false;
      match session
      case Session(empId, name) =>
        user := Some(User(empId, name, RoleFromSessionId(empId)));
      case NoSession =>
      case Unreadable =>
        session := NoSession;
    }

    /** `login`: on a match the user and the stored session are set and the route of
        the user's role is returned; otherwise the call fails (`None`) and nothing but
        the loading flag is touched. */
    method Login(empId: string, password: string) returns (route: Option<string>)
      modifies this
      ensures !isLoading
      ensures var found := FindUser(users, empId, password);
              && (found.None? ==> route.None? && user == old(user) && session == old(session))
              && (found.Some? ==>
                    && route == Some(DashboardRoute(found.value.role))
                    && user == Some(User(found.value.empId, found.value.name, found.value.role))
                    && session == Session(found.value.empId, found.value.name))
    {
      isLoading := true;
      var found := FindUser(users, empId, password);
      if found.None? {
        isLoading := false;
        return None;
      }
      var u := found.value;
      user := Some(User(u.empId, u.name, u.role));
      session := Session(u.empId, u.name);
      route := Some(DashboardRoute(u.role));
      isLoading := false;
    }

    /** `logout`: the user and the stored session are cleared and the sign-in page is
        the route pushed. */
    method Logout() returns (route: string)
      modifies this
      ensures user == None && session == NoSession && isLoading == old(isLoading)
      ensures route == LoginRoute
    {
      user := None;
      session := NoSession;
      route := LoginRoute;
    }
  }

  // ---------------------------------------------------------------- lemmas

  /** When no other user shares `users[i]`'s id up to case, an id equal to it up to
      case signs in as that user with exactly its password and with nothing else. */
  lemma FindUserByOwnId(users: seq<SampleUser>, i: nat, empId: string, password: string)
    requires i < |users| && ToLower(empId) == ToLower(users[i].empId)
    requires forall j :: 0 <= j < |users| && j != i ==> ToLower(users[j].empId) != ToLower(users[i].empId)
    ensures FindUser(users, empId, password)
            == if password == users[i].password then Some(users[i]) else None
  {
    var r := FindUser(users, empId, password);
    if r.Some? {
      var j :| 0 <= j < |users| && users[j] == r.value;
      assert j == i;
    }
  }

  /** The demonstration ids are already lower case. */
  lemma SampleIdsLowerCase(j: nat)
    requires j < |SampleUsers|
    ensures ToLower(SampleUsers[j].empId) == SampleUsers[j].empId
  {
    LowerWithoutCapitals(SampleUsers[j].empId);
  }

  /** No two demonstration users share an id. */
  lemma SampleIdsDistinct(i: nat, j: nat)
    requires i < j < |SampleUsers|
    ensures SampleUsers[i].empId != SampleUsers[j].empId
  {
    assert |SampleUsers[0].empId| == 9 && |SampleUsers[2].empId| == 6;
    assert |SampleUsers[1].empId| == 7 && |SampleUsers[3].empId| == 7;
    assert SampleUsers[1].empId[0] != SampleUsers[3].empId[0];
  }

  /** The demonstration users sign in with their ids in any case, and only with their
      exact password. */
  lemma SampleLogins(i: nat, password: string)
    requires i < |SampleUsers|
    ensures FindUser(SampleUsers, SampleUsers[i].empId, SampleUsers[i].password) == Some(SampleUsers[i])
    ensures FindUser(SampleUsers, ToUpper(SampleUsers[i].empId), SampleUsers[i].password) == Some(SampleUsers[i])
    ensures password != SampleUsers[i].password ==> FindUser(SampleUsers, SampleUsers[i].empId, password).None?
  {
    forall j | 0 <= j < |SampleUsers|
      ensures ToLower(SampleUsers[j].empId) == SampleUsers[j].empId
    {
      SampleIdsLowerCase(j);
    }
    forall j | 0 <= j < |SampleUsers| && j != i
      ensures SampleUsers[j].empId != SampleUsers[i].empId
    {
      if j < i { SampleIdsDistinct(j, i); } else { SampleIdsDistinct(i, j); }
    }
    var id := SampleUsers[i].empId;
    LowerOfUpper(id);
    FindUserByOwnId(SampleUsers, i, id, SampleUsers[i].password);
    FindUserByOwnId(SampleUsers, i, ToUpper(id), SampleUsers[i].password);
    FindUserByOwnId(SampleUsers, i, id, password);
  }

  /** A restored session gets back the role the user signed in with. */
  lemma RestoredRoleIsLoginRole(u: SampleUser)
    requires u in SampleUsers
    ensures RoleFromSessionId(u.empId) == u.role
  {
    assert "admin-" <= "admin-001" && "mgr-" <= "mgr-001" && "hr-" <= "hr-001";
    assert "mgr-001"[0] != 'a' && "hr-001"[0] != 'a' && "emp-001"[0] != 'a';
    assert "hr-001"[0] != 'm' && "emp-001"[0] != 'm' && "emp-001"[0] != 'h';
  }

  /** The restored role compares the prefix with case, unlike login (see
      `SampleLogins`): a session stored under the administrator's id in upper case is
      restored as an employee's. */
  lemma RestoredRoleIsCaseSensitive()
    ensures SampleUsers[0].role == Admin
    ensures RoleFromSessionId(ToUpper(SampleUsers[0].empId)) == Employee
  {
    var s := SampleUsers[0].empId;
    assert s == "admin-001";
    var id := ToUpper(s);
    assert id[0] == UpperChar(s[0]) == 'A';
    assert !("admin-" <= id) by { assert "admin-"[0] != id[0]; }
    assert !("mgr-" <= id) by { assert "mgr-"[0] != id[0]; }
    assert !("hr-" <= id) by { assert "hr-"[0] != id[0]; }
  }

  /** A verification code can be requested exactly for the ids some user can sign in with. */
  lemma SendCodeIffUserExists(empId: string)
    ensures SendVerificationCode(SampleUsers, empId)
            <==> exists password :: FindUser(SampleUsers, empId, password).Some?
  {
    if SendVerificationCode(SampleUsers, empId) {
      var i :| 0 <= i < |SampleUsers| && ToLower(SampleUsers[i].empId) == ToLower(empId);
      assert FindUser(SampleUsers, empId, SampleUsers[i].password).Some?;
    }
  }
}

=== FILE: employee_directory.dfy ===
/** The employee directories: the HR and manager "Employee Management" pages (which
    share their logic) and the administrator's employee page. Each holds a list of
    employee records that is appended to, edited by employee id, filtered by id on
    delete and searched without regard to case. */
module EmployeeDirectory {
  import opened Text
  import opened EmployeeRecords

  // ---------------------------------------------------------------- ids

  /** `EMP` followed by the number, zero-padded to three digits. */
  function EmployeeIdFor(n: nat): string {
    "EMP" + PadStart(NatToString(n), 3, '0')
  }

  /** The id `addEmployee` gives a new employee: one more than the list's length. */
  function NewEmployeeId(count: nat): (id: string)
    ensures "EMP" <= id && |id| >= 6
    ensures IdNumber(id) == count + 1
  {
    IdNumberOfIdFor(count + 1);
    EmployeeIdFor(count + 1)
  }

  /** The number an id of the form `EMP<digits>` carries; 0 for any other text. */
  function IdNumber(id: string): nat {
    if |id| >= 3 && id[..3] == "EMP" && AllDigits(id[3..]) then DigitsValue(id[3..]) else 0
  }

  predicate HasId(r: Record, id: string) {
    "employeeId" in r && r["employeeId"] == Str(id)
  }

  function IdNumberOf(r: Record): nat {
    IdNumber(TextOf(r, "employeeId"))
  }

  /** The largest id number in the list (0 for an empty list). */
  function MaxIdNumber(list: seq<Record>): (m: nat)
    ensures forall i :: 0 <= i < |list| ==> IdNumberOf(list[i]) <= m
  {
    if list == [] then 0
    else
      var m := MaxIdNumber(list[..|list| - 1]);
      var last := IdNumberOf(list[|list| - 1]);
      assert forall i :: 0 <= i < |list| - 1 ==> list[i] == list[..|list| - 1][i];
      if m < last then last else m
  }

  /** The id a new employee is given: one past the largest number in use. */
  function NextFreeEmployeeId(list: seq<Record>): (id: string)
    ensures "EMP" <= id
    ensures forall i :: 0 <= i < |list| ==> IdNumberOf(list[i]) < IdNumber(id)
  {
    IdNumberOfIdFor(MaxIdNumber(list) + 1);
    EmployeeIdFor(MaxIdNumber(list) + 1)
  }

  /** The record `addEmployee` appends: the submitted fields with the record key, the
      employee id and the employment type, "Full-time" unless a non-empty one was
      given. */
  function NewRecord(data: Record, recordKey: string, id: string): (r: Record)
    ensures HasId(r, id) && "_id" in r && r["_id"] == Str(recordKey) && "employeeType" in r
    ensures r.Keys == data.Keys + {"_id", "employeeId", "employeeType"}
    ensures "employeeType" in data && Truthy(data["employeeType"]) ==> r["employeeType"] == data["employeeType"]
    ensures !("employeeType" in data && Truthy(data["employeeType"])) ==> r["employeeType"] == Str("Full-time")
    ensures forall k :: k in data && k != "_id" && k != "employeeId" && k != "employeeType" ==> k in r && r[k] == data[k]
  {
    var kind := if "employeeType" in data && Truthy(data["employeeType"]) then data["employeeType"] else Str("Full-time");
    data["_id" := Str(recordKey)]["employeeId" := Str(id)]["employeeType" := kind]
  }

  /** The added record keeps the submitted names and role, so the list can show it. */
  lemma NewRecordListable(data: Record, recordKey: string, id: string)
    requires "firstName" in data && data["firstName"].Str?
    requires "lastName" in data && data["lastName"].Str?
    requires "jobRole" in data && data["jobRole"].Str?
    ensures Listable(NewRecord(data, recordKey, id))
  {
    var r := NewRecord(data, recordKey, id);
    assert r["firstName"] == data["firstName"] && r["lastName"] == data["lastName"];
    assert r["jobRole"] == data["jobRole"];
  }

  // ---------------------------------------------------------------- lists

  /** The four fields the directory lists and searches, all text. */
  predicate Listable(r: Record) {
    && "firstName" in r && r["firstName"].Str?
    && "lastName" in r && r["lastName"].Str?
    && "employeeId" in r && r["employeeId"].Str?
    && "jobRole" in r && r["jobRole"].Str?
  }

  predicate AllListable(list: seq<Record>) {
    forall r :: r in list ==> Listable(r)
  }

  /** First name, last name, employee id or job role contains the term, ignoring case. */
  predicate MatchesSearch(r: Record, term: string) {
    || ContainsIgnoringCase(TextOf(r, "firstName"), term)
    || ContainsIgnoringCase(TextOf(r, "lastName"), term)
    || ContainsIgnoringCase(TextOf(r, "employeeId"), term)
    || ContainsIgnoringCase(TextOf(r, "jobRole"), term)
  }

  /** The records shown for a search term, in list order. */
  function Search(list: seq<Record>, term: string): (r: seq<Record>)
    ensures forall x :: x in r <==> x in list && MatchesSearch(x, term)
    ensures |r| <= |list|
  {
    if list == [] then []
    else
      var init := list[..|list| - 1];
      var last := list[|list| - 1];
      assert list == init + [last];
      Search(init, term) + (if MatchesSearch(last, term) then [last] else [])
  }

  /** `list.map(e => e.employeeId === updated.employeeId ? updated : e)`. */
  function ReplaceById(list: seq<Record>, updated: Record, id: string): (r: seq<Record>)
    ensures |r| == |list|
    ensures forall i :: 0 <= i < |list| ==> r[i] == if HasId(list[i], id) then updated else list[i]
  {
    if list == [] then []
    else
      var init := ReplaceById(list[..|list| - 1], updated, id);
      var last := list[|list| - 1];
      init + [if HasId(last, id) then updated else last]
  }

  /** `list.filter(e => e.employeeId !== id)`. */
  function RemoveById(list: seq<Record>, id: string): (r: seq<Record>)
    ensures forall x :: x in r <==> x in list && !HasId(x, id)
    ensures |r| <= |list|
  {
    if list == [] then []
    else
      var init := list[..|list| - 1];
      var last := list[|list| - 1];
      assert list == init + [last];
      RemoveById(init, id) + (if HasId(last, id) then [] else [last])
  }

  // ---------------------------------------------------------------- pages

  /** The HR and manager directory page. */
  class DirectoryPage {
    var employees: seq<Record>
    var searchTerm: string
    var selected: Option<Record>
    var showViewModal: bool
    var showAddModal: bool
    /** The id awaiting confirmation of its deletion. */
    var confirmDelete: Option<string>
    var status: Option<string>

    /** Every listed record has the four text fields the list shows. */
    predicate Valid()
      reads this
    {
      AllListable(employees)
    }

    /** The records the page lists. */
    function Shown(): seq<Record>
      reads this
    {
      Search(employees, searchTerm)
    }

    constructor (initial: seq<Record>)
      requires AllListable(initial)
      ensures Valid() && employees == initial && searchTerm == ""
      ensures selected == None && !showViewModal && !showAddModal
      ensures confirmDelete == None && status == None
    {
      employees := initial;
      searchTerm := "";
      selected := None;
      showViewModal := false;
      showAddModal := false;
      confirmDelete := None;
      status := None;
    }

    method SetSearch(term: string)
      modifies this
      ensures searchTerm == term && employees == old(employees)
      ensures selected == old(selected) && showViewModal == old(showViewModal) && showAddModal == old(showAddModal)
      ensures confirmDelete == old(confirmDelete) && status == old(status)
    {
      searchTerm := term;
    }

    method OpenAddModal()
      modifies this
      ensures showAddModal && employees == old(employees)
      ensures searchTerm == old(searchTerm) && selected == old(selected) && showViewModal == old(showViewModal)
      ensures confirmDelete == old(confirmDelete) && status == old(status)
    {
      showAddModal := true;
    }

    /** The add dialog's close button and its `onClose`: the dialog closes and
        nothing is added. */
    method CloseAddModal()
      modifies this
      ensures !showAddModal && employees == old(employees)
      ensures searchTerm == old(searchTerm) && selected == old(selected) && showViewModal == old(showViewModal)
      ensures confirmDelete == old(confirmDelete) && status == old(status)
    {
      showAddModal := false;
    }

    /** `addEmployee`, as written: the submitted fields plus a record key, the id
        `EMP` + (list length + 1) and an employment type ("Full-time" unless one was
        given) are appended. The id is held by no one only while the ids still run
        EMP001, EMP002, ... in order, that is while no one has been deleted. */
    method AddEmployee(data: Record, recordKey: string)
      requires Valid()
      requires "firstName" in data && data["firstName"].Str?
      requires "lastName" in data && data["lastName"].Str?
      requires "jobRole" in data && data["jobRole"].Str?
      modifies this
      ensures Valid()
      ensures employees == old(employees) + [NewRecord(data, recordKey, NewEmployeeId(|old(employees)|))]
      ensures (forall i :: 0 <= i < |old(employees)| ==> HasId(old(employees)[i], EmployeeIdFor(i + 1))) ==>
                forall i :: 0 <= i < |old(employees)| ==> !HasId(old(employees)[i], NewEmployeeId(|old(employees)|))
      ensures !showAddModal && status == Some("Employee added successfully!")
      ensures selected == old(selected) && confirmDelete == old(confirmDelete)
      ensures searchTerm == old(searchTerm) && showViewModal == old(showViewModal)
    {
      if forall i :: 0 <= i < |employees| ==> HasId(employees[i], EmployeeIdFor(i + 1)) {
        LengthIdFreshWhileNothingDeleted(employees);
      }
      var id := NewEmployeeId(|employees|);
      NewRecordListable(data, recordKey, id);
      Append(NewRecord(data, recordKey, id));
    }

    /** The corrected `addEmployee`: the new employee gets one more than the largest id
        number in use, an id no one in the list holds. */
    method AddEmployeeWithFreshId(data: Record, recordKey: string)
      requires Valid()
      requires "firstName" in data && data["firstName"].Str?
      requires "lastName" in data && data["lastName"].Str?
      requires "jobRole" in data && data["jobRole"].Str?
      modifies this
      ensures Valid()
      ensures employees == old(employees) + [NewRecord(data, recordKey, NextFreeEmployeeId(old(employees)))]
      ensures forall i :: 0 <= i < |old(employees)| ==> !HasId(old(employees)[i], NextFreeEmployeeId(old(employees)))
      ensures !showAddModal && status == Some("Employee added successfully!")
      ensures selected == old(selected) && confirmDelete == old(confirmDelete)
      ensures searchTerm == old(searchTerm) && showViewModal == old(showViewModal)
    {
      NextFreeIdIsFresh(employees);
      var id := NextFreeEmployeeId(employees);
      NewRecordListable(data, recordKey, id);
      Append(NewRecord(data, recordKey, id));
    }

    /** The state an added record leaves: appended, dialog closed, success shown. */
    method Append(added: Record)
      requires Valid() && Listable(added)
      modifies this
      ensures Valid() && employees == old(employees) + [added]
      ensures !showAddModal && status == Some("Employee added successfully!")
      ensures selected == old(selected) && confirmDelete == old(confirmDelete)
      ensures searchTerm == old(searchTerm) && showViewModal == old(showViewModal)
    {
      employees := employees + [added];
      showAddModal := false;
      status := Some("Employee added successfully!");
    }

    method ViewEmployee(e: Record)
      modifies this
      ensures selected == Some(e) && showViewModal && employees == old(employees)
      ensures searchTerm == old(searchTerm) && showAddModal == old(showAddModal)
      ensures confirmDelete == old(confirmDelete) && status == old(status)
    {
      selected := Some(e);
      showViewModal := true;
    }

    method CloseView()
      modifies this
      ensures selected == None && !showViewModal && employees == old(employees)
      ensures searchTerm == old(searchTerm) && showAddModal == old(showAddModal)
      ensures confirmDelete == old(confirmDelete) && status == old(status)
    {
      showViewModal := false;
      selected := None;
    }

    /** `handleEditEmployee`: every record with the updated record's id is replaced. */
    method EditEmployee(updated: Record)
      requires Valid() && Listable(updated)
      modifies this
      ensures Valid()
      ensures employees == ReplaceById(old(employees), updated, updated["employeeId"].s)
      ensures status == Some("Employee updated successfully!")
      ensures selected == old(selected) && showViewModal == old(showViewModal)
      ensures searchTerm == old(searchTerm) && showAddModal == old(showAddModal) && confirmDelete == old(confirmDelete)
    {
      employees := ReplaceById(employees, updated, updated["employeeId"].s);
      status := Some("Employee updated successfully!");
    }

    method DeleteClick(id: string)
      modifies this
      ensures confirmDelete == Some(id) && employees == old(employees)
      ensures searchTerm == old(searchTerm) && selected == old(selected) && showViewModal == old(showViewModal)
      ensures showAddModal == old(showAddModal) && status == old(status)
    {
      confirmDelete := Some(id);
    }

    method CancelDelete()
      modifies this
      ensures confirmDelete == None && employees == old(employees)
      ensures searchTerm == old(searchTerm) && selected == old(selected) && showViewModal == old(showViewModal)
      ensures showAddModal == old(showAddModal) && status == old(status)
    {
      confirmDelete := None;
    }

    /** `confirmDeleteEmployee`: with a non-empty id pending, its records are removed,
        the confirmation closes and so does the detail view when it shows that id; with
        none pending (or an empty one, which is falsy) nothing happens. */
    method ConfirmDelete()
      requires Valid()
      modifies this
      ensures Valid()
      ensures old(confirmDelete).None? || old(confirmDelete) == Some("") ==>
                employees == old(employees) && confirmDelete == old(confirmDelete)
                && status == old(status) && selected == old(selected) && showViewModal == old(showViewModal)
      ensures searchTerm == old(searchTerm) && showAddModal == old(showAddModal)
      ensures old(confirmDelete).Some? && old(confirmDelete) != Some("") ==>
                var id := old(confirmDelete).value;
                && employees == RemoveById(old(employees), id)
                && confirmDelete == None
                && status == Some("Employee deleted successfully!")
                && (old(selected).Some? && HasId(old(selected).value, id) ==> selected == None && !showViewModal)
                && (!(old(selected).Some? && HasId(old(selected).value, id)) ==>
                      selected == old(selected) && showViewModal == old(showViewModal))
    {
      if confirmDelete.Some? && confirmDelete.value != "" {
        var id := confirmDelete.value;
        employees := RemoveById(employees, id);
        status := Some("Employee deleted successfully!");
        confirmDelete := None;
        if selected.Some? && HasId(selected.value, id) {
          showViewModal := false;
          selected := None;
        }
      }
    }
  }

  /** The administrator's employee page. */
  class AdminEmployeesPage {
    var employees: seq<Record>
    var searchTerm: string
    var selected: Option<Record>
    var showAddModal: bool

    predicate Valid()
      reads this
    {
      AllListable(employees)
    }

    function Shown(): seq<Record>
      reads this
    {
      Search(employees, searchTerm)
    }

    constructor (initial: seq<Record>)
      requires AllListable(initial)
      ensures Valid() && employees == initial && searchTerm == ""
      ensures selected == None && !showAddModal
    {
      employees := initial;
      searchTerm := "";
      selected := None;
      showAddModal := false;
    }

    method SetSearch(term: string)
      modifies this
      ensures searchTerm == term && employees == old(employees) && selected == old(selected)
      ensures showAddModal == old(showAddModal)
    {
      searchTerm := term;
    }

    method Select(e: Record)
      modifies this
      ensures selected == Some(e) && employees == old(employees)
      ensures searchTerm == old(searchTerm) && showAddModal == old(showAddModal)
    {
      selected := Some(e);
    }

    method CloseDetails()
      modifies this
      ensures selected == None && employees == old(employees)
      ensures searchTerm == old(searchTerm) && showAddModal == old(showAddModal)
    {
      selected := None;
    }

    /** The add dialog only opens and closes; it adds nothing. */
    method SetAddModal(open: bool)
      modifies this
      ensures showAddModal == open && employees == old(employees)
      ensures searchTerm == old(searchTerm) && selected == old(selected)
    {
      showAddModal := open;
    }

    /** `handleDeleteEmployee`: once the user confirms, the id's records are removed and
        the selection is cleared when it is that employee; otherwise nothing changes. */
    method DeleteEmployee(id: string, confirmed: bool)
      requires Valid()
      modifies this
      ensures Valid()
      ensures !confirmed ==> employees == old(employees) && selected == old(selected)
      ensures confirmed ==> employees == RemoveById(old(employees), id)
      ensures confirmed && old(selected).Some? && HasId(old(selected).value, id) ==> selected == None
      ensures confirmed && !(old(selected).Some? && HasId(old(selected).value, id)) ==> selected == old(selected)
      ensures searchTerm == old(searchTerm) && showAddModal == old(showAddModal)
    {
      if confirmed {
        employees := RemoveById(employees, id);
        if selected.Some? && HasId(selected.value, id) {
          selected := None;
        }
      }
    }

    /** `handleEditEmployee`: the records with the updated id are replaced and the
        updated record becomes the selection. */
    method EditEmployee(updated: Record)
      requires Valid() && Listable(updated)
      modifies this
      ensures Valid()
      ensures employees == ReplaceById(old(employees), updated, updated["employeeId"].s)
      ensures selected == Some(updated)
      ensures searchTerm == old(searchTerm) && showAddModal == old(showAddModal)
    {
      employees := ReplaceById(employees, updated, updated["employeeId"].s);
      selected := Some(updated);
    }
  }

  // ---------------------------------------------------------------- lemmas

  /** The number of a generated id is the number it was generated from. */
  lemma IdNumberOfIdFor(n: nat)
    ensures IdNumber(EmployeeIdFor(n)) == n
  {
    var digits := NatToString(n);
    var padded := PadStart(digits, 3, '0');
    var z := if |digits| < 3 then 3 - |digits| else 0;
    assert padded == seq(z, _ => '0') + digits;
    NatToStringRoundTrip(n);
    LeadingZerosValue(z, digits);
    var id := EmployeeIdFor(n);
    assert id[..3] == "EMP" && id[3..] == padded;
  }

  /** Generated ids differ exactly when their numbers do. */
  lemma IdForInjective(m: nat, n: nat)
    ensures EmployeeIdFor(m) == EmployeeIdFor(n) <==> m == n
  {
    IdNumberOfIdFor(m);
    IdNumberOfIdFor(n);
  }

  lemma HolderNumber(r: Record, n: nat)
    requires HasId(r, EmployeeIdFor(n))
    ensures IdNumberOf(r) == n
  {
    IdNumberOfIdFor(n);
  }

  /** The id a new employee gets is held by no one already in the list. */
  lemma NextFreeIdIsFresh(list: seq<Record>)
    ensures forall i :: 0 <= i < |list| ==> !HasId(list[i], NextFreeEmployeeId(list))
  {
    var id := NextFreeEmployeeId(list);
    IdNumberOfIdFor(MaxIdNumber(list) + 1);
    forall i | 0 <= i < |list|
      ensures !HasId(list[i], id)
    {
      assert HasId(list[i], id) ==> IdNumberOf(list[i]) == IdNumber(id);
    }
  }

  /** While no one has been deleted, so that the ids run EMP001, EMP002, ... in order,
      the fresh id is the one `addEmployee` computes from the list's length. */
  lemma {:induction false} NextFreeWhileNothingDeleted(list: seq<Record>)
    requires forall i :: 0 <= i < |list| ==> HasId(list[i], EmployeeIdFor(i + 1))
    ensures MaxIdNumber(list) == |list|
    ensures NextFreeEmployeeId(list) == NewEmployeeId(|list|)
  {
    if list != [] {
      var init := list[..|list| - 1];
      forall i | 0 <= i < |init|
        ensures HasId(init[i], EmployeeIdFor(i + 1))
      {
        assert init[i] == list[i];
      }
      NextFreeWhileNothingDeleted(init);
      HolderNumber(list[|list| - 1], |list|);
      assert MaxIdNumber(init) < IdNumberOf(list[|list| - 1]);
    }
  }

  /** While no one has been deleted, the length-based id `addEmployee` gives is held by
      no one in the list. */
  lemma LengthIdFreshWhileNothingDeleted(list: seq<Record>)
    requires forall i :: 0 <= i < |list| ==> HasId(list[i], EmployeeIdFor(i + 1))
    ensures forall i :: 0 <= i < |list| ==> !HasId(list[i], NewEmployeeId(|list|))
  {
    NextFreeWhileNothingDeleted(list);
    NextFreeIdIsFresh(list);
  }

  /** After EMP001 is deleted from a list of EMP001 and EMP002, the length-based id
      for the next employee is EMP002 again, the id the remaining employee holds. */
  lemma NewIdRepeatsAfterDelete(a: Record, b: Record)
    requires HasId(a, EmployeeIdFor(1)) && HasId(b, EmployeeIdFor(2))
    ensures var left := RemoveById([a, b], EmployeeIdFor(1));
            && left == [b]
            && HasId(left[0], NewEmployeeId(|left|))
  {
    IdForInjective(1, 2);
    assert [a, b][..1] == [a];
    assert [a] == [] + [a];
  }

  /** An empty search lists everyone. */
  lemma {:induction false} SearchEmptyTerm(list: seq<Record>)
    ensures Search(list, "") == list
  {
    if list != [] {
      var init := list[..|list| - 1];
      var last := list[|list| - 1];
      SearchEmptyTerm(init);
      ContainsIgnoringCaseEmpty(TextOf(last, "firstName"));
      SearchLast(list, "");
      assert list == init + [last];
    }
  }

  /** Searching a list is searching all but its last entry, then keeping the last entry
      when it matches. */
  lemma SearchLast(list: seq<Record>, term: string)
    requires list != []
    ensures var last := list[|list| - 1];
            Search(list, term) == Search(list[..|list| - 1], term) + (if MatchesSearch(last, term) then [last] else [])
  {
  }

  /** The search ignores the case of the term. */
  lemma {:induction false} SearchIgnoresCase(list: seq<Record>, term: string)
    ensures Search(list, ToUpper(term)) == Search(list, term)
  {
    LowerOfUpper(term);
    if list != [] {
      SearchIgnoresCase(list[..|list| - 1], term);
    }
  }

  /** Searching keeps the list's order: the results for a longer list extend those for
      its beginning. */
  lemma {:induction false} SearchAppend(xs: seq<Record>, ys: seq<Record>, term: string)
    ensures Search(xs + ys, term) == Search(xs, term) + Search(ys, term)
    decreases |ys|
  {
    if ys == [] {
      assert xs + ys == xs;
    } else {
      var init := ys[..|ys| - 1];
      assert (xs + ys)[..|xs + ys| - 1] == xs + init;
      SearchAppend(xs, init, term);
    }
  }

  /** An edit whose record keeps the id leaves every position's id as it was. */
  lemma ReplaceKeepsIds(list: seq<Record>, updated: Record, id: string, other: string)
    requires HasId(updated, id)
    ensures forall i :: 0 <= i < |list| ==>
              (HasId(ReplaceById(list, updated, id)[i], other) <==> HasId(list[i], other))
  {
  }

  /** Applying the same edit twice is the same as once. */
  lemma ReplaceIdempotent(list: seq<Record>, updated: Record, id: string)
    requires HasId(updated, id)
    ensures ReplaceById(ReplaceById(list, updated, id), updated, id) == ReplaceById(list, updated, id)
  {
  }

  /** Deleting keeps the order of the others: removing from a joined list is joining
      the removals. */
  lemma {:induction false} RemoveAppend(xs: seq<Record>, ys: seq<Record>, id: string)
    ensures RemoveById(xs + ys, id) == RemoveById(xs, id) + RemoveById(ys, id)
    decreases |ys|
  {
    if ys == [] {
      assert xs + ys == xs;
    } else {
      var init := ys[..|ys| - 1];
      assert (xs + ys)[..|xs + ys| - 1] == xs + init;
      RemoveAppend(xs, init, id);
    }
  }

  /** Deleting an id no one holds changes nothing. */
  lemma {:induction false} RemoveAbsent(list: seq<Record>, id: string)
    requires forall i :: 0 <= i < |list| ==> !HasId(list[i], id)
    ensures RemoveById(list, id) == list
  {
    if list != [] {
      var init := list[..|list| - 1];
      var last := list[|list| - 1];
      forall i | 0 <= i < |init|
        ensures !HasId(init[i], id)
      {
        assert init[i] == list[i];
      }
      RemoveAbsent(init, id);
      RemoveLast(list, id);
      assert list == init + [last];
    }
  }

  /** Deleting from a list is deleting from all but its last entry, then keeping the
      last entry unless it has the id. */
  lemma RemoveLast(list: seq<Record>, id: string)
    requires list != []
    ensures var last := list[|list| - 1];
            RemoveById(list, id) == RemoveById(list[..|list| - 1], id) + (if HasId(last, id) then [] else [last])
  {
  }

  /** An employee added with the fresh id is the only holder of that id, so deleting it
      again restores the list. */
  lemma AddThenDelete(list: seq<Record>, added: Record)
    requires HasId(added, NextFreeEmployeeId(list))
    ensures RemoveById(list + [added], NextFreeEmployeeId(list)) == list
  {
    var id := NextFreeEmployeeId(list);
    NextFreeIdIsFresh(list);
    RemoveAppend(list, [added], id);
    RemoveAbsent(list, id);
    assert [added] == [] + [added];
  }
}

=== FILE: employee_intake.dfy ===
/** The "add employee" intake form of the manager's directory: plain text fields, the
    digit-only and upper-case input filters, the photo and document uploads with their
    size limits, and the education sections. File contents arrive already read (as the
    data URL the browser's reader produces). */
module EmployeeIntake {
  import opened Text
  import opened EmployeeRecords

  /** A sub-record of text entries: an identity proof or an education section. */
  type Entry = map<string, string>

  datatype FormData = FormData(
    text: map<string, string>,
    aadhaar: Entry, pan: Entry,
    graduation: Entry, postGraduation: Option<Entry>)

  /** A chosen file: its name, its size in bytes and its contents as read. */
  datatype Upload = Upload(name: string, size: nat, data: string)

  const PhotoLimit: nat := 5000000
  const DocumentLimit: nat := 10000000
  const PhotoTooLarge := "Photo size should be less than 5MB"
  const DocumentTooLarge := "File size should be less than 10MB"

  /** The top-level text fields of the form. */
  const TextFields: set<string> := {
    "firstName", "middleName", "lastName", "gender", "dateOfBirth", "mobileNumber",
    "email", "jobRole", "experience", "currentAddress", "permanentAddress", "photoUrl",
    "employeeId"}

  const EmptyText: map<string, string> := map[
    "firstName" := "", "middleName" := "", "lastName" := "", "gender" := "",
    "dateOfBirth" := "", "mobileNumber" := "", "email" := "", "jobRole" := "",
    "experience" := "", "currentAddress" := "", "permanentAddress" := "", "photoUrl" := "",
    "employeeId" := ""]

  const InitialForm := FormData(
    EmptyText,
    map["type" := "Aadhaar", "number" := "", "documentFile" := ""],
    map["type" := "PAN", "number" := "", "documentFile" := ""],
    map["level" := "Graduation", "university" := "", "course" := "", "specialization" := "",
        "mode" := "", "yearOfPassout" := "", "certificateFile" := ""],
    None)

  const NoFileNames: map<string, string> := map[
    "graduationCertificate" := "", "postGraduationCertificate" := "",
    "aadhaarDocument" := "", "panDocument" := ""]

  /** The form after a read document has been stored under its upload slot; an
      unknown slot, or the post-graduation slot while that section does not exist,
      leaves the form as it was. */
  function StoreDocument(f: FormData, fileType: string, data: string): (g: FormData)
    ensures g.text == f.text
    ensures g.postGraduation.Some? == f.postGraduation.Some?
    ensures fileType != "graduationCertificate" ==> g.graduation == f.graduation
    ensures fileType != "aadhaarDocument" ==> g.aadhaar == f.aadhaar
    ensures fileType != "panDocument" ==> g.pan == f.pan
    ensures fileType in {"aadhaarDocument", "panDocument"} ==>
              var e := if fileType == "panDocument" then g.pan else g.aadhaar;
              "documentFile" in e && e["documentFile"] == data
  {
    if fileType == "graduationCertificate" then
      f.(graduation := f.graduation["certificateFile" := data])
    else if fileType == "postGraduationCertificate" then
      if f.postGraduation.Some? then
        f.(postGraduation := Some(f.postGraduation.value["certificateFile" := data]))
      else f
    else if fileType == "aadhaarDocument" then
      f.(aadhaar := f.aadhaar["documentFile" := data])
    else if fileType == "panDocument" then
      f.(pan := f.pan["documentFile" := data])
    else f
  }

  /** `handleEducationChange`: one entry of one section is set; a post-graduation
      section that does not exist yet is started with just that entry. */
  function ChangeEducation(f: FormData, postGraduate: bool, field: string, value: string): (g: FormData)
    ensures g.text == f.text && g.aadhaar == f.aadhaar && g.pan == f.pan
    ensures var section := if postGraduate then g.postGraduation else Some(g.graduation);
            section.Some? && field in section.value && section.value[field] == value
    ensures postGraduate ==> g.graduation == f.graduation
    ensures !postGraduate ==> g.postGraduation == f.postGraduation
    ensures !postGraduate ==> g.graduation.Keys == f.graduation.Keys + {field}
                              && forall k :: k in f.graduation && k != field ==> g.graduation[k] == f.graduation[k]
  {
    if postGraduate then
      var prev := if f.postGraduation.Some? then f.postGraduation.value else map[];
      f.(postGraduation := Some(prev[field := value]))
    else
      f.(graduation := f.graduation[field := value])
  }

  /** The record handed to the directory's `addEmployee`. */
  function ToRecord(f: FormData): (r: Record)
    requires TextFields <= f.text.Keys
    ensures forall k :: k in TextFields ==> k in r && r[k] == Str(f.text[k])
  {
    var plain := map k | k in TextFields :: Str(f.text[k]);
    var educ := map["graduation" := ObjOf(f.graduation)];
    var educ' := if f.postGraduation.Some? then educ["postGraduation" := ObjOf(f.postGraduation.value)] else educ;
    plain["govtIds" := Obj(map["aadhaar" := ObjOf(f.aadhaar), "pan" := ObjOf(f.pan)])]
         ["education" := Obj(educ')]
  }

  function ObjOf(e: Entry): Value {
    Obj(map k | k in e :: Str(e[k]))
  }

  class IntakeForm {
    var form: FormData
    var showPostGrad: bool
    var error: Option<string>
    var photoPreview: Option<string>
    var fileNames: map<string, string>

    /** Every top-level field is present. */
    predicate Valid()
      reads this
    {
      TextFields <= form.text.Keys
    }

    constructor ()
      ensures Valid() && form == InitialForm && !showPostGrad
      ensures error == None && photoPreview == None && fileNames == NoFileNames
    {
      form := InitialForm;
      showPostGrad := false;
      error := None;
      photoPreview := None;
      fileNames := NoFileNames;
    }

    /** A plain text field takes the typed text as it is. */
    method SetText(name: string, value: string)
      requires Valid() && name in TextFields
      modifies this
      ensures Valid() && form == old(form).(text := old(form).text[name := value])
      ensures error == old(error) && photoPreview == old(photoPreview) && fileNames == old(fileNames)
      ensures showPostGrad == old(showPostGrad)
    {
      form := form.(text := form.text[name := value]);
    }

    /** The mobile number keeps only the digits typed. */
    method SetMobileNumber(typed: string)
      requires Valid()
      modifies this
      ensures Valid() && form == old(form).(text := old(form).text["mobileNumber" := DigitsOnly(typed)])
      ensures AllDigits(form.text["mobileNumber"])
      ensures error == old(error) && photoPreview == old(photoPreview) && fileNames == old(fileNames)
      ensures showPostGrad == old(showPostGrad)
    {
      form := form.(text := form.text["mobileNumber" := DigitsOnly(typed)]);
    }

    /** The Aadhaar number keeps only the digits typed. */
    method SetAadhaarNumber(typed: string)
      requires Valid()
      modifies this
      ensures Valid() && form == old(form).(aadhaar := old(form).aadhaar["number" := DigitsOnly(typed)])
      ensures AllDigits(form.aadhaar["number"])
      ensures error == old(error) && photoPreview == old(photoPreview) && fileNames == old(fileNames)
      ensures showPostGrad == old(showPostGrad)
    {
      form := form.(aadhaar := form.aadhaar["number" := DigitsOnly(typed)]);
    }

    /** The PAN is stored in upper case. */
    method SetPanNumber(typed: string)
      requires Valid()
      modifies this
      ensures Valid() && form == old(form).(pan := old(form).pan["number" := ToUpper(typed)])
      ensures forall i :: 0 <= i < |typed| ==> !('a' <= form.pan["number"][i] <= 'z')
      ensures error == old(error) && photoPreview == old(photoPreview) && fileNames == old(fileNames)
      ensures showPostGrad == old(showPostGrad)
    {
      form := form.(pan := form.pan["number" := ToUpper(typed)]);
    }

    method SetShowPostGrad(checked: bool)
      modifies this
      ensures showPostGrad == checked && form == old(form)
      ensures error == old(error) && photoPreview == old(photoPreview) && fileNames == old(fileNames)
    {
      showPostGrad := checked;
    }

    method EducationChange(postGraduate: bool, field: string, value: string)
      requires Valid()
      modifies this
      ensures Valid() && form == ChangeEducation(old(form), postGraduate, field, value)
      ensures showPostGrad == old(showPostGrad)
      ensures error == old(error) && photoPreview == old(photoPreview) && fileNames == old(fileNames)
    {
      form := ChangeEducation(form, postGraduate, field, value);
    }

    /** `handlePhotoUpload`: no file changes nothing; a photo over the limit only sets
        the error; otherwise it becomes the preview and the photo URL. */
    method PhotoUpload(file: Option<Upload>)
      requires Valid()
      modifies this
      ensures Valid()
      ensures file.None? ==> form == old(form) && error == old(error) && photoPreview == old(photoPreview)
      ensures file.Some? && file.value.size > PhotoLimit ==>
                form == old(form) && error == Some(PhotoTooLarge) && photoPreview == old(photoPreview)
      ensures file.Some? && file.value.size <= PhotoLimit ==>
                && form == old(form).(text := old(form).text["photoUrl" := file.value.data])
                && photoPreview == Some(file.value.data) && error == old(error)
      ensures fileNames == old(fileNames) && showPostGrad == old(showPostGrad)
    {
      if file.Some? {
        if file.value.size > PhotoLimit {
          error := Some(PhotoTooLarge);
          return;
        }
        photoPreview := Some(file.value.data);
        form := form.(text := form.text["photoUrl" := file.value.data]);
      }
    }

    /** `handleFileUpload`: no file changes nothing; a file over the limit only sets the
        error; otherwise the slot shows the file's name and its contents are stored. */
    method FileUpload(file: Option<Upload>, fileType: string)
      requires Valid()
      modifies this
      ensures Valid()
      ensures file.None? ==> form == old(form) && error == old(error) && fileNames == old(fileNames)
      ensures file.Some? && file.value.size > DocumentLimit ==>
                form == old(form) && error == Some(DocumentTooLarge) && fileNames == old(fileNames)
      ensures file.Some? && file.value.size <= DocumentLimit ==>
                && fileNames == old(fileNames)[fileType := file.value.name]
                && form == StoreDocument(old(form), fileType, file.value.data)
                && error == old(error)
      ensures photoPreview == old(photoPreview) && showPostGrad == old(showPostGrad)
    {
      if file.Some? {
        if file.value.size > DocumentLimit {
          error := Some(DocumentTooLarge);
          return;
        }
        fileNames := fileNames[fileType := file.value.name];
        form := StoreDocument(form, fileType, file.value.data);
      }
    }

    /** `handleSubmit`: the form is handed on as it stands, with no validation. */
    method Submit() returns (saved: Record)
      requires Valid()
      ensures saved == ToRecord(form)
    {
      saved := ToRecord(form);
    }
  }

  // ---------------------------------------------------------------- lemmas

  /** The digit filters are idempotent, and typed digits pass them unchanged. */
  lemma NumberFilters(typed: string)
    ensures DigitsOnly(DigitsOnly(typed)) == DigitsOnly(typed)
    ensures AllDigits(typed) ==> DigitsOnly(typed) == typed
    ensures ToUpper(ToUpper(typed)) == ToUpper(typed)
  {
    DigitsOnlyOfDigits(typed);
    UpperIdempotent(typed);
  }

  /** A stored graduation certificate sets that one entry and keeps the rest of the
      form. */
  lemma StoreGraduationCertificate(f: FormData, data: string)
    ensures var g := StoreDocument(f, "graduationCertificate", data);
            && g.graduation["certificateFile"] == data
            && g.graduation.Keys == f.graduation.Keys + {"certificateFile"}
            && (forall k :: k in f.graduation && k != "certificateFile" ==> g.graduation[k] == f.graduation[k])
            && g.text == f.text && g.aadhaar == f.aadhaar && g.pan == f.pan
            && g.postGraduation == f.postGraduation
  {
  }

  /** A stored identity document goes to its own proof and keeps the rest of the form. */
  lemma StoreIdentityDocument(f: FormData, data: string)
    ensures var g := StoreDocument(f, "aadhaarDocument", data);
            g == f.(aadhaar := f.aadhaar["documentFile" := data])
    ensures var g := StoreDocument(f, "panDocument", data);
            g == f.(pan := f.pan["documentFile" := data])
  {
    assert "panDocument" != "aadhaarDocument" by {
      assert "panDocument"[0] != "aadhaarDocument"[0];
    }
  }

  /** A post-graduation certificate chosen before any post-graduation entry has been
      typed is not stored, even though the form shows its name. */
  lemma PostGraduationCertificateNeedsSection(f: FormData, data: string)
    requires f.postGraduation.None?
    ensures StoreDocument(f, "postGraduationCertificate", data) == f
  {
  }

  /** An unknown upload slot leaves the form as it was. */
  lemma UnknownSlotIgnored(f: FormData, fileType: string, data: string)
    requires fileType !in NoFileNames
    ensures StoreDocument(f, fileType, data) == f
  {
  }

  /** An education change sets exactly one entry of the chosen section; the first
      post-graduation change starts that section with only the changed entry. */
  lemma EducationChangeFrame(f: FormData, postGraduate: bool, field: string, value: string)
    ensures var g := ChangeEducation(f, postGraduate, field, value);
            && g.text == f.text && g.aadhaar == f.aadhaar && g.pan == f.pan
            && (!postGraduate ==> g.postGraduation == f.postGraduation
                                  && g.graduation == f.graduation[field := value])
            && (postGraduate ==> g.graduation == f.graduation && g.postGraduation.Some?
                                 && g.postGraduation.value[field] == value)
            && (postGraduate && f.postGraduation.None? ==> g.postGraduation.value.Keys == {field})
  {
  }

  /** The submitted record carries the names and job role the directory lists. */
  lemma SubmittedRecordIsListed(f: FormData)
    requires TextFields <= f.text.Keys
    ensures var r := ToRecord(f);
            && r["firstName"] == Str(f.text["firstName"])
            && r["lastName"] == Str(f.text["lastName"])
            && r["jobRole"] == Str(f.text["jobRole"])
            && r["employeeId"] == Str(f.text["employeeId"])
  {
    assert "firstName" in TextFields && "lastName" in TextFields;
    assert "jobRole" in TextFields && "employeeId" in TextFields;
  }
}

=== FILE: employee_records.dfy ===
/** Employee records as the directory screens hold them: loosely typed objects whose
    fields are text, nested objects or lists. This module has the record edits of the
    employee detail views (a plain or a dotted "parent.child" field name), the full
    name and initials they display and the age they compute from the birth date. */
module EmployeeRecords {
  import opened Text

  /** A JSON-like field value. */
  datatype Value = Str(s: string) | Obj(fields: map<string, Value>) | List(items: seq<Value>)

  type Record = map<string, Value>

  /** The entries `{ ...xs }` gives for a list: each element under its decimal index. */
  function Indexed(xs: seq<Value>): (m: map<string, Value>)
    ensures forall i :: 0 <= i < |xs| ==> NatToString(i) in m
  {
    if xs == [] then map[]
    else Indexed(xs[..|xs| - 1])[NatToString(|xs| - 1) := xs[|xs| - 1]]
  }

  /** What `{ ...v }` copies out of a value: an object's fields, or a string's or a
      list's elements under their indices. */
  function Spread(v: Value): map<string, Value> {
    match v
    case Obj(m) => m
    case List(xs) => Indexed(xs)
    case Str(s) => Indexed(seq(|s|, i requires 0 <= i < |s| => Str([s[i]])))
  }

  /** JavaScript truthiness of a present value: only the empty string is falsy. */
  predicate Truthy(v: Value) {
    !(v.Str? && v.s == "")
  }

  /** The text of a field, or "" when it is absent or not text. */
  function TextOf(r: Record, key: string): string {
    if key in r && r[key].Str? then r[key].s else ""
  }

  /** The nested `handleChange` of the detail view: a name with a dot sets the child
      named by its second part inside the object named by its first, keeping the
      parent's other entries; any name without a dot sets that top-level field. */
  function SetField(r: Record, name: string, value: string): (r': Record)
    ensures r'.Keys == r.Keys + {Split(name, '.')[0]}
    ensures forall k :: k in r && k != Split(name, '.')[0] ==> r'[k] == r[k]
    ensures '.' !in name ==> name in r' && r'[name] == Str(value)
  {
    if '.' in name then
      SplitWithSeparator(name, '.');
      var parts := Split(name, '.');
      var parent := parts[0];
      var prev := if parent in r then Spread(r[parent]) else map[];
      r[parent := Obj(prev[parts[1] := Str(value)])]
    else
      SplitNoSeparator(name, '.');
      r[name := Str(value)]
  }

  // ---------------------------------------------------------------- display

  /** `${firstName} ${middleName ? middleName + ' ' : ''}${lastName}`. */
  function FullName(first: string, middle: string, last: string): (full: string)
    ensures first + " " <= full
    ensures |full| >= |first| + 1 + |last| && full[|full| - |last|..] == last
    ensures middle != "" ==> |full| == |first| + |middle| + |last| + 2
    ensures middle == "" ==> |full| == |first| + |last| + 1
  {
    first + " " + (if middle != "" then middle + " " else "") + last
  }

  /** `s.charAt(0)`. */
  function FirstChar(s: string): string {
    if s == [] then "" else [s[0]]
  }

  function Initials(first: string, last: string): (r: string)
    ensures |r| == (if first == "" then 0 else 1) + (if last == "" then 0 else 1)
    ensures first != "" ==> r[0] == first[0]
    ensures last != "" ==> r[|r| - 1] == last[0]
  {
    FirstChar(first) + FirstChar(last)
  }

  // ---------------------------------------------------------------- age

  datatype Date = Date(year: int, month: int, day: int)

  /** `a` falls on or before `b` in the calendar. */
  predicate OnOrBefore(a: Date, b: Date) {
    a.year < b.year || (a.year == b.year && (a.month < b.month || (a.month == b.month && a.day <= b.day)))
  }

  /** The `k`-th birthday of someone born on `birth`. */
  function Birthday(birth: Date, k: int): Date {
    Date(birth.year + k, birth.month, birth.day)
  }

  /** `getAge`: the year difference, less one while this year's birthday is still to
      come; that is, the number of birthdays reached by `today`. */
  method GetAge(today: Date, birth: Date) returns (age: int)
    ensures OnOrBefore(Birthday(birth, age), today)
    ensures !OnOrBefore(Birthday(birth, age + 1), today)
  {
    age := today.year - birth.year;
    var m := today.month - birth.month;
    if m < 0 || (m == 0 && today.day < birth.day) {
      age := age - 1;
    }
  }

  // ---------------------------------------------------------------- detail views

  /** The detail view of the HR and manager directories. */
  class EmployeeView {
    const employee: Record
    var isEditing: bool
    var edited: Record

    constructor (employee: Record)
      ensures this.employee == employee && !isEditing && edited == employee
    {
      this.employee := employee;
      isEditing := false;
      edited := employee;
    }

    method StartEditing()
      modifies this
      ensures isEditing && edited == old(edited)
    {
      isEditing := true;
    }

    method HandleChange(name: string, value: string)
      modifies this
      ensures edited == SetField(old(edited), name, value) && isEditing == old(isEditing)
    {
      edited := SetField(edited, name, value);
    }

    /** `handleSubmit`: the edited record is handed on and editing ends. */
    method Submit() returns (saved: Record)
      modifies this
      ensures saved == edited == old(edited) && !isEditing
    {
      saved := edited;
      isEditing := false;
    }

    /** Leaving the edit form keeps the edits made so far. */
    method StopEditing()
      modifies this
      ensures !isEditing && edited == old(edited)
    {
      isEditing := false;
    }
  }

  /** The detail view inside the administrator's employee page. Its parent selects the
      saved record and renders the same view with it as the new prop, so `employee` is
      the record last saved, not the one first opened. */
  class AdminEmployeeView {
    var employee: Record
    var isEditing: bool
    var edited: Record

    constructor (employee: Record)
      ensures this.employee == employee && !isEditing && edited == employee
    {
      this.employee := employee;
      isEditing := false;
      edited := employee;
    }

    method StartEditing()
      modifies this
      ensures isEditing && edited == old(edited) && employee == old(employee)
    {
      isEditing := true;
    }

    /** A change sets the named top-level field and nothing else. */
    method HandleChange(name: string, value: string)
      modifies this
      ensures edited == old(edited)[name := Str(value)] && isEditing == old(isEditing)
      ensures employee == old(employee)
    {
      edited := edited[name := Str(value)];
    }

    /** Saving hands the edits to the parent, which selects them and passes them back
        as the view's record; the state holding the edits is kept. */
    method Save() returns (saved: Record)
      modifies this
      ensures saved == edited == old(edited) && !isEditing
      ensures employee == saved
    {
      saved := edited;
      isEditing := false;
      employee := saved;
    }

    /** Cancelling discards the edits: the record shown is the last one saved (or the
        one first opened, when nothing was saved). */
    method Cancel()
      modifies this
      ensures !isEditing && edited == employee && employee == old(employee)
    {
      isEditing := false;
      edited := employee;
    }
  }

  // ---------------------------------------------------------------- lemmas

  /** A plain name sets that field to the text and leaves every other field alone. */
  lemma SetPlainField(r: Record, name: string, value: string)
    requires '.' !in name
    ensures SetField(r, name, value)[name] == Str(value)
    ensures SetField(r, name, value).Keys == r.Keys + {name}
    ensures forall k :: k in r && k != name ==> SetField(r, name, value)[k] == r[k]
  {
  }

  /** "parent.child" sets the child inside the parent object, keeps the parent's other
      entries and every other top-level field; any further dotted parts are ignored. */
  lemma SetNestedField(r: Record, parent: string, child: string, rest: string, value: string)
    requires '.' !in parent && '.' !in child && (rest == [] || rest[0] == '.')
    requires parent in r && r[parent].Obj?
    ensures var r' := SetField(r, parent + "." + child + rest, value);
            && r'.Keys == r.Keys
            && r'[parent] == Obj(r[parent].fields[child := Str(value)])
            && forall k :: k in r && k != parent ==> r'[k] == r[k]
  {
    var name := parent + "." + child + rest;
    assert name == parent + ['.'] + (child + rest);
    SplitAtFirst(parent, '.', child + rest);
    assert '.' in name by {
      assert name[|parent|] == '.';
    }
    ChildIsSecondPart(child, rest);
  }

  /** The first part of `child + rest` is `child` when `rest` is empty or starts a new
      part. */
  lemma ChildIsSecondPart(child: string, rest: string)
    requires '.' !in child && (rest == [] || rest[0] == '.')
    ensures Split(child + rest, '.')[0] == child
  {
    if rest == [] {
      assert child + rest == child;
      SplitNoSeparator(child, '.');
    } else {
      assert child + rest == child + ['.'] + rest[1..];
      SplitAtFirst(child, '.', rest[1..]);
    }
  }

  /** The full name reads as its words: first, middle when there is one, and last. */
  lemma FullNameWords(first: string, middle: string, last: string)
    requires ' ' !in first && ' ' !in middle && ' ' !in last
    ensures Split(FullName(first, middle, last), ' ')
            == if middle == "" then [first, last] else [first, middle, last]
  {
    SplitNoSeparator(last, ' ');
    if middle == "" {
      assert FullName(first, middle, last) == first + [' '] + last;
      SplitAtFirst(first, ' ', last);
    } else {
      assert FullName(first, middle, last) == first + [' '] + (middle + [' '] + last);
      SplitAtFirst(first, ' ', middle + [' '] + last);
      SplitAtFirst(middle, ' ', last);
    }
  }

  /** The initials are the first letters of the first and the last word of the full
      name. */
  lemma InitialsOfFullName(first: string, middle: string, last: string)
    requires first != [] && last != []
    ensures var full := FullName(first, middle, last);
            Initials(first, last) == [full[0], full[|full| - 1 - (|last| - 1)]]
  {
    var full := FullName(first, middle, last);
    assert full[|full| - |last|..] == last;
  }

  /** Exactly on the k-th birthday the age is k; the day before, where there is one in
      the same month, it is one less. */
  method AgeOnBirthday(birth: Date, k: int) returns (onTheDay: int, dayBefore: int)
    requires birth.day > 1
    ensures onTheDay == k && dayBefore == k - 1
  {
    onTheDay := GetAge(Birthday(birth, k), birth);
    dayBefore := GetAge(Date(birth.year + k, birth.month, birth.day - 1), birth);
  }
}

=== FILE: login_form.dfy ===
/** The sign-in screen: the employee-id format, the password-strength hint, the
    per-mode validation and the form itself, which moves between signing in, asking
    for a verification code, entering it and choosing a new password. The one-second
    delays before the verify → reset and reset → login switches are collapsed: each
    handler leaves the form in the state it reaches once its timers have fired. */
module LoginForm {
  import opened Text
  import opened Amounts
  import opened AuthContext

  datatype Mode = SignIn | Forgot | Verify | Reset

  /** The three inputs that share `handleChange`. */
  datatype Field = EmpIdField | PasswordField | ConfirmField

  function FieldName(f: Field): string {
    match f
    case EmpIdField => "empId"
    case PasswordField => "password"
    case ConfirmField => "confirmPassword"
  }

  datatype Message = Message(text: string, kind: string)

  const NoMessage := Message("", "")

  // ---------------------------------------------------------------- id format

  /** `s` is `prefix`, in any case, followed by exactly three digits. */
  predicate HasIdShape(s: string, prefix: string) {
    && |s| == |prefix| + 3
    && (forall i :: 0 <= i < |prefix| ==> LowerChar(s[i]) == prefix[i])
    && (forall i :: |prefix| <= i < |s| ==> IsDigit(s[i]))
  }

  /** `/^(admin-|mgr-|hr-|emp-)\d{3}$/i`. */
  predicate ValidEmpId(s: string)
    ensures ValidEmpId(s) ==> 6 <= |s| <= 9 && AllDigits(s[|s| - 3..])
  {
    HasIdShape(s, "admin-") || HasIdShape(s, "mgr-") || HasIdShape(s, "hr-") || HasIdShape(s, "emp-")
  }

  // ---------------------------------------------------------------- strength hint

  predicate IsSpecial(c: char) {
    c in "!@#$%^&*(),.?\":{}|<>"
  }

  predicate HasLetter(p: string) { exists i | 0 <= i < |p| :: IsAsciiLetter(p[i]) }

  predicate HasNumber(p: string) { exists i | 0 <= i < |p| :: IsDigit(p[i]) }

  predicate HasSpecial(p: string) { exists i | 0 <= i < |p| :: IsSpecial(p[i]) }

  const TooShort := "Password must be at least 6 characters"
  const Strong := "Strong password"
  const Medium := "Medium password"
  const Weak := "Weak password"

  /** `checkPasswordStrength`. */
  function PasswordStrength(p: string): (hint: string)
    ensures hint in [ "", TooShort, Strong, Medium, Weak ]
    ensures hint == "" <==> p == []
    ensures |p| >= 6 ==> hint in [ Strong, Medium, Weak ]
  {
    if p == [] then ""
    else if |p| < 6 then TooShort
    else if HasLetter(p) && HasNumber(p) && HasSpecial(p) then Strong
    else if (HasLetter(p) && HasNumber(p)) || (HasLetter(p) && HasSpecial(p)) || (HasNumber(p) && HasSpecial(p))
    then Medium
    else Weak
  }

  /** How many of the three kinds of character (letter, digit, special) occur. */
  function KindsUsed(p: string): (n: nat)
    ensures n <= 3
  {
    (if HasLetter(p) then 1 else 0) + (if HasNumber(p) then 1 else 0) + (if HasSpecial(p) then 1 else 0)
  }

  // ---------------------------------------------------------------- validation

  const IdRequired := "Employee ID is required"
  const BadIdFormat := "Invalid ID format"
  const PasswordRequired := "Password is required"
  const ConfirmRequired := "Confirm password is required"
  const NoMatch := "Passwords do not match"
  const CodeRequired := "Verification code is required"

  /** `validateForm`: the error message of each field that fails the current mode's
      checks, keyed by the field's name. */
  function ValidateForm(mode: Mode, empId: string, password: string, confirm: string, otp: string)
    : (errs: map<string, string>)
    ensures forall k :: k in errs ==> errs[k] != ""
    ensures mode == SignIn ==> errs.Keys <= {"empId", "password"}
    ensures mode == Forgot ==> errs.Keys <= {"empId"}
    ensures mode == Reset ==> errs.Keys <= {"password", "confirmPassword"}
    ensures mode == Verify ==> errs.Keys <= {"otp"}
  {
    match mode
    case SignIn =>
      var e := if IsBlank(empId) then map["empId" := IdRequired] else map[];
      if password == [] then e["password" := PasswordRequired]
      else if !ValidEmpId(empId) then e["empId" := BadIdFormat]
      else e
    case Forgot =>
      if IsBlank(empId) then map["empId" := IdRequired]
      else if !ValidEmpId(empId) then map["empId" := BadIdFormat]
      else map[]
    case Reset =>
      var e := if password == [] then map["password" := PasswordRequired]
               else if |password| < 6 then map["password" := TooShort]
               else map[];
      if confirm == [] then e["confirmPassword" := ConfirmRequired]
      else if password != confirm then e["confirmPassword" := NoMatch]
      else e
    case Verify =>
      if IsBlank(otp) then map["otp" := CodeRequired] else map[]
  }

  /** The browser's constraint check in front of `handleSubmit`: an input the current
      mode shows with `required` is empty, so the form is not submitted at all. Only
      the empty text counts as missing; blanks pass on to `validateForm`. */
  predicate RequiredMissing(mode: Mode, empId: string, password: string, confirm: string, otp: string) {
    match mode
    case SignIn => empId == "" || password == ""
    case Forgot => empId == ""
    case Verify => otp == ""
    case Reset => password == "" || confirm == ""
  }

  /** Past the browser's check, the password and confirmation are never reported as
      missing, and the id and code are reported missing only when they hold blanks. */
  lemma {:induction false} RequiredMessagesOnlyForBlanks(mode: Mode, empId: string, password: string,
                                                         confirm: string, otp: string)
    requires !RequiredMissing(mode, empId, password, confirm, otp)
    ensures var errs := ValidateForm(mode, empId, password, confirm, otp);
            && ("password" in errs ==> errs["password"] != PasswordRequired)
            && ("confirmPassword" in errs ==> errs["confirmPassword"] != ConfirmRequired)
            && ("empId" in errs && errs["empId"] == IdRequired ==> empId != "" && IsBlank(empId))
            && ("otp" in errs && errs["otp"] == CodeRequired ==> otp != "" && IsBlank(otp))
  {
  }

  /** The browser's check only holds back forms that `validateForm` would reject
      too: what it stops never reaches a call to the auth context. */
  lemma BlockedFormsAreInvalid(mode: Mode, empId: string, password: string, confirm: string, otp: string)
    requires RequiredMissing(mode, empId, password, confirm, otp)
    ensures ValidateForm(mode, empId, password, confirm, otp) != map[]
  {
    var errs := ValidateForm(mode, empId, password, confirm, otp);
    match mode
    case SignIn =>
      if empId == "" {
        assert IsBlank(empId) && "empId" in errs;
      } else {
        assert "password" in errs;
      }
    case Forgot => assert IsBlank(empId) && "empId" in errs;
    case Verify => assert IsBlank(otp) && "otp" in errs;
    case Reset => assert "password" in errs || "confirmPassword" in errs;
  }

  // ---------------------------------------------------------------- verification code

  /** `Math.floor(100000 + r * 900000)` for a draw `r` of `Math.random()`. */
  function OtpCode(draw: real): (code: int)
    requires 0.0 <= draw < 1.0
    ensures 100000 <= code <= 999999
  {
    (100000.0 + draw * 900000.0).Floor
  }

  /** The code as the text the user is asked to type: six digits. */
  function OtpText(draw: real): (code: string)
    requires 0.0 <= draw < 1.0
    ensures |code| == 6 && AllDigits(code)
    ensures DigitsValue(code) == OtpCode(draw)
  {
    var n := OtpCode(draw);
    assert Pow10(5) == 100000 && Pow10(6) == 1000000;
    NatToStringLength(n, 6);
    NatToStringRoundTrip(n);
    NatToString(n)
  }

  lemma {:induction false} NatToStringLength(n: nat, k: nat)
    requires 1 <= k && Pow10(k - 1) <= n < Pow10(k)
    ensures |NatToString(n)| == k
  {
    if k > 1 {
      assert Pow10(k) == 10 * Pow10(k - 1);
      assert Pow10(k - 1) == 10 * Pow10(k - 2);
      NatToStringLength(n / 10, k - 1);
    }
  }

  // ---------------------------------------------------------------- the form

  /** The route a sign-in reaches: the dashboard of the matching user's role, or none
      when `login` throws. */
  function SignInOutcome(users: seq<SampleUser>, empId: string, password: string): (route: Option<string>)
    ensures route.Some? <==> FindUser(users, empId, password).Some?
  {
    match FindUser(users, empId, password)
    case Some(u) => Some(DashboardRoute(u.role))
    case None => None
  }

  /** The user a successful sign-in exposes. */
  function SignedInUser(users: seq<SampleUser>, empId: string, password: string): User
    requires FindUser(users, empId, password).Some?
  {
    var u := FindUser(users, empId, password).value;
    User(u.empId, u.name, u.role)
  }

  class AuthForm {
    var mode: Mode
    var empId: string
    var password: string
    var confirmPassword: string
    var otp: string
    var generatedOtp: string
    var errors: map<string, string>
    var message: Message
    var passwordStrength: string
    var showStrength: bool

    /** Every error the form shows has a message. */
    predicate Valid()
      reads this
    {
      forall k :: k in errors ==> errors[k] != ""
    }

    constructor ()
      ensures Valid()
      ensures mode == SignIn && empId == "" && password == "" && confirmPassword == ""
      ensures otp == "" && generatedOtp == "" && errors == map[] && message == NoMessage
      ensures passwordStrength == "" && !showStrength
    {
      mode := SignIn;
      empId, password, confirmPassword := "", "", "";
      otp, generatedOtp := "", "";
      errors := map[];
      message := NoMessage;
      passwordStrength, showStrength := "", false;
    }

    /** `setMode` together with the effect that runs when the mode changes: a change of
        mode clears every error and the message. */
    method SetMode(m: Mode)
      modifies this
      ensures mode == m
      ensures m != old(mode) ==> errors == map[] && message == NoMessage
      ensures m == old(mode) ==> errors == old(errors) && message == old(message)
      ensures empId == old(empId) && password == old(password) && confirmPassword == old(confirmPassword)
      ensures otp == old(otp) && generatedOtp == old(generatedOtp)
      ensures passwordStrength == old(passwordStrength) && showStrength == old(showStrength)
    {
      if m != mode {
        errors := map[];
        message := NoMessage;
      }
      mode := m;
    }

    /** `handleChange`: the field takes the value, typing a password refreshes the
        strength hint, and only that field's error is dropped. */
    method HandleChange(f: Field, value: string)
      requires Valid()
      modifies this
      ensures Valid()
      ensures errors == old(errors) - {FieldName(f)}
      ensures empId == (if f == EmpIdField then value else old(empId))
      ensures password == (if f == PasswordField then value else old(password))
      ensures confirmPassword == (if f == ConfirmField then value else old(confirmPassword))
      ensures f == PasswordField ==> passwordStrength == PasswordStrength(value) && showStrength == (|value| > 0)
      ensures f != PasswordField ==> passwordStrength == old(passwordStrength) && showStrength == old(showStrength)
      ensures mode == old(mode) && otp == old(otp) && generatedOtp == old(generatedOtp) && message == old(message)
    {
      var name := FieldName(f);
      if f == PasswordField {
        passwordStrength := PasswordStrength(value);
        showStrength := |value| > 0;
      }
      match f {
        case EmpIdField => empId := value;
        case PasswordField => password := value;
        case ConfirmField => confirmPassword := value;
      }
      if name in errors && errors[name] != "" {
        errors := errors - {name};
      } else {
        assert errors == errors - {name};
      }
    }

    /** The code input: at most six characters are kept, and its error is not cleared. */
    method SetOtp(value: string)
      modifies this
      ensures otp == if |value| <= 6 then value else value[..6]
      ensures mode == old(mode) && empId == old(empId) && password == old(password)
      ensures confirmPassword == old(confirmPassword) && generatedOtp == old(generatedOtp)
      ensures errors == old(errors) && message == old(message)
      ensures passwordStrength == old(passwordStrength) && showStrength == old(showStrength)
    {
      otp := if |value| <= 6 then value else value[..6];
    }

    /** The state every successful password reset and both links return to. */
    method ClearCredentials()
      modifies this
      ensures empId == "" && password == "" && confirmPassword == ""
      ensures mode == old(mode) && otp == old(otp) && generatedOtp == old(generatedOtp)
      ensures errors == old(errors) && message == old(message)
      ensures passwordStrength == old(passwordStrength) && showStrength == old(showStrength)
    {
      empId, password, confirmPassword := "", "", "";
    }

    /** The errors `validateForm` finds in the form as it stands. */
    function Errors(): map<string, string>
      reads this
    {
      ValidateForm(mode, empId, password, confirmPassword, otp)
    }

    /** An input the current mode shows with `required` is empty. */
    predicate Blocked()
      reads this
    {
      RequiredMissing(mode, empId, password, confirmPassword, otp)
    }

    /** Submitting the form. The browser first refuses a form with an empty `required`
        input, and nothing changes. Otherwise `handleSubmit` runs: with any validation
        error the errors are shown and no call is made; without one each mode has its
        own step (below), and in the code-request mode, whose only input submits the
        form on Enter, nothing happens. */
    method Submit(auth: AuthProvider) returns (route: Option<string>)
      requires Valid()
      modifies this, auth
      ensures Valid()
      // The browser's check: nothing is submitted.
      ensures old(Blocked()) ==> route.None? && unchanged(this) && unchanged(auth)
      // Invalid input: the errors and the banner are shown, nothing else changes.
      ensures !old(Blocked()) && old(Errors()) != map[] ==>
                && errors == old(Errors()) && message == Message("Please fix all errors in the form", "error")
                && route.None? && mode == old(mode) && unchanged(auth)
                && empId == old(empId) && password == old(password) && confirmPassword == old(confirmPassword)
                && otp == old(otp) && generatedOtp == old(generatedOtp)
                && passwordStrength == old(passwordStrength) && showStrength == old(showStrength)
      // Signing in: the outcome of `login`, with its message and user.
      ensures !old(Blocked()) && old(Errors()) == map[] && old(mode) == SignIn ==>
                && route == SignInOutcome(auth.users, old(empId), old(password))
                && (route.Some? ==> message == Message("Login successful! Redirecting...", "success"))
                && (route.None? ==> message == Message("Invalid credentials. Please try again.", "error"))
                && !auth.isLoading
                && auth.user == (if route.None? then old(auth.user)
                                 else Some(SignedInUser(auth.users, old(empId), old(password))))
                && (route.None? ==> auth.session == old(auth.session))
                && (route.Some? ==> var u := FindUser(auth.users, old(empId), old(password)).value;
                                    auth.session == Session(u.empId, u.name))
                && mode == SignIn && errors == old(errors)
                && empId == old(empId) && password == old(password) && confirmPassword == old(confirmPassword)
                && otp == old(otp) && generatedOtp == old(generatedOtp)
                && passwordStrength == old(passwordStrength) && showStrength == old(showStrength)
      // Entering the code: on to choosing a password, or the code flagged.
      ensures !old(Blocked()) && old(Errors()) == map[] && old(mode) == Verify ==>
                && route.None? && unchanged(auth)
                && (VerifyCode(old(otp), old(generatedOtp)) ==>
                      mode == Reset && otp == "" && errors == map[] && message == NoMessage)
                && (!VerifyCode(old(otp), old(generatedOtp)) ==>
                      && mode == Verify && otp == old(otp)
                      && errors == map["otp" := "Invalid verification code"]
                      && message == Message("Invalid verification code", "error"))
                && empId == old(empId) && password == old(password) && confirmPassword == old(confirmPassword)
                && generatedOtp == old(generatedOtp)
                && passwordStrength == old(passwordStrength) && showStrength == old(showStrength)
      // Choosing a password: back to signing in with the credentials cleared.
      ensures !old(Blocked()) && old(Errors()) == map[] && old(mode) == Reset ==>
                && route.None? && unchanged(auth) && mode == SignIn
                && empId == "" && password == "" && confirmPassword == ""
                && errors == map[] && message == NoMessage
                && otp == old(otp) && generatedOtp == old(generatedOtp)
                && passwordStrength == old(passwordStrength) && showStrength == old(showStrength)
      ensures !old(Blocked()) && old(Errors()) == map[] && old(mode) == Forgot ==>
                route.None? && unchanged(this) && unchanged(auth)
    {
      route := None;
      if Blocked() {
        return;
      }
      var errs := Errors();
      if errs != map[] {
        ValidationMessagesNonEmpty(mode, empId, password, confirmPassword, otp);
        errors := errs;
        message := Message("Please fix all errors in the form", "error");
        return;
      }
      match mode {
        case SignIn => route := SubmitSignIn(auth);
        case Verify => SubmitCode();
        case Reset => SubmitNewPassword();
        case Forgot =>
      }
    }

    /** Signing in: `login` is called; on success its route is taken and the success
        message shown, on failure the credentials are reported as invalid. */
    method SubmitSignIn(auth: AuthProvider) returns (route: Option<string>)
      requires Valid()
      modifies this, auth
      ensures Valid()
      ensures route == SignInOutcome(auth.users, old(empId), old(password))
      ensures route.Some? ==> message == Message("Login successful! Redirecting...", "success")
      ensures route.None? ==> message == Message("Invalid credentials. Please try again.", "error")
      ensures !auth.isLoading
      ensures auth.user == if route.None? then old(auth.user) else Some(SignedInUser(auth.users, old(empId), old(password)))
      ensures route.None? ==> auth.session == old(auth.session)
      ensures route.Some? ==> var u := FindUser(auth.users, old(empId), old(password)).value;
                auth.session == Session(u.empId, u.name)
      ensures mode == old(mode) && errors == old(errors) && empId == old(empId) && password == old(password)
      ensures confirmPassword == old(confirmPassword) && otp == old(otp) && generatedOtp == old(generatedOtp)
      ensures passwordStrength == old(passwordStrength) && showStrength == old(showStrength)
    {
      route := auth.Login(empId, password);
      if route.Some? {
        message := Message("Login successful! Redirecting...", "success");
      } else {
        message := Message("Invalid credentials. Please try again.", "error");
      }
    }

    /** Entering the code: the right code leads on to choosing a password (the switch
        of mode clears the message and errors) and the code input is emptied; a wrong
        one is flagged on the code input. */
    method SubmitCode()
      requires Valid() && mode == Verify
      modifies this
      ensures Valid()
      ensures VerifyCode(old(otp), old(generatedOtp)) ==>
                mode == Reset && otp == "" && errors == map[] && message == NoMessage
      ensures !VerifyCode(old(otp), old(generatedOtp)) ==>
                && mode == Verify && otp == old(otp)
                && errors == map["otp" := "Invalid verification code"]
                && message == Message("Invalid verification code", "error")
      ensures empId == old(empId) && password == old(password) && confirmPassword == old(confirmPassword)
      ensures generatedOtp == old(generatedOtp)
      ensures passwordStrength == old(passwordStrength) && showStrength == old(showStrength)
    {
      if VerifyCode(otp, generatedOtp) {
        message := Message("Verification successful!", "success");
        SetMode(Reset);
        otp := "";
      } else {
        errors := map["otp" := "Invalid verification code"];
        message := Message("Invalid verification code", "error");
      }
    }

    /** Choosing a password: `resetPassword` always succeeds, and the form returns to
        signing in with every credential field empty. */
    method SubmitNewPassword()
      requires mode == Reset
      modifies this
      ensures Valid()
      ensures mode == SignIn && empId == "" && password == "" && confirmPassword == ""
      ensures errors == map[] && message == NoMessage
      ensures otp == old(otp) && generatedOtp == old(generatedOtp)
      ensures passwordStrength == old(passwordStrength) && showStrength == old(showStrength)
    {
      var success := ResetPassword(empId, password);
      assert success;
      message := Message("Password updated successfully!", "success");
      SetMode(SignIn);
      ClearCredentials();
    }

    /** `handleSendOtp`: with a valid, registered id a fresh six-digit code is generated
        and the form moves to entering it; otherwise the id's error is shown. */
    method SendOtp(auth: AuthProvider, draw: real)
      requires Valid() && 0.0 <= draw < 1.0
      modifies this
      ensures Valid()
      ensures old(Errors()) != map[] ==>
                && errors == old(Errors()) && message == Message("Please fix the errors in the form", "error")
                && mode == old(mode) && generatedOtp == old(generatedOtp)
      ensures old(Errors()) == map[] && !SendVerificationCode(auth.users, old(empId)) ==>
                && errors == map["empId" := "Employee ID not registered"]
                && message == Message("Employee ID not registered", "error")
                && mode == old(mode) && generatedOtp == old(generatedOtp)
      ensures old(Errors()) == map[] && SendVerificationCode(auth.users, old(empId)) ==>
                && mode == Verify && generatedOtp == OtpText(draw)
                && (old(mode) != Verify ==> errors == map[] && message == NoMessage)
                && (old(mode) == Verify ==>
                      errors == old(errors)
                      && message == Message("Verification code sent to your registered contact method", "success"))
      ensures empId == old(empId) && password == old(password) && confirmPassword == old(confirmPassword)
      ensures otp == old(otp)
      ensures passwordStrength == old(passwordStrength) && showStrength == old(showStrength)
    {
      var errs := Errors();
      if errs != map[] {
        ValidationMessagesNonEmpty(mode, empId, password, confirmPassword, otp);
        errors := errs;
        message := Message("Please fix the errors in the form", "error");
        return;
      }
      if !SendVerificationCode(auth.users, empId) {
        errors := map["empId" := "Employee ID not registered"];
        message := Message("Employee ID not registered", "error");
        return;
      }
      generatedOtp := OtpText(draw);
      message := Message("Verification code sent to your registered contact method", "success");
      SetMode(Verify);
    }

    /** `handleResendOtp`: a fresh code replaces the old one and the typed code is cleared. */
    method ResendOtp(draw: real)
      requires 0.0 <= draw < 1.0
      modifies this
      ensures generatedOtp == OtpText(draw) && otp == ""
      ensures message == Message("New verification code sent", "success")
      ensures mode == old(mode) && errors == old(errors)
      ensures empId == old(empId) && password == old(password) && confirmPassword == old(confirmPassword)
      ensures passwordStrength == old(passwordStrength) && showStrength == old(showStrength)
    {
      generatedOtp := OtpText(draw);
      otp := "";
      message := Message("New verification code sent", "success");
    }

    /** The "Forgot password?" link. */
    method ForgotPassword()
      modifies this
      ensures mode == Forgot && empId == "" && password == "" && confirmPassword == ""
      ensures old(mode) != Forgot ==> errors == map[] && message == NoMessage
      ensures otp == old(otp) && generatedOtp == old(generatedOtp)
      ensures old(mode) == Forgot ==> errors == old(errors) && message == old(message)
      ensures passwordStrength == old(passwordStrength) && showStrength == old(showStrength)
    {
      SetMode(Forgot);
      ClearCredentials();
    }

    /** The "Back to Login" link. */
    method BackToLogin()
      modifies this
      ensures mode == SignIn && empId == "" && password == "" && confirmPassword == ""
      ensures old(mode) != SignIn ==> errors == map[] && message == NoMessage
      ensures otp == old(otp) && generatedOtp == old(generatedOtp)
      ensures old(mode) == SignIn ==> errors == old(errors) && message == old(message)
      ensures passwordStrength == old(passwordStrength) && showStrength == old(showStrength)
    {
      SetMode(SignIn);
      ClearCredentials();
    }
  }

  // ---------------------------------------------------------------- lemmas

  /** A valid id starts with a letter, so it is never blank. */
  lemma ValidIdNotBlank(s: string)
    requires ValidEmpId(s)
    ensures !IsBlank(s) && |s| >= 6
  {
    assert LowerChar(s[0]) in "amhe";
    assert !IsBlankChar(s[0]);
  }

  /** The id check ignores case, in both directions. */
  lemma ValidEmpIdIgnoresCase(s: string)
    ensures ValidEmpId(ToUpper(s)) <==> ValidEmpId(s)
    ensures ValidEmpId(ToLower(s)) <==> ValidEmpId(s)
  {
    forall prefix | prefix in ["admin-", "mgr-", "hr-", "emp-"]
      ensures HasIdShape(ToUpper(s), prefix) <==> HasIdShape(s, prefix)
      ensures HasIdShape(ToLower(s), prefix) <==> HasIdShape(s, prefix)
    {
      ShapeIgnoresCase(s, prefix);
    }
  }

  lemma ShapeIgnoresCase(s: string, prefix: string)
    ensures HasIdShape(ToUpper(s), prefix) <==> HasIdShape(s, prefix)
    ensures HasIdShape(ToLower(s), prefix) <==> HasIdShape(s, prefix)
  {
    assert forall i :: 0 <= i < |s| ==> LowerChar(ToUpper(s)[i]) == LowerChar(s[i]);
    assert forall i :: 0 <= i < |s| ==> LowerChar(ToLower(s)[i]) == LowerChar(s[i]);
    assert forall i :: 0 <= i < |s| ==> (IsDigit(ToUpper(s)[i]) <==> IsDigit(s[i]));
    assert forall i :: 0 <= i < |s| ==> (IsDigit(ToLower(s)[i]) <==> IsDigit(s[i]));
  }

  /** A lower-case prefix followed by three digits is a valid id. */
  lemma ValidFromParts(prefix: string, digits: string)
    requires prefix in ["admin-", "mgr-", "hr-", "emp-"]
    requires |digits| == 3 && AllDigits(digits)
    ensures ValidEmpId(prefix + digits)
  {
    assert forall i :: 0 <= i < |prefix| ==> LowerChar(prefix[i]) == prefix[i];
  }

  /** Every demonstration id has the required format. */
  lemma SampleIdsAreValid(i: nat)
    requires i < |SampleUsers|
    ensures ValidEmpId(SampleUsers[i].empId)
  {
    var digits := "001";
    assert AllDigits(digits);
    if i == 0 {
      assert SampleUsers[0].empId == "admin-" + digits;
      ValidFromParts("admin-", digits);
    } else if i == 1 {
      assert SampleUsers[1].empId == "mgr-" + digits;
      ValidFromParts("mgr-", digits);
    } else if i == 2 {
      assert SampleUsers[2].empId == "hr-" + digits;
      ValidFromParts("hr-", digits);
    } else {
      assert SampleUsers[3].empId == "emp-" + digits;
      ValidFromParts("emp-", digits);
    }
  }

  /** Above the length limit the hint is decided by how many kinds of character the
      password mixes: all three is strong, two is medium, fewer is weak. */
  lemma StrengthByKinds(p: string)
    requires |p| >= 6
    ensures PasswordStrength(p) == Strong <==> KindsUsed(p) == 3
    ensures PasswordStrength(p) == Medium <==> KindsUsed(p) == 2
    ensures PasswordStrength(p) == Weak <==> KindsUsed(p) <= 1
  {
  }

  /** Below six characters the hint only asks for length, whatever the mix. */
  lemma ShortPasswordHint(p: string)
    ensures p == [] <==> PasswordStrength(p) == ""
    ensures 0 < |p| < 6 <==> PasswordStrength(p) == TooShort
  {
  }

  /** Signing in: the form passes exactly when a password is given and the id has the
      format. A missing password is always reported; a bad id is reported as a format
      error once a password is given, even when the id is blank. */
  lemma SignInValidation(empId: string, password: string, confirm: string, otp: string)
    ensures var errs := ValidateForm(SignIn, empId, password, confirm, otp);
            && (errs == map[] <==> password != [] && ValidEmpId(empId))
            && errs.Keys <= {"empId", "password"}
            && ("password" in errs <==> password == [])
            && (password != [] && !ValidEmpId(empId) ==> errs["empId"] == BadIdFormat)
            && (password == [] && IsBlank(empId) ==> errs["empId"] == IdRequired)
  {
    var errs := ValidateForm(SignIn, empId, password, confirm, otp);
    if ValidEmpId(empId) {
      ValidIdNotBlank(empId);
    }
    if password == [] {
      assert "password" in errs;
    } else if !ValidEmpId(empId) {
      assert "empId" in errs;
    }
  }

  /** Asking for a code: the form passes exactly when the id has the format. */
  lemma ForgotValidation(empId: string, password: string, confirm: string, otp: string)
    ensures var errs := ValidateForm(Forgot, empId, password, confirm, otp);
            && (errs == map[] <==> ValidEmpId(empId))
            && errs.Keys <= {"empId"}
  {
    var errs := ValidateForm(Forgot, empId, password, confirm, otp);
    if ValidEmpId(empId) {
      ValidIdNotBlank(empId);
    } else {
      assert "empId" in errs;
    }
  }

  /** Choosing a password: the form passes exactly when the password has at least six
      characters and the confirmation repeats it. */
  lemma ResetValidation(empId: string, password: string, confirm: string, otp: string)
    ensures var errs := ValidateForm(Reset, empId, password, confirm, otp);
            && (errs == map[] <==> |password| >= 6 && confirm == password)
            && errs.Keys <= {"password", "confirmPassword"}
            && ("confirmPassword" in errs <==> confirm != password || confirm == [])
  {
    var errs := ValidateForm(Reset, empId, password, confirm, otp);
    if confirm == [] || confirm != password {
      assert "confirmPassword" in errs;
    } else if |password| < 6 {
      assert "password" in errs;
    }
  }

  /** Entering the code: the form passes exactly when the code is not blank. */
  lemma VerifyValidation(empId: string, password: string, confirm: string, otp: string)
    ensures var errs := ValidateForm(Verify, empId, password, confirm, otp);
            (errs == map[] <==> !IsBlank(otp)) && errs.Keys <= {"otp"}
  {
    if IsBlank(otp) {
      assert "otp" in ValidateForm(Verify, empId, password, confirm, otp);
    }
  }

  /** Every message validation produces is non-empty, so the form's errors stay valid. */
  lemma ValidationMessagesNonEmpty(mode: Mode, empId: string, password: string, confirm: string, otp: string)
    ensures forall k :: k in ValidateForm(mode, empId, password, confirm, otp)
              ==> ValidateForm(mode, empId, password, confirm, otp)[k] != ""
  {
  }

  /** A code the form hands out passes validation and is verified only by itself. */
  lemma GeneratedCodeVerifies(draw: real, typed: string)
    requires 0.0 <= draw < 1.0
    ensures ValidateForm(Verify, "", "", "", OtpText(draw)) == map[]
    ensures VerifyCode(typed, OtpText(draw)) <==> typed == OtpText(draw)
  {
    var code := OtpText(draw);
    assert !IsBlankChar(code[0]);
  }
}

=== FILE: manager_attendance.dfy ===
/** The manager's attendance screen: the day count of a record, the attendance
    summary's filter, the per-work-type head counts and the check-in/check-out toggle
    that files a summary record on check-out. Dates are day numbers (days since an
    arbitrary epoch, in UTC); a moment in time is a millisecond count. */
module ManagerAttendance {
  import opened Text

  const MsPerDay: nat := 86400000

  /** One row of the attendance summary. `from` and `to` are day numbers. */
  datatype AttendanceRecord = AttendanceRecord(
    employeeId: string, employeeName: string, from: int, to: int, noOfDays: int,
    status: string, assignedTo: string, reason: string, workType: string,
    leaveType: string, checkInTime: string, checkOutTime: string, isTeamMember: bool)

  const Office := "Work from Office"
  const Home := "Work from Home"
  const Leave := "Leave"

  // ---------------------------------------------------------------- day count

  function Abs(x: int): nat { if x < 0 then -x else x }

  /** `Math.ceil(n / d)` for a non-negative `n`. */
  function CeilDiv(n: nat, d: nat): (q: nat)
    requires d > 0
    ensures q * d >= n && (q == 0 || (q - 1) * d < n)
  {
    (n + d - 1) / d
  }

  /** `calculateDays`: the whole days between two moments, rounded up, plus one so
      that both ends count. */
  function DayCount(startMs: int, endMs: int): (days: int)
    ensures days >= 1
    ensures (days - 1) * MsPerDay >= Abs(endMs - startMs) > (days - 2) * MsPerDay
            || (days == 1 && startMs == endMs)
  {
    CeilDiv(Abs(endMs - startMs), MsPerDay) + 1
  }

  // ---------------------------------------------------------------- summary filter

  /** The summary's filter inputs; an empty text or an absent date imposes nothing. */
  datatype Criteria = Criteria(search: string, status: string, workType: string,
                               fromDate: Option<int>, toDate: Option<int>)

  predicate Matches(r: AttendanceRecord, c: Criteria) {
    && (ContainsIgnoringCase(r.employeeId, c.search) || ContainsIgnoringCase(r.employeeName, c.search))
    && (c.status == "" || r.status == c.status)
    && (c.workType == "" || r.workType == c.workType)
    && (c.fromDate.None? || r.from >= c.fromDate.value)
    && (c.toDate.None? || r.to <= c.toDate.value)
  }

  /** `approvalData.filter(...)` in the attendance summary. */
  function Filtered(records: seq<AttendanceRecord>, c: Criteria): (r: seq<AttendanceRecord>)
    ensures |r| <= |records|
    ensures forall x :: x in r <==> x in records && Matches(x, c)
  {
    if records == [] then []
    else
      var rest := Filtered(records[..|records| - 1], c);
      var last := records[|records| - 1];
      assert records == records[..|records| - 1] + [last];
      if Matches(last, c) then rest + [last] else rest
  }

  // ---------------------------------------------------------------- head counts

  predicate Counted(r: AttendanceRecord) {
    r.status == "Approved" || r.status == "Pending"
  }

  /** The distinct employees with an approved or pending record of the work type. */
  function IdsWith(records: seq<AttendanceRecord>, workType: string): set<string> {
    set r | r in records && Counted(r) && r.workType == workType :: r.employeeId
  }

  datatype Counts = Counts(fromOffice: nat, fromHome: nat, onDuty: nat, onLeave: nat)

  /** The effect that recounts whenever the records change: three sets of employee
      ids, one per work type, filled record by record. */
  method CountAttendance(records: seq<AttendanceRecord>) returns (counts: Counts)
    ensures counts.fromOffice == |IdsWith(records, Office)|
    ensures counts.fromHome == |IdsWith(records, Home)|
    ensures counts.onLeave == |IdsWith(records, Leave)|
    ensures counts.onDuty == counts.fromOffice + counts.fromHome
  {
    var office: set<string> := {};
    var home: set<string> := {};
    var leave: set<string> := {};
    var i := 0;
    while i < |records|
      invariant 0 <= i <= |records|
      invariant office == IdsWith(records[..i], Office)
      invariant home == IdsWith(records[..i], Home)
      invariant leave == IdsWith(records[..i], Leave)
    {
      var r := records[i];
      AddRecord(records[..i], r);
      if Counted(r) {
        if r.workType == Office {
          office := office + {r.employeeId};
        } else if r.workType == Home {
          home := home + {r.employeeId};
        } else if r.workType == Leave {
          leave := leave + {r.employeeId};
        }
      }
      assert records[..i + 1] == records[..i] + [r];
      i := i + 1;
    }
    assert records[..|records|] == records;
    counts := Counts(|office|, |home|, |office| + |home|, |leave|);
  }

  /** How one more record changes the ids of each work type. */
  lemma AddRecord(records: seq<AttendanceRecord>, r: AttendanceRecord)
    ensures forall w :: IdsWith(records + [r], w)
              == IdsWith(records, w) + (if Counted(r) && r.workType == w then {r.employeeId} else {})
  {
    forall w
      ensures IdsWith(records + [r], w)
              == IdsWith(records, w) + (if Counted(r) && r.workType == w then {r.employeeId} else {})
    {
      var extra := if Counted(r) && r.workType == w then {r.employeeId} else {};
      forall id | id in IdsWith(records + [r], w)
        ensures id in IdsWith(records, w) + extra
      {
        var x :| x in records + [r] && Counted(x) && x.workType == w && x.employeeId == id;
        if x != r {
          assert x in records;
        }
      }
      forall id | id in IdsWith(records, w) + extra
        ensures id in IdsWith(records + [r], w)
      {
        if id in IdsWith(records, w) {
          var x :| x in records && Counted(x) && x.workType == w && x.employeeId == id;
          assert x in records + [r];
        } else {
          assert r in records + [r];
        }
      }
    }
  }

  // ---------------------------------------------------------------- check in / out

  /** One entry of the check-in log: its kind, the day it fell on and its time of day as
      shown. */
  datatype Entry = Entry(id: int, kind: string, day: int, time: string)

  /** The moment of a check action: milliseconds, the day it falls on, the time shown. */
  datatype Moment = Moment(ms: int, day: int, time: string)

  /** The signed-in manager the summary records are filed for. */
  datatype UserInfo = UserInfo(employeeId: string, employeeName: string, assignedTo: string)

  /** The position `[...attendance].reverse().find(entry => entry.type === "Check In")`
      finds: the last check-in of the log, or -1 when there is none. */
  function LastCheckIn(entries: seq<Entry>): (k: int)
    ensures -1 <= k < |entries|
    ensures k == -1 <==> forall i :: 0 <= i < |entries| ==> entries[i].kind != "Check In"
    ensures k >= 0 ==> entries[k].kind == "Check In"
                       && forall j :: k < j < |entries| ==> entries[j].kind != "Check In"
  {
    if entries == [] then -1
    else if entries[|entries| - 1].kind == "Check In" then |entries| - 1
    else LastCheckIn(entries[..|entries| - 1])
  }

  /** The approved record a check-out files for the manager's own attendance. */
  function SummaryRecord(user: UserInfo, checkIn: Entry, now: Moment): AttendanceRecord {
    AttendanceRecord(user.employeeId, user.employeeName, checkIn.day, now.day,
                     DayCount(checkIn.day * MsPerDay, now.day * MsPerDay),
                     "Approved", user.assignedTo, "Regular attendance", Office, "",
                     checkIn.time, now.time, false)
  }

  class AttendancePage {
    const user: UserInfo
    var approvalData: seq<AttendanceRecord>
    var counts: Counts
    var isCheckedIn: bool
    var attendance: seq<Entry>

    /** The counts always describe the current records. */
    predicate Valid()
      reads this
    {
      && counts.fromOffice == |IdsWith(approvalData, Office)|
      && counts.fromHome == |IdsWith(approvalData, Home)|
      && counts.onLeave == |IdsWith(approvalData, Leave)|
      && counts.onDuty == counts.fromOffice + counts.fromHome
    }

    constructor (user: UserInfo, initial: seq<AttendanceRecord>)
      ensures Valid()
      ensures this.user == user && approvalData == initial && !isCheckedIn && attendance == []
    {
      var c := CountAttendance(initial);
      this.user := user;
      approvalData := initial;
      isCheckedIn := false;
      attendance := [];
      counts := c;
    }

    /** `completeAttendanceProcess`: log the action, and on a check-out that follows a
        logged check-in put the summary record first in the list. */
    method CompleteAttendance(entryId: int, now: Moment)
      requires Valid()
      modifies this
      ensures Valid()
      ensures attendance == old(attendance)
                + [Entry(entryId, if old(isCheckedIn) then "Check Out" else "Check In", now.day, now.time)]
      ensures isCheckedIn == !old(isCheckedIn)
      ensures approvalData == if old(isCheckedIn) && LastCheckIn(old(attendance)) >= 0
                              then [SummaryRecord(user, old(attendance)[LastCheckIn(old(attendance))], now)]
                                   + old(approvalData)
                              else old(approvalData)
    {
      var entry := Entry(entryId, if isCheckedIn then "Check Out" else "Check In", now.day, now.time);
      var last := LastCheckIn(attendance);
      if isCheckedIn && last >= 0 {
        approvalData := [SummaryRecord(user, attendance[last], now)] + approvalData;
        counts := CountAttendance(approvalData);
      }
      attendance := attendance + [entry];
      isCheckedIn := !isCheckedIn;
    }
  }

  // ---------------------------------------------------------------- lemmas

  /** The day count is at least one, is one for the same moment, and does not depend
      on the order of its arguments. */
  lemma DayCountBasics(a: int, b: int)
    ensures DayCount(a, b) >= 1
    ensures DayCount(a, a) == 1
    ensures DayCount(a, b) == DayCount(b, a)
  {
  }

  /** Between two dates the count is the number of calendar days from one to the other,
      both included. */
  lemma {:induction false} DayCountOfDates(d1: int, d2: int)
    ensures DayCount(d1 * MsPerDay, d2 * MsPerDay) == Abs(d2 - d1) + 1
  {
    var n := Abs(d2 - d1);
    assert Abs(d2 * MsPerDay - d1 * MsPerDay) == n * MsPerDay by {
      if d2 >= d1 {
        assert d2 * MsPerDay - d1 * MsPerDay == (d2 - d1) * MsPerDay;
      } else {
        assert d1 * MsPerDay - d2 * MsPerDay == (d1 - d2) * MsPerDay;
      }
    }
    assert (n * MsPerDay + MsPerDay - 1) / MsPerDay == n by {
      assert n * MsPerDay + MsPerDay - 1 == n * MsPerDay + (MsPerDay - 1);
    }
  }

  /** A part of a day still counts as a whole day. */
  lemma DayCountRoundsUp(startMs: int)
    ensures DayCount(startMs, startMs + 1) == 2
    ensures DayCount(startMs, startMs + MsPerDay) == 2
    ensures DayCount(startMs, startMs + MsPerDay + 1) == 3
  {
  }

  /** With every criterion empty the summary shows every record. */
  lemma EmptyCriteriaKeepAll(records: seq<AttendanceRecord>)
    ensures Filtered(records, Criteria("", "", "", None, None)) == records
  {
    if records != [] {
      var last := records[|records| - 1];
      ContainsIgnoringCaseEmpty(last.employeeId);
      EmptyCriteriaKeepAll(records[..|records| - 1]);
      assert records == records[..|records| - 1] + [last];
    }
  }

  /** The summary lists the matching records in their original order: filtering the
      records before and after a split is filtering the whole. */
  lemma {:induction false} FilteredAppend(a: seq<AttendanceRecord>, b: seq<AttendanceRecord>, c: Criteria)
    ensures Filtered(a + b, c) == Filtered(a, c) + Filtered(b, c)
    decreases |b|
  {
    if b == [] {
      assert a + b == a;
    } else {
      var last := b[|b| - 1];
      var front := b[..|b| - 1];
      assert (a + b)[..|a + b| - 1] == a + front;
      assert (a + b)[|a + b| - 1] == last;
      FilteredAppend(a, front, c);
    }
  }

  /** The on-duty figure adds the office and home counts, so one employee with records
      of both kinds is counted twice. */
  lemma OnDutyCountsTwice(office: AttendanceRecord, home: AttendanceRecord)
    requires office.status == "Approved" && office.workType == Office
    requires home.status == "Approved" && home.workType == Home
    requires office.employeeId == home.employeeId
    ensures |IdsWith([office, home], Office)| + |IdsWith([office, home], Home)| == 2
    ensures IdsWith([office, home], Office) + IdsWith([office, home], Home) == {office.employeeId}
  {
    assert IdsWith([office, home], Office) == {office.employeeId};
    assert IdsWith([office, home], Home) == {office.employeeId};
  }

  /** Rejected records and records of any other work type are in no count. */
  lemma UncountedRecord(records: seq<AttendanceRecord>, r: AttendanceRecord, w: string)
    requires !Counted(r) || r.workType != w
    ensures IdsWith(records + [r], w) == IdsWith(records, w)
  {
    AddRecord(records, r);
  }
}

=== FILE: manager_dashboard.dfy ===
/** The manager's dashboard header: the notification panel with its type filter and
    counts, the profile menu's actions, and the change-password and edit-profile
    dialogs. Alerts are recorded as the last alert text; leaving the page for the
    login screen is recorded as the location navigated to. */
module ManagerDashboard {
  import opened Text

  datatype Notification = Notification(id: int, kind: string, title: string, message: string,
                                       time: string, read: bool)

  /** The filters the panel offers besides "all". */
  const Kinds: seq<string> := ["leave", "message", "payment", "meeting", "system"]

  const PasswordMismatch := "New passwords don't match!"
  const PasswordFieldsRequired := "All fields are required!"
  const PasswordChanged := "Password changed successfully!"
  const ProfileUpdated := "Profile updated successfully!"
  const LoggedOut := "You have been logged out successfully!"

  const EmptyPasswords: map<string, string> :=
    map["currentPassword" := "", "newPassword" := "", "confirmPassword" := ""]

  /** The notifications of one type, in order. */
  function OfKind(ns: seq<Notification>, kind: string): (r: seq<Notification>)
    ensures forall x :: x in r <==> x in ns && x.kind == kind
    ensures |r| <= |ns|
  {
    if ns == [] then []
    else
      var init := ns[..|ns| - 1];
      var last := ns[|ns| - 1];
      assert ns == init + [last];
      OfKind(init, kind) + (if last.kind == kind then [last] else [])
  }

  /** The notifications the panel lists under a filter: all of them under "all",
      otherwise those of the filter's type. */
  function Visible(ns: seq<Notification>, filter: string): (r: seq<Notification>)
    ensures filter == "all" ==> r == ns
    ensures filter != "all" ==> forall x :: x in r <==> x in ns && x.kind == filter
  {
    if filter == "all" then ns else OfKind(ns, filter)
  }

  /** The positions of the notifications not yet read. */
  function UnreadPositions(ns: seq<Notification>): set<int> {
    set i | 0 <= i < |ns| && !ns[i].read
  }

  /** The "new" badge: how many notifications are unread. */
  function UnreadCount(ns: seq<Notification>): (n: nat)
    ensures n == |UnreadPositions(ns)| && n <= |ns|
  {
    if ns == [] then 0
    else
      var init, last := ns[..|ns| - 1], ns[|ns| - 1];
      var extra: set<int> := if last.read then {} else {|ns| - 1};
      assert UnreadPositions(ns) == UnreadPositions(init) + extra;
      assert UnreadPositions(init) !! extra;
      UnreadCount(init) + (if last.read then 0 else 1)
  }

  /** The count beside each filter: the length of the list it shows. */
  function FilterCount(ns: seq<Notification>, filter: string): (n: nat)
    ensures filter == "all" ==> n == |ns|
    ensures n <= |ns|
  {
    |Visible(ns, filter)|
  }

  /** `savePasswordChanges`' checks in their order: a mismatch first, then a missing
      current or new password; `None` means the change is accepted. */
  function PasswordProblem(current: string, newPassword: string, confirm: string): (r: Option<string>)
    ensures r.None? <==> newPassword == confirm && current != "" && newPassword != ""
    ensures r == Some(PasswordMismatch) <==> newPassword != confirm
  {
    if newPassword != confirm then Some(PasswordMismatch)
    else if current == "" || newPassword == "" then Some(PasswordFieldsRequired)
    else None
  }

  class Dashboard {
    const notifications: seq<Notification>
    var activeFilter: string
    var sortedNotifications: seq<Notification>
    var profileMenuOpen: bool
    var showChangePasswordModal: bool
    var showEditProfileModal: bool
    var passwordData: map<string, string>
    var profileData: map<string, string>
    var lastAlert: Option<string>
    var location: Option<string>

    /** The listed notifications are always those of the active filter. */
    predicate Valid()
      reads this
    {
      && sortedNotifications == Visible(notifications, activeFilter)
      && EmptyPasswords.Keys <= passwordData.Keys
    }

    constructor (notifications: seq<Notification>, profile: map<string, string>)
      ensures Valid() && this.notifications == notifications && activeFilter == "all"
      ensures sortedNotifications == notifications && passwordData == EmptyPasswords
      ensures !profileMenuOpen && !showChangePasswordModal && !showEditProfileModal
      ensures profileData == profile && lastAlert == None && location == None
    {
      this.notifications := notifications;
      activeFilter := "all";
      sortedNotifications := notifications;
      profileMenuOpen := false;
      showChangePasswordModal := false;
      showEditProfileModal := false;
      passwordData := EmptyPasswords;
      profileData := profile;
      lastAlert := None;
      location := None;
    }

    /** Choosing a filter; the list is recomputed by the filter's effect when it
        changes, and is already right when it does not. */
    method SetFilter(filter: string)
      requires Valid()
      modifies this
      ensures Valid() && activeFilter == filter
      ensures sortedNotifications == Visible(notifications, filter)
      ensures passwordData == old(passwordData) && lastAlert == old(lastAlert)
      ensures profileData == old(profileData) && location == old(location) && profileMenuOpen == old(profileMenuOpen)
      ensures showChangePasswordModal == old(showChangePasswordModal) && showEditProfileModal == old(showEditProfileModal)
    {
      if filter != activeFilter {
        activeFilter := filter;
        sortedNotifications := if filter == "all" then notifications else OfKind(notifications, filter);
      }
    }

    /** The profile button opens the menu when it is closed and closes it when open. */
    method ToggleProfileMenu()
      requires Valid()
      modifies this
      ensures Valid() && profileMenuOpen == !old(profileMenuOpen)
      ensures showChangePasswordModal == old(showChangePasswordModal) && showEditProfileModal == old(showEditProfileModal)
      ensures passwordData == old(passwordData) && profileData == old(profileData) && lastAlert == old(lastAlert)
      ensures activeFilter == old(activeFilter) && sortedNotifications == old(sortedNotifications)
      ensures location == old(location)
    {
      profileMenuOpen := !profileMenuOpen;
    }

    /** The close and Cancel buttons of the change-password dialog: it closes and the
        typed passwords are kept for the next opening. */
    method ClosePasswordDialog()
      requires Valid()
      modifies this
      ensures Valid() && !showChangePasswordModal && passwordData == old(passwordData)
      ensures showEditProfileModal == old(showEditProfileModal) && profileMenuOpen == old(profileMenuOpen)
      ensures profileData == old(profileData) && lastAlert == old(lastAlert)
      ensures activeFilter == old(activeFilter) && sortedNotifications == old(sortedNotifications)
      ensures location == old(location)
    {
      showChangePasswordModal := false;
    }

    /** The close and Cancel buttons of the edit-profile dialog: it closes and the
        edited fields are kept. */
    method CloseProfileDialog()
      requires Valid()
      modifies this
      ensures Valid() && !showEditProfileModal && profileData == old(profileData)
      ensures showChangePasswordModal == old(showChangePasswordModal) && profileMenuOpen == old(profileMenuOpen)
      ensures passwordData == old(passwordData) && lastAlert == old(lastAlert)
      ensures activeFilter == old(activeFilter) && sortedNotifications == old(sortedNotifications)
      ensures location == old(location)
    {
      showEditProfileModal := false;
    }

    /** A mouse press anywhere on the page: the profile menu closes unless the press
        is inside it, and an open dialog closes, both dialogs at once, unless the
        press is inside the dialog. Nothing typed is lost. */
    method MouseDown(insideProfileMenu: bool, insideDialog: bool)
      requires Valid()
      modifies this
      ensures Valid() && profileMenuOpen == (old(profileMenuOpen) && insideProfileMenu)
      ensures showChangePasswordModal == (old(showChangePasswordModal) && insideDialog)
      ensures showEditProfileModal == (old(showEditProfileModal) && insideDialog)
      ensures passwordData == old(passwordData) && profileData == old(profileData) && lastAlert == old(lastAlert)
      ensures activeFilter == old(activeFilter) && sortedNotifications == old(sortedNotifications)
      ensures location == old(location)
    {
      if !insideProfileMenu {
        profileMenuOpen := false;
      }
      if !insideDialog {
        showChangePasswordModal := false;
        showEditProfileModal := false;
      }
    }

    /** `handleProfileAction`: the menu closes; the change-password and edit-profile
        items open their dialogs and the logout item alerts and leaves for the login
        page; any other path only closes the menu. */
    method HandleProfileAction(path: string)
      requires Valid()
      modifies this
      ensures Valid() && !profileMenuOpen
      ensures showChangePasswordModal == (old(showChangePasswordModal) || path == "/profile/change-password")
      ensures showEditProfileModal == (old(showEditProfileModal) || path == "/profile/edit")
      ensures path == "/logout" ==> lastAlert == Some(LoggedOut) && location == Some("/login")
      ensures path != "/logout" ==> lastAlert == old(lastAlert) && location == old(location)
      ensures passwordData == old(passwordData) && activeFilter == old(activeFilter)
      ensures profileData == old(profileData) && sortedNotifications == old(sortedNotifications)
    {
      profileMenuOpen := false;
      if path == "/profile/change-password" {
        showChangePasswordModal := true;
      } else if path == "/profile/edit" {
        showEditProfileModal := true;
      } else if path == "/logout" {
        lastAlert := Some(LoggedOut);
        location := Some("/login");
      }
    }

    method HandlePasswordChange(name: string, value: string)
      requires Valid()
      modifies this
      ensures Valid() && passwordData == old(passwordData)[name := value]
      ensures showChangePasswordModal == old(showChangePasswordModal) && lastAlert == old(lastAlert)
      ensures activeFilter == old(activeFilter) && sortedNotifications == old(sortedNotifications)
      ensures profileMenuOpen == old(profileMenuOpen) && showEditProfileModal == old(showEditProfileModal)
      ensures profileData == old(profileData) && location == old(location)
    {
      passwordData := passwordData[name := value];
    }

    method HandleProfileDataChange(name: string, value: string)
      requires Valid()
      modifies this
      ensures Valid() && profileData == old(profileData)[name := value]
      ensures passwordData == old(passwordData) && lastAlert == old(lastAlert)
      ensures activeFilter == old(activeFilter) && sortedNotifications == old(sortedNotifications)
      ensures profileMenuOpen == old(profileMenuOpen) && showEditProfileModal == old(showEditProfileModal)
      ensures showChangePasswordModal == old(showChangePasswordModal) && location == old(location)
    {
      profileData := profileData[name := value];
    }

    /** `savePasswordChanges`: a rejected change alerts its reason and keeps the dialog
        and the typed passwords; an accepted one alerts success, clears the fields and
        closes the dialog. No password is checked or stored anywhere. */
    method SavePasswordChanges()
      requires Valid()
      modifies this
      ensures Valid()
      ensures var problem := PasswordProblem(old(passwordData)["currentPassword"],
                                             old(passwordData)["newPassword"],
                                             old(passwordData)["confirmPassword"]);
              && (problem.Some? ==> lastAlert == problem && passwordData == old(passwordData)
                                    && showChangePasswordModal == old(showChangePasswordModal))
              && (problem.None? ==> lastAlert == Some(PasswordChanged) && passwordData == EmptyPasswords
                                    && !showChangePasswordModal)
      ensures activeFilter == old(activeFilter) && location == old(location)
      ensures sortedNotifications == old(sortedNotifications) && profileData == old(profileData)
      ensures profileMenuOpen == old(profileMenuOpen) && showEditProfileModal == old(showEditProfileModal)
    {
      var problem := PasswordProblem(passwordData["currentPassword"], passwordData["newPassword"],
                                     passwordData["confirmPassword"]);
      if problem.Some? {
        lastAlert := problem;
        return;
      }
      lastAlert := Some(PasswordChanged);
      passwordData := EmptyPasswords;
      showChangePasswordModal := false;
    }

    method SaveProfileChanges()
      requires Valid()
      modifies this
      ensures Valid() && lastAlert == Some(ProfileUpdated) && !showEditProfileModal
      ensures profileData == old(profileData) && passwordData == old(passwordData)
      ensures activeFilter == old(activeFilter) && sortedNotifications == old(sortedNotifications)
      ensures profileMenuOpen == old(profileMenuOpen) && showChangePasswordModal == old(showChangePasswordModal)
      ensures location == old(location)
    {
      lastAlert := Some(ProfileUpdated);
      showEditProfileModal := false;
    }
  }

  // ---------------------------------------------------------------- lemmas

  lemma OfKindLast(ns: seq<Notification>, kind: string)
    requires ns != []
    ensures |OfKind(ns, kind)| == |OfKind(ns[..|ns| - 1], kind)| + (if ns[|ns| - 1].kind == kind then 1 else 0)
  {
  }

  /** Filtering keeps the notifications' order: one more notification at the end is
      listed at the end exactly when it has the type. */
  lemma OfKindAppend(ns: seq<Notification>, x: Notification, kind: string)
    ensures OfKind(ns + [x], kind) == OfKind(ns, kind) + (if x.kind == kind then [x] else [])
  {
    assert (ns + [x])[..|ns + [x]| - 1] == ns;
  }

  /** Filtering a concatenation filters each part: the listed notifications keep the
      order they have in the panel's list. */
  lemma {:induction false} OfKindConcat(xs: seq<Notification>, ys: seq<Notification>, kind: string)
    ensures OfKind(xs + ys, kind) == OfKind(xs, kind) + OfKind(ys, kind)
    decreases |ys|
  {
    if ys == [] {
      assert xs + ys == xs;
    } else {
      var init, last := ys[..|ys| - 1], ys[|ys| - 1];
      var tail := if last.kind == kind then [last] else [];
      assert ys == init + [last];
      assert xs + ys == (xs + init) + [last];
      calc {
        OfKind(xs + ys, kind);
        { OfKindAppend(xs + init, last, kind); }
        OfKind(xs + init, kind) + tail;
        { OfKindConcat(xs, init, kind); }
        (OfKind(xs, kind) + OfKind(init, kind)) + tail;
        OfKind(xs, kind) + (OfKind(init, kind) + tail);
        { OfKindAppend(init, last, kind); }
        OfKind(xs, kind) + OfKind(ys, kind);
      }
    }
  }

  /** Counting by type over five distinct types that cover every notification
      counts each notification exactly once. */
  lemma {:induction false} FiveKindsPartition(ns: seq<Notification>, a: string, b: string, c: string,
                                              d: string, e: string)
    requires a != b && a != c && a != d && a != e && b != c && b != d && b != e
    requires c != d && c != e && d != e
    requires forall i :: 0 <= i < |ns| ==> ns[i].kind in {a, b, c, d, e}
    ensures |OfKind(ns, a)| + |OfKind(ns, b)| + |OfKind(ns, c)| + |OfKind(ns, d)| + |OfKind(ns, e)| == |ns|
  {
    if ns != [] {
      var init := ns[..|ns| - 1];
      assert forall i :: 0 <= i < |init| ==> init[i] == ns[i];
      FiveKindsPartition(init, a, b, c, d, e);
      OfKindLast(ns, a);
      OfKindLast(ns, b);
      OfKindLast(ns, c);
      OfKindLast(ns, d);
      OfKindLast(ns, e);
    }
  }

  /** When every notification has one of the five types, the five type counts add up
      to the "all" count. */
  lemma KindCountsAddUp(ns: seq<Notification>)
    requires forall i :: 0 <= i < |ns| ==> ns[i].kind in Kinds
    ensures FilterCount(ns, "leave") + FilterCount(ns, "message") + FilterCount(ns, "payment")
            + FilterCount(ns, "meeting") + FilterCount(ns, "system") == FilterCount(ns, "all")
  {
    assert Kinds[0] == "leave" && Kinds[1] == "message" && Kinds[2] == "payment";
    assert Kinds[3] == "meeting" && Kinds[4] == "system";
    assert forall k :: k in Kinds ==> k in {"leave", "message", "payment", "meeting", "system"};
    FiveKindsPartition(ns, "leave", "message", "payment", "meeting", "system");
  }

  /** The unread badge shows every notification exactly when none is read, and none
      exactly when all are read. */
  lemma {:induction false} AllUnread(ns: seq<Notification>)
    ensures UnreadCount(ns) == |ns| <==> forall i :: 0 <= i < |ns| ==> !ns[i].read
    ensures UnreadCount(ns) == 0 <==> forall i :: 0 <= i < |ns| ==> ns[i].read
  {
    if ns != [] {
      var init := ns[..|ns| - 1];
      assert forall i :: 0 <= i < |init| ==> init[i] == ns[i];
      AllUnread(init);
    }
  }

  /** Equal new and confirm passwords with an empty current password get the missing
      field message, while a mismatch is reported first even when a field is empty. */
  lemma PasswordCheckOrder(newPassword: string, confirm: string)
    ensures PasswordProblem("", newPassword, newPassword) == Some(PasswordFieldsRequired)
    ensures newPassword != confirm ==> PasswordProblem("", newPassword, confirm) == Some(PasswordMismatch)
  {
  }
}

=== FILE: onboarding.dfy ===
/** The HR onboarding wizard: five steps (personal, educational and banking details,
    documents, terms), moved through one at a time, with submission allowed only once
    the terms are accepted, and document uploads that record the file and the upload's
    status per slot. The simulated one-second upload delay is collapsed: an upload is
    seen in its finished state. */
module Onboarding {
  import opened Text

  datatype FileRef = FileRef(name: string)

  /** What a document slot holds. */
  datatype Stored = NoFile | OneFile(file: FileRef) | Files(files: seq<FileRef>)

  datatype UploadStatus = Idle | Uploading | Succeeded | Failed

  datatype Section = PersonalInfo | EducationalInfo | BankingInfo | Documents | Terms

  const FirstStep := 1
  const LastStep := 5

  /** The slots that take one file each. */
  const SingleSlots: set<string> := {"aadhar", "pan", "resume"}

  const NoDocuments: map<string, Stored> :=
    map["aadhar" := NoFile, "pan" := NoFile, "resume" := NoFile, "certificates" := Files([])]

  /** The detail sections of the form, every field empty. */
  const EmptyInfo: map<string, map<string, string>> := map[
    "personalInfo" := map["firstName" := "", "lastName" := "", "email" := "", "phone" := "", "address" := ""],
    "educationalInfo" := map["highestQualification" := "", "institution" := "", "yearOfPassing" := "",
                             "specialization" := ""],
    "bankingInfo" := map["accountNumber" := "", "bankName" := "", "ifscCode" := "", "accountHolderName" := ""]]

  const IdleStatus: map<string, UploadStatus> :=
    map["aadhar" := Idle, "pan" := Idle, "resume" := Idle, "certificates" := Idle]

  /** `renderStep`: the section shown for a step; any other step shows nothing. */
  function SectionOf(step: int): (s: Option<Section>)
    ensures s.Some? <==> FirstStep <= step <= LastStep
  {
    if step == 1 then Some(PersonalInfo)
    else if step == 2 then Some(EducationalInfo)
    else if step == 3 then Some(BankingInfo)
    else if step == 4 then Some(Documents)
    else if step == 5 then Some(Terms)
    else None
  }

  /** `handleFileUpload` once its delay is over: the slot holds just this file. */
  function StoreUpload(docs: map<string, Stored>, slot: string, file: FileRef): (r: map<string, Stored>)
    ensures r.Keys == docs.Keys + {slot}
    ensures slot in r && r[slot].OneFile? && r[slot].file == file
    ensures forall k :: k in docs && k != slot ==> r[k] == docs[k]
    ensures slot == "certificates" ==> CertificatesOf(r) == [file]
  {
    docs[slot := OneFile(file)]
  }

  /** The certificate input as written: every chosen file goes through
      `handleFileUpload`, one after the other, each replacing the slot's contents. */
  function UploadAllAsWritten(docs: map<string, Stored>, files: seq<FileRef>): (r: map<string, Stored>)
    ensures files == [] ==> r == docs
    ensures files != [] ==> r.Keys == docs.Keys + {"certificates"}
    ensures forall k :: k in docs && k != "certificates" ==> k in r && r[k] == docs[k]
    decreases |files|
  {
    if files == [] then docs
    else UploadAllAsWritten(StoreUpload(docs, "certificates", files[0]), files[1..])
  }

  /** The certificates held so far (a single file counts as one). */
  function CertificatesOf(docs: map<string, Stored>): seq<FileRef> {
    if "certificates" !in docs then []
    else match docs["certificates"]
      case NoFile => []
      case OneFile(f) => [f]
      case Files(fs) => fs
  }

  /** One more certificate joins the ones already held. */
  function AddCertificate(docs: map<string, Stored>, file: FileRef): (r: map<string, Stored>)
    ensures r.Keys == docs.Keys + {"certificates"}
    ensures CertificatesOf(r) == CertificatesOf(docs) + [file]
    ensures forall k :: k in docs && k != "certificates" ==> r[k] == docs[k]
  {
    docs["certificates" := Files(CertificatesOf(docs) + [file])]
  }

  class OnboardingWizard {
    var currentStep: int
    /** Personal, educational and banking details, by section and field. */
    var info: map<string, map<string, string>>
    var documents: map<string, Stored>
    var uploadStatus: map<string, UploadStatus>
    var termsAccepted: bool

    predicate Valid()
      reads this
    {
      FirstStep <= currentStep <= LastStep
    }

    constructor ()
      ensures Valid() && currentStep == FirstStep && !termsAccepted
      ensures info == EmptyInfo && documents == NoDocuments && uploadStatus == IdleStatus
      ensures info.Keys == {"personalInfo", "educationalInfo", "bankingInfo"}
      ensures forall section, field :: section in info && field in info[section] ==> info[section][field] == ""
    {
      currentStep := FirstStep;
      info := EmptyInfo;
      documents := NoDocuments;
      uploadStatus := IdleStatus;
      termsAccepted := false;
    }

    /** "Next" is shown before the last step and moves one step on. */
    method Next()
      requires Valid() && currentStep < LastStep
      modifies this
      ensures Valid() && currentStep == old(currentStep) + 1
      ensures info == old(info) && documents == old(documents) && termsAccepted == old(termsAccepted)
      ensures uploadStatus == old(uploadStatus)
    {
      currentStep := currentStep + 1;
    }

    /** "Previous" is shown after the first step and moves one step back. */
    method Previous()
      requires Valid() && currentStep > FirstStep
      modifies this
      ensures Valid() && currentStep == old(currentStep) - 1
      ensures info == old(info) && documents == old(documents) && termsAccepted == old(termsAccepted)
      ensures uploadStatus == old(uploadStatus)
    {
      currentStep := currentStep - 1;
    }

    /** A detail field takes the typed text. */
    method SetDetail(section: string, field: string, value: string)
      requires section in info
      modifies this
      ensures info == old(info)[section := old(info)[section][field := value]]
      ensures currentStep == old(currentStep) && documents == old(documents)
      ensures termsAccepted == old(termsAccepted) && uploadStatus == old(uploadStatus)
    {
      info := info[section := info[section][field := value]];
    }

    method SetTerms(checked: bool)
      modifies this
      ensures termsAccepted == checked && currentStep == old(currentStep) && info == old(info)
      ensures documents == old(documents) && uploadStatus == old(uploadStatus)
    {
      termsAccepted := checked;
    }

    /** A single-file slot holds the uploaded file and reports success. */
    method UploadDocument(file: FileRef, slot: string)
      requires slot in SingleSlots
      modifies this
      ensures documents == StoreUpload(old(documents), slot, file)
      ensures uploadStatus == old(uploadStatus)[slot := Succeeded]
      ensures currentStep == old(currentStep) && info == old(info) && termsAccepted == old(termsAccepted)
    {
      uploadStatus := uploadStatus[slot := Uploading];
      documents := StoreUpload(documents, slot, file);
      uploadStatus := uploadStatus[slot := Succeeded];
    }

    /** The certificate input, one file at a time, each kept beside the earlier ones. */
    method UploadCertificates(files: seq<FileRef>)
      modifies this
      ensures CertificatesOf(documents) == CertificatesOf(old(documents)) + files
      ensures forall k :: k in old(documents) && k != "certificates" ==> k in documents && documents[k] == old(documents)[k]
      ensures files != [] ==> uploadStatus == old(uploadStatus)["certificates" := Succeeded]
      ensures files == [] ==> uploadStatus == old(uploadStatus)
      ensures currentStep == old(currentStep) && info == old(info) && termsAccepted == old(termsAccepted)
    {
      var i := 0;
      while i < |files|
        invariant 0 <= i <= |files|
        invariant CertificatesOf(documents) == CertificatesOf(old(documents)) + files[..i]
        invariant forall k :: k in old(documents) && k != "certificates" ==> k in documents && documents[k] == old(documents)[k]
        invariant i > 0 ==> uploadStatus == old(uploadStatus)["certificates" := Succeeded]
        invariant i == 0 ==> uploadStatus == old(uploadStatus)
        invariant currentStep == old(currentStep) && info == old(info) && termsAccepted == old(termsAccepted)
      {
        documents := AddCertificate(documents, files[i]);
        uploadStatus := uploadStatus["certificates" := Succeeded];
        assert files[..i + 1] == files[..i] + [files[i]];
        i := i + 1;
      }
      assert files[..i] == files;
    }

    /** The submit button is shown on the last step and is disabled until the terms
        are accepted; submitting goes to the HR dashboard. */
    method Submit() returns (route: Option<string>)
      requires Valid() && currentStep == LastStep
      ensures route.Some? <==> termsAccepted
      ensures route.Some? ==> route.value == "/dashboard/hr"
    {
      if termsAccepted {
        route := Some("/dashboard/hr");
      } else {
        route := None;
      }
    }
  }

  // ---------------------------------------------------------------- lemmas

  /** Every step the wizard can be on shows a section, and the sections come in the
      order of the steps. */
  lemma StepsShowSections(step: int)
    requires FirstStep <= step <= LastStep
    ensures SectionOf(step).Some?
    ensures SectionOf(FirstStep) == Some(PersonalInfo) && SectionOf(LastStep) == Some(Terms)
  {
  }

  /** As written, choosing several certificates leaves only the last one stored. */
  lemma {:induction false} AsWrittenKeepsLastCertificate(docs: map<string, Stored>, files: seq<FileRef>)
    requires files != []
    ensures CertificatesOf(UploadAllAsWritten(docs, files)) == [files[|files| - 1]]
    decreases |files|
  {
    var next := StoreUpload(docs, "certificates", files[0]);
    if |files| > 1 {
      AsWrittenKeepsLastCertificate(next, files[1..]);
      assert files[1..][|files[1..]| - 1] == files[|files| - 1];
    } else {
      assert files[1..] == [];
    }
  }

  /** Two certificates chosen together: as written the first is lost; kept one at a
      time, both are held. */
  lemma TwoCertificates(a: FileRef, b: FileRef)
    requires a != b
    ensures CertificatesOf(UploadAllAsWritten(NoDocuments, [a, b])) == [b]
    ensures CertificatesOf(AddCertificate(AddCertificate(NoDocuments, a), b)) == [a, b]
  {
    AsWrittenKeepsLastCertificate(NoDocuments, [a, b]);
    assert CertificatesOf(NoDocuments) == [];
  }
}

=== FILE: payslip_forms.dfy ===
/** The two payslip entry forms: the admin form, whose Save writes an employee and a
    payslip to storage, and the manager form, whose Save only clears the fields. */
module PayslipForms {
  import opened Text
  import opened Amounts
  import opened Payslips

  /** The keys of the admin form's employee details. */
  const AdminInfoKeys: set<string> :=
    {"name", "idNumber", "bankDetails", "taxNumber", "pfNumber", "utiNumber", "payPeriod", "payCycle"}

  /** The manager form has no PF or UTI number. */
  const ManagerInfoKeys: set<string> :=
    {"name", "idNumber", "bankDetails", "taxNumber", "payPeriod", "payCycle"}

  const EarningNames: seq<string> :=
    ["Basic Salary", "HRA", "Conveyance", "Dearness Allowance", "Overtime", "Bonus"]

  const DeductionNames: seq<string> :=
    ["Provident Fund", "ESI", "Professional Tax", "Salary Advance", "TDS", "Other Deduction"]

  /** Every key of `keys` holding the empty string. */
  function BlankInfo(keys: set<string>): (info: map<string, string>)
    ensures info.Keys == keys && forall k :: k in info ==> info[k] == ""
  {
    map k | k in keys :: ""
  }

  function Names(items: seq<LineItem>): (names: seq<string>)
    ensures |names| == |items| && forall i :: 0 <= i < |items| ==> names[i] == items[i].name
  {
    seq(|items|, i requires 0 <= i < |items| => items[i].name)
  }

  /** The rows of a table with nothing typed in them. */
  function BlankItems(names: seq<string>): (items: seq<LineItem>)
    ensures Names(items) == names
    ensures forall i :: 0 <= i < |items| ==> items[i].amount == ""
  {
    seq(|names|, i requires 0 <= i < |names| => LineItem(names[i], ""))
  }

  /** `items.map(item => ({ ...item, amount: "" }))`. */
  function ClearAmounts(items: seq<LineItem>): (r: seq<LineItem>)
    ensures |r| == |items|
    ensures forall i :: 0 <= i < |items| ==> r[i] == items[i].(amount := "")
  {
    seq(|items|, i requires 0 <= i < |items| => items[i].(amount := ""))
  }

  /** Clearing a table leaves its labels and nothing typed. */
  lemma ClearedTableIsBlank(items: seq<LineItem>)
    ensures ClearAmounts(items) == BlankItems(Names(items))
  {
  }

  /** The typed amount of row `i` replaced; the labels stay. */
  function SetAmount(items: seq<LineItem>, i: nat, amount: string): (r: seq<LineItem>)
    requires i < |items|
    ensures Names(r) == Names(items) && r[i].amount == amount
    ensures forall j :: 0 <= j < |items| && j != i ==> r[j] == items[j]
  {
    items[i := items[i].(amount := amount)]
  }

  // ---------------------------------------------------------------- saving

  /** `employeeInfo.idNumber || uuidv4()`: the typed id, or a fresh one when none was typed. */
  function EmployeeIdOf(info: map<string, string>, freshId: string): string
    requires AdminInfoKeys <= info.Keys
  {
    if info["idNumber"] != "" then info["idNumber"] else freshId
  }

  /** The employee record the admin form writes. */
  function EmployeeOf(info: map<string, string>, freshId: string): (e: Employee)
    requires AdminInfoKeys <= info.Keys
    ensures e.id == EmployeeIdOf(info, freshId) && e.name == info["name"]
    ensures e.department == "N/A"
    ensures e.bankDetails == info["bankDetails"] && e.taxNumber == info["taxNumber"]
    ensures e.others == map["pfNumber" := info["pfNumber"], "utiNumber" := info["utiNumber"]]
  {
    Employee(EmployeeIdOf(info, freshId), info["name"], "N/A", info["bankDetails"], info["taxNumber"],
             map["pfNumber" := info["pfNumber"], "utiNumber" := info["utiNumber"]])
  }

  /** The six stored earnings, field by field in row order; they add up to the
      form's total. */
  function EarningsOf(items: seq<LineItem>): (e: Earnings)
    requires |items| == 6
    ensures e.basicSalary == ParseAmount(items[0].amount) && e.hra == ParseAmount(items[1].amount)
    ensures e.conveyance == ParseAmount(items[2].amount) && e.dearnessAllowance == ParseAmount(items[3].amount)
    ensures e.overtime == ParseAmount(items[4].amount) && e.bonus == ParseAmount(items[5].amount)
    ensures GrossOf(e) == Total(items)
  {
    TotalSix(items);
    Earnings(ParseAmount(items[0].amount), ParseAmount(items[1].amount), ParseAmount(items[2].amount),
             ParseAmount(items[3].amount), ParseAmount(items[4].amount), ParseAmount(items[5].amount))
  }

  /** The six stored deductions, field by field in row order; they add up to the
      form's total. */
  function DeductionsFrom(items: seq<LineItem>): (d: Deductions)
    requires |items| == 6
    ensures d.providentFund == ParseAmount(items[0].amount) && d.esi == ParseAmount(items[1].amount)
    ensures d.professionalTax == ParseAmount(items[2].amount) && d.salaryAdvance == ParseAmount(items[3].amount)
    ensures d.tds == ParseAmount(items[4].amount) && d.otherDeduction == ParseAmount(items[5].amount)
    ensures DeductionsOf(d) == Total(items)
  {
    TotalSix(items);
    Deductions(ParseAmount(items[0].amount), ParseAmount(items[1].amount), ParseAmount(items[2].amount),
               ParseAmount(items[3].amount), ParseAmount(items[4].amount), ParseAmount(items[5].amount))
  }

  /** The payslip the admin form writes: it adds up to exactly what the form showed
      (its gross and deductions are the form's totals), and its month is one word
      taken from the start of the pay period. */
  function PayslipOf(info: map<string, string>, earnings: seq<LineItem>, deductions: seq<LineItem>,
                     payslipId: string, employeeId: string, currentYear: int): (p: Payslip)
    requires AdminInfoKeys <= info.Keys && |earnings| == 6 && |deductions| == 6
    ensures p.id == payslipId && p.employeeId == employeeId
    ensures p.earnings == EarningsOf(earnings) && p.deductions == DeductionsFrom(deductions)
    ensures GrossOf(p.earnings) == Total(earnings) && DeductionsOf(p.deductions) == Total(deductions)
    ensures ' ' !in p.month && (info["payPeriod"] != "" ==> p.month <= info["payPeriod"])
  {
    var (month, year) := PeriodOf(info["payPeriod"], currentYear);
    Payslip(payslipId, employeeId, FinancialYearOf(year), month,
            EarningsOf(earnings), DeductionsFrom(deductions))
  }

  /** Dropping the last row takes its amount off the total. */
  lemma TotalLast(items: seq<LineItem>, n: nat)
    requires 0 < n <= |items|
    ensures Total(items[..n]) == Total(items[..n - 1]) + ParseAmount(items[n - 1].amount)
  {
    assert items[..n][..n - 1] == items[..n - 1];
  }

  /** The total of six rows, written out. */
  lemma TotalSix(items: seq<LineItem>)
    requires |items| == 6
    ensures Total(items) == ParseAmount(items[0].amount) + ParseAmount(items[1].amount)
                            + ParseAmount(items[2].amount) + ParseAmount(items[3].amount)
                            + ParseAmount(items[4].amount) + ParseAmount(items[5].amount)
  {
    assert items[..6] == items;
    TotalLast(items, 6);
    TotalLast(items, 5);
    TotalLast(items, 4);
    TotalLast(items, 3);
    TotalLast(items, 2);
    TotalLast(items, 1);
  }

  /** The payslip's net, rounded, is the net the form showed, whenever both totals
      are whole hundredths, as amounts typed with at most two decimals give. */
  lemma SavedNetMatchesForm(p: Payslip, earnings: seq<LineItem>, deductions: seq<LineItem>)
    requires GrossOf(p.earnings) == Total(earnings) && DeductionsOf(p.deductions) == Total(deductions)
    requires ShownTotal(earnings) as real / 100.0 == Total(earnings)
    requires ShownTotal(deductions) as real / 100.0 == Total(deductions)
    ensures Cents(NetOf(p)) == ShownNet(earnings, deductions)
  {
    var e, d := ShownTotal(earnings), ShownTotal(deductions);
    assert NetOf(p) == (e - d) as real / 100.0;
    CentsOfCents(e - d);
    ShownNetIsDifference(earnings, deductions);
  }

  // ---------------------------------------------------------------- admin form

  class AdminPayslipForm {
    var companyName: string
    var info: map<string, string>
    var earnings: seq<LineItem>
    var deductions: seq<LineItem>
    var preparedBy: string
    var receivedBy: string

    /** The form always has its eight detail keys and its two fixed tables of six rows. */
    predicate Valid()
      reads this
    {
      AdminInfoKeys <= info.Keys && Names(earnings) == EarningNames && Names(deductions) == DeductionNames
    }

    constructor ()
      ensures Valid()
      ensures companyName == "GenAILakes" && info == BlankInfo(AdminInfoKeys)
      ensures earnings == BlankItems(EarningNames) && deductions == BlankItems(DeductionNames)
      ensures preparedBy == "" && receivedBy == ""
    {
      companyName := "GenAILakes";
      info := BlankInfo(AdminInfoKeys);
      earnings := BlankItems(EarningNames);
      deductions := BlankItems(DeductionNames);
      preparedBy := "";
      receivedBy := "";
    }

    /** `handleEmployeeInfoChange`. */
    method SetInfo(field: string, value: string)
      requires Valid()
      modifies this
      ensures Valid()
      ensures info == old(info)[field := value]
      ensures earnings == old(earnings) && deductions == old(deductions)
      ensures preparedBy == old(preparedBy) && receivedBy == old(receivedBy) && companyName == old(companyName)
    {
      info := info[field := value];
    }

    /** `handleEarningChange`. */
    method SetEarning(index: nat, amount: string)
      requires Valid() && index < |earnings|
      modifies this
      ensures Valid()
      ensures earnings == SetAmount(old(earnings), index, amount)
      ensures info == old(info) && deductions == old(deductions)
      ensures preparedBy == old(preparedBy) && receivedBy == old(receivedBy) && companyName == old(companyName)
    {
      earnings := SetAmount(earnings, index, amount);
    }

    /** `handleDeductionChange`. */
    method SetDeduction(index: nat, amount: string)
      requires Valid() && index < |deductions|
      modifies this
      ensures Valid()
      ensures deductions == SetAmount(old(deductions), index, amount)
      ensures info == old(info) && earnings == old(earnings)
      ensures preparedBy == old(preparedBy) && receivedBy == old(receivedBy) && companyName == old(companyName)
    {
      deductions := SetAmount(deductions, index, amount);
    }

    /** `handleSave`. Both stored lists are parsed first; when either does not parse
        the handler throws and nothing changes. Otherwise the employee is upserted, the
        payslip appended, the form cleared, and `saved` reports that the parent's
        `onPayslipCreated` is called. */
    method Save(storage: Storage, freshEmployeeId: string, payslipId: string, currentYear: int)
      returns (saved: bool)
      requires Valid()
      modifies this, storage
      ensures Valid()
      ensures saved <==> !old(storage.employees).Corrupt? && !old(storage.payslips).Corrupt?
      ensures !saved ==> unchanged(this) && unchanged(storage)
      ensures saved ==>
        var employeeId := EmployeeIdOf(old(info), freshEmployeeId);
        && storage.employees == Present(Upsert(ListOf(old(storage.employees)), EmployeeOf(old(info), freshEmployeeId)))
        && storage.payslips == Present(ListOf(old(storage.payslips))
             + [PayslipOf(old(info), old(earnings), old(deductions), payslipId, employeeId, currentYear)])
        && info == BlankInfo(AdminInfoKeys)
        && earnings == BlankItems(EarningNames) && deductions == BlankItems(DeductionNames)
        && preparedBy == "" && receivedBy == "" && companyName == old(companyName)
    {
      if storage.employees.Corrupt? || storage.payslips.Corrupt? {
        return false;
      }
      assert |earnings| == |deductions| == 6 by {
        assert |Names(earnings)| == |Names(deductions)| == 6;
      }
      var employee := EmployeeOf(info, freshEmployeeId);
      var payslip := PayslipOf(info, earnings, deductions, payslipId, employee.id, currentYear);
      storage.SavePayslip(employee, payslip);
      Reset();
      saved := true;
    }

    /** The end of `handleSave`: every field emptied, the table labels kept. */
    method Reset()
      requires Valid()
      modifies this
      ensures Valid()
      ensures info == BlankInfo(AdminInfoKeys)
      ensures earnings == BlankItems(EarningNames) && deductions == BlankItems(DeductionNames)
      ensures preparedBy == "" && receivedBy == "" && companyName == old(companyName)
    {
      ClearedTableIsBlank(earnings);
      ClearedTableIsBlank(deductions);
      info := BlankInfo(AdminInfoKeys);
      earnings := ClearAmounts(earnings);
      deductions := ClearAmounts(deductions);
      preparedBy, receivedBy := "", "";
    }
  }

  // ---------------------------------------------------------------- manager form

  class ManagerPayslipForm {
    var companyName: string
    var info: map<string, string>
    var earnings: seq<LineItem>
    var deductions: seq<LineItem>
    var preparedBy: string
    var receivedBy: string

    predicate Valid()
      reads this
    {
      ManagerInfoKeys <= info.Keys && Names(earnings) == EarningNames && Names(deductions) == DeductionNames
    }

    constructor ()
      ensures Valid()
      ensures companyName == "GenAILakes" && info == BlankInfo(ManagerInfoKeys)
      ensures earnings == BlankItems(EarningNames) && deductions == BlankItems(DeductionNames)
      ensures preparedBy == "" && receivedBy == ""
    {
      companyName := "GenAILakes";
      info := BlankInfo(ManagerInfoKeys);
      earnings := BlankItems(EarningNames);
      deductions := BlankItems(DeductionNames);
      preparedBy := "";
      receivedBy := "";
    }

    method SetInfo(field: string, value: string)
      requires Valid()
      modifies this
      ensures Valid()
      ensures info == old(info)[field := value]
      ensures earnings == old(earnings) && deductions == old(deductions)
      ensures preparedBy == old(preparedBy) && receivedBy == old(receivedBy) && companyName == old(companyName)
    {
      info := info[field := value];
    }

    method SetEarning(index: nat, amount: string)
      requires Valid() && index < |earnings|
      modifies this
      ensures Valid()
      ensures earnings == SetAmount(old(earnings), index, amount)
      ensures info == old(info) && deductions == old(deductions)
      ensures preparedBy == old(preparedBy) && receivedBy == old(receivedBy) && companyName == old(companyName)
    {
      earnings := SetAmount(earnings, index, amount);
    }

    method SetDeduction(index: nat, amount: string)
      requires Valid() && index < |deductions|
      modifies this
      ensures Valid()
      ensures deductions == SetAmount(old(deductions), index, amount)
      ensures info == old(info) && earnings == old(earnings)
      ensures preparedBy == old(preparedBy) && receivedBy == old(receivedBy) && companyName == old(companyName)
    {
      deductions := SetAmount(deductions, index, amount);
    }

    /** `handleSave` of the manager form stores nothing: it only clears the form. */
    method Save()
      requires Valid()
      modifies this
      ensures Valid()
      ensures info == BlankInfo(ManagerInfoKeys)
      ensures earnings == BlankItems(EarningNames) && deductions == BlankItems(DeductionNames)
      ensures preparedBy == "" && receivedBy == "" && companyName == old(companyName)
    {
      info := BlankInfo(ManagerInfoKeys);
      ClearedTableIsBlank(earnings);
      ClearedTableIsBlank(deductions);
      earnings := ClearAmounts(earnings);
      deductions := ClearAmounts(deductions);
      preparedBy := "";
      receivedBy := "";
    }
  }

  /** A blank form shows zero for both totals and for the net salary. */
  lemma BlankFormShowsZero()
    ensures ShownTotal(BlankItems(EarningNames)) == 0 && ShownTotal(BlankItems(DeductionNames)) == 0
    ensures ShownNet(BlankItems(EarningNames), BlankItems(DeductionNames)) == 0
  {
    var e, d := BlankItems(EarningNames), BlankItems(DeductionNames);
    forall i | 0 <= i < |e| ensures ParseDecimal(e[i].amount).None? { UnreadableText(e[i].amount); }
    forall i | 0 <= i < |d| ensures ParseDecimal(d[i].amount).None? { UnreadableText(d[i].amount); }
    UnreadableRowsAddNothing(e);
    UnreadableRowsAddNothing(d);
    ShownNetIsDifference(e, d);
  }
}

=== FILE: payslip_history.dfy ===
/** The payslip history: stored payslips and employees merged with demonstration data,
    a period selection, the list of payslips for that period, and each payslip joined
    to its employee. The page (which also follows storage and a refresh signal) and the
    dialog (which loads once) are separate components with separate state. */
module PayslipHistory {
  import opened Text
  import opened Amounts
  import opened Payslips
  import opened PayslipForms

  const InitialYear := "2024-2025"
  const InitialMonth := "April"

  /** The financial years the year selector offers. */
  const YearOptions: seq<string> := ["2023-2024", "2024-2025", "2025-2026"]

  /** The months the month selector offers, in its order. */
  const MonthOptions: seq<string> :=
    ["April", "May", "June", "July", "August", "September", "October", "November",
     "December", "January", "February", "March"]

  // ---------------------------------------------------------------- loading

  /** `[...JSON.parse(stored), ...demo]` when something is stored, the demonstration
      list alone when nothing is; `None` when the stored text does not parse. */
  function Merged<T>(stored: Stored<T>, demo: seq<T>): (r: Option<seq<T>>)
    ensures r.None? <==> stored.Corrupt?
    ensures stored.Missing? ==> r == Some(demo)
    ensures stored.Present? ==> r == Some(stored.items + demo)
  {
    match stored
    case Missing => Some(demo)
    case Corrupt => None
    case Present(items) => Some(items + demo)
  }

  // ---------------------------------------------------------------- the listing

  /** `payslips.filter(p => p.financialYear === year && p.month === month)`. */
  function Listed(payslips: seq<Payslip>, year: string, month: string): seq<Payslip> {
    if payslips == [] then []
    else
      var rest := Listed(payslips[1..], year, month);
      if payslips[0].financialYear == year && payslips[0].month == month then [payslips[0]] + rest else rest
  }

  /** A payslip is listed exactly when its period is the selected one, by exact string
      equality. */
  lemma {:induction false} ListedIff(payslips: seq<Payslip>, year: string, month: string, p: Payslip)
    ensures p in Listed(payslips, year, month) <==> p in payslips && p.financialYear == year && p.month == month
  {
    if payslips != [] {
      ListedIff(payslips[1..], year, month, p);
      assert payslips == [payslips[0]] + payslips[1..];
    }
  }

  /** Listing keeps the ledger's order: the listing of two stretches is the listing of
      the first followed by that of the second. */
  lemma {:induction false} ListedAppend(a: seq<Payslip>, b: seq<Payslip>, year: string, month: string)
    ensures Listed(a + b, year, month) == Listed(a, year, month) + Listed(b, year, month)
  {
    if a != [] {
      assert (a + b)[1..] == a[1..] + b;
      ListedAppend(a[1..], b, year, month);
    } else {
      assert a + b == b;
    }
  }

  /** `employees.find(e => e.id === id) || employees[0]`: the first employee with the id,
      else the first employee; `None` only for an empty directory, where the page would
      fail to render the row. */
  function EmployeeById(employees: seq<Employee>, id: string): (r: Option<Employee>)
    ensures r.None? <==> employees == []
    ensures r.Some? && FindIndex(employees, id) >= 0 ==> r.value == employees[FindIndex(employees, id)]
    ensures r.Some? && FindIndex(employees, id) < 0 ==> r.value == employees[0]
  {
    if employees == [] then None
    else
      var k := FindIndex(employees, id);
      Some(if k >= 0 then employees[k] else employees[0])
  }

  /** The join returns the employee whose id is asked for whenever there is one. */
  lemma EmployeeByIdFinds(employees: seq<Employee>, id: string)
    requires exists j :: 0 <= j < |employees| && employees[j].id == id
    ensures EmployeeById(employees, id).Some? && EmployeeById(employees, id).value.id == id
  {
  }

  /** One line of the table: its 1-based number, the payslip and the joined employee. */
  datatype Row = Row(number: nat, payslip: Payslip, employee: Option<Employee>)

  function Rows(listed: seq<Payslip>, employees: seq<Employee>): (rows: seq<Row>)
    ensures |rows| == |listed|
    ensures forall i :: 0 <= i < |listed| ==>
              rows[i] == Row(i + 1, listed[i], EmployeeById(employees, listed[i].employeeId))
  {
    seq(|listed|, i requires 0 <= i < |listed| => Row(i + 1, listed[i], EmployeeById(employees, listed[i].employeeId)))
  }

  /** Rendering a row reads `employee.name` of its joined employee, which throws for a
      row that has none. */
  predicate RenderFails(rows: seq<Row>) {
    exists i :: 0 <= i < |rows| && rows[i].employee.None?
  }

  /** The table fails to render exactly when some payslip is listed while the employee
      list is empty. */
  lemma RenderFailsIff(listed: seq<Payslip>, employees: seq<Employee>)
    ensures RenderFails(Rows(listed, employees)) <==> listed != [] && employees == []
  {
    var rows := Rows(listed, employees);
    if listed != [] && employees == [] {
      assert rows[0].employee.None?;
    }
  }

  // ---------------------------------------------------------------- the selection

  /** The period the auto-selection effect moves to: that of the last stored payslip,
      with "April" and "2024-2025" standing in for an empty month or year; `None` when
      no payslip is stored (nothing, an empty list, or text that does not parse). */
  function LatestPeriod(stored: Stored<Payslip>): (r: Option<(string, string)>)
    ensures r.Some? <==> stored.Present? && stored.items != []
    ensures r.Some? ==> r.value.0 != "" && r.value.1 != ""
    ensures r.Some? ==> var last := stored.items[|stored.items| - 1];
              && (last.financialYear != "" ==> r.value.0 == last.financialYear)
              && (last.month != "" ==> r.value.1 == last.month)
              && (last.financialYear == "" ==> r.value.0 == InitialYear)
              && (last.month == "" ==> r.value.1 == InitialMonth)
  {
    if stored.Present? && stored.items != [] then
      var last := stored.items[|stored.items| - 1];
      Some((if last.financialYear != "" then last.financialYear else InitialYear,
            if last.month != "" then last.month else InitialMonth))
    else None
  }

  /** After a load and the auto-selection, the most recently stored payslip is in the
      table whenever its period fields are filled in. */
  lemma LatestIsListed(stored: seq<Payslip>, demo: seq<Payslip>)
    requires stored != []
    requires stored[|stored| - 1].financialYear != "" && stored[|stored| - 1].month != ""
    ensures var sel := LatestPeriod(Present(stored)).value;
            stored[|stored| - 1] in Listed(stored + demo, sel.0, sel.1)
  {
    var sel := LatestPeriod(Present(stored)).value;
    ListedIff(stored + demo, sel.0, sel.1, stored[|stored| - 1]);
  }

  /** With no employee loaded (stored employees that do not parse, on the first load),
      the auto-selected period lists the latest stored payslip, so the table cannot
      render. */
  lemma LatestWithoutEmployeesFails(stored: seq<Payslip>, demo: seq<Payslip>)
    requires stored != []
    requires stored[|stored| - 1].financialYear != "" && stored[|stored| - 1].month != ""
    ensures var sel := LatestPeriod(Present(stored)).value;
            RenderFails(Rows(Listed(stored + demo, sel.0, sel.1), []))
  {
    var sel := LatestPeriod(Present(stored)).value;
    LatestIsListed(stored, demo);
    RenderFailsIff(Listed(stored + demo, sel.0, sel.1), []);
  }

  // ---------------------------------------------------------------- the page

  class HistoryPage {
    const demoPayslips: seq<Payslip>
    const demoEmployees: seq<Employee>
    var selectedYear: string
    var selectedMonth: string
    var payslips: seq<Payslip>
    var employees: seq<Employee>
    /** An effect threw: the page is replaced by the error screen. */
    var crashed: bool

    /** The first render, before any effect has run. */
    constructor (demoPayslips: seq<Payslip>, demoEmployees: seq<Employee>)
      ensures this.demoPayslips == demoPayslips && this.demoEmployees == demoEmployees
      ensures selectedYear == InitialYear && selectedMonth == InitialMonth
      ensures payslips == [] && employees == [] && !crashed
    {
      this.demoPayslips := demoPayslips;
      this.demoEmployees := demoEmployees;
      selectedYear, selectedMonth := InitialYear, InitialMonth;
      payslips, employees := [], [];
      crashed := false;
    }

    /** The table currently shown. */
    function Table(): seq<Row>
      reads this
    {
      Rows(Listed(payslips, selectedYear, selectedMonth), employees)
    }

    /** The render after the state has changed; a row with no employee crashes the page. */
    method Render()
      modifies this
      ensures crashed == (old(crashed) || RenderFails(Table()))
      ensures selectedYear == old(selectedYear) && selectedMonth == old(selectedMonth)
      ensures payslips == old(payslips) && employees == old(employees)
    {
      if RenderFails(Table()) {
        crashed := true;
      }
    }

    /** `loadData`. Payslips are read first: when they do not parse nothing changes;
        when only the employees do not parse, the payslips are already replaced. The
        error is caught and logged, so the page keeps running. */
    method LoadData(storage: Storage)
      modifies this
      ensures Merged(storage.payslips, demoPayslips).Some? ==>
                payslips == Merged(storage.payslips, demoPayslips).value
      ensures Merged(storage.payslips, demoPayslips).None? ==> payslips == old(payslips)
      ensures Merged(storage.payslips, demoPayslips).Some? && Merged(storage.employees, demoEmployees).Some? ==>
                employees == Merged(storage.employees, demoEmployees).value
      ensures Merged(storage.payslips, demoPayslips).None? || Merged(storage.employees, demoEmployees).None? ==>
                employees == old(employees)
      ensures selectedYear == old(selectedYear) && selectedMonth == old(selectedMonth)
      ensures crashed == old(crashed)
    {
      var loadedPayslips := Merged(storage.payslips, demoPayslips);
      if loadedPayslips.None? {
        return;
      }
      payslips := loadedPayslips.value;
      var loadedEmployees := Merged(storage.employees, demoEmployees);
      if loadedEmployees.None? {
        return;
      }
      employees := loadedEmployees.value;
    }

    /** The effect that jumps to the period of the most recently stored payslip. It
        parses the stored text outside any `try`, so text that does not parse throws out
        of the effect and the page crashes. */
    method AutoSelect(storage: Storage)
      modifies this
      ensures LatestPeriod(storage.payslips).Some? ==>
                (selectedYear, selectedMonth) == LatestPeriod(storage.payslips).value
      ensures LatestPeriod(storage.payslips).None? ==>
                selectedMonth == old(selectedMonth) && selectedYear == old(selectedYear)
      ensures crashed == (old(crashed) || storage.payslips.Corrupt?)
      ensures payslips == old(payslips) && employees == old(employees)
    {
      if storage.payslips.Corrupt? {
        crashed := true;
        return;
      }
      var latest := LatestPeriod(storage.payslips);
      if latest.Some? {
        selectedYear, selectedMonth := latest.value.0, latest.value.1;
      }
    }

    /** Mounting runs the three effects in order: the initial load, the load for the
        refresh signal's first value, and the auto-selection. Afterwards the most
        recently stored payslip is in the table when its period is filled in. */
    method Mount(storage: Storage)
      modifies this
      ensures !storage.payslips.Corrupt? ==> payslips == Merged(storage.payslips, demoPayslips).value
      ensures storage.payslips.Corrupt? ==> payslips == old(payslips)
      ensures !storage.payslips.Corrupt? && !storage.employees.Corrupt? ==>
                employees == Merged(storage.employees, demoEmployees).value
      ensures storage.payslips.Corrupt? || storage.employees.Corrupt? ==> employees == old(employees)
      ensures LatestPeriod(storage.payslips).Some? ==>
                (selectedYear, selectedMonth) == LatestPeriod(storage.payslips).value
      ensures LatestPeriod(storage.payslips).None? ==>
                selectedMonth == old(selectedMonth) && selectedYear == old(selectedYear)
      ensures crashed == (old(crashed) || storage.payslips.Corrupt? || RenderFails(Table()))
      ensures storage.payslips.Present? && storage.payslips.items != [] ==>
                var last := storage.payslips.items[|storage.payslips.items| - 1];
                last.financialYear != "" && last.month != "" ==>
                  last in Listed(payslips, selectedYear, selectedMonth)
    {
      LoadData(storage);
      LoadData(storage);
      AutoSelect(storage);
      Render();
      if storage.payslips.Present? && storage.payslips.items != [] {
        var last := storage.payslips.items[|storage.payslips.items| - 1];
        if last.financialYear != "" && last.month != "" {
          LatestIsListed(storage.payslips.items, demoPayslips);
        }
      }
    }

    /** A change of the refresh signal reloads and re-selects, with the same outcome as
        mounting. */
    method Refresh(storage: Storage)
      modifies this
      ensures !storage.payslips.Corrupt? ==> payslips == Merged(storage.payslips, demoPayslips).value
      ensures storage.payslips.Corrupt? ==> payslips == old(payslips)
      ensures !storage.payslips.Corrupt? && !storage.employees.Corrupt? ==>
                employees == Merged(storage.employees, demoEmployees).value
      ensures storage.payslips.Corrupt? || storage.employees.Corrupt? ==> employees == old(employees)
      ensures LatestPeriod(storage.payslips).Some? ==>
                (selectedYear, selectedMonth) == LatestPeriod(storage.payslips).value
      ensures LatestPeriod(storage.payslips).None? ==>
                selectedMonth == old(selectedMonth) && selectedYear == old(selectedYear)
      ensures crashed == (old(crashed) || storage.payslips.Corrupt? || RenderFails(Table()))
    {
      LoadData(storage);
      AutoSelect(storage);
      Render();
    }

    /** A `storage` event from another tab reloads only for the two payroll keys, inside
        `loadData`'s `try`, so it never crashes the page. */
    method StorageEvent(key: string, storage: Storage)
      modifies this
      ensures key == "payslips" || key == "employees" ==>
                && (!storage.payslips.Corrupt? ==> payslips == Merged(storage.payslips, demoPayslips).value)
                && (storage.payslips.Corrupt? ==> payslips == old(payslips))
                && (!storage.payslips.Corrupt? && !storage.employees.Corrupt? ==>
                      employees == Merged(storage.employees, demoEmployees).value)
                && (storage.payslips.Corrupt? || storage.employees.Corrupt? ==> employees == old(employees))
      ensures key != "payslips" && key != "employees" ==>
                payslips == old(payslips) && employees == old(employees)
      ensures selectedYear == old(selectedYear) && selectedMonth == old(selectedMonth)
      ensures crashed == (old(crashed) || RenderFails(Table()))
    {
      if key == "payslips" || key == "employees" {
        LoadData(storage);
      }
      Render();
    }

    method SelectYear(year: string)
      modifies this
      ensures selectedYear == year && selectedMonth == old(selectedMonth)
      ensures payslips == old(payslips) && employees == old(employees)
      ensures crashed == (old(crashed) || RenderFails(Table()))
    {
      selectedYear := year;
      Render();
    }

    method SelectMonth(month: string)
      modifies this
      ensures selectedMonth == month && selectedYear == old(selectedYear)
      ensures payslips == old(payslips) && employees == old(employees)
      ensures crashed == (old(crashed) || RenderFails(Table()))
    {
      selectedMonth := month;
      Render();
    }
  }

  // ---------------------------------------------------------------- the dialog

  /** The history inside a dialog: the same listing, loaded once when it mounts. */
  class HistoryDialog {
    const demoPayslips: seq<Payslip>
    const demoEmployees: seq<Employee>
    var selectedYear: string
    var selectedMonth: string
    var payslips: seq<Payslip>
    var employees: seq<Employee>
    /** The mount effect threw: the dialog is replaced by the error screen. */
    var crashed: bool

    constructor (demoPayslips: seq<Payslip>, demoEmployees: seq<Employee>)
      ensures this.demoPayslips == demoPayslips && this.demoEmployees == demoEmployees
      ensures selectedYear == InitialYear && selectedMonth == InitialMonth
      ensures payslips == [] && employees == [] && !crashed
    {
      this.demoPayslips := demoPayslips;
      this.demoEmployees := demoEmployees;
      selectedYear, selectedMonth := InitialYear, InitialMonth;
      payslips, employees := [], [];
      crashed := false;
    }

    function Table(): seq<Row>
      reads this
    {
      Rows(Listed(payslips, selectedYear, selectedMonth), employees)
    }

    /** The render after the state has changed; a row with no employee crashes the dialog. */
    method Render()
      modifies this
      ensures crashed == (old(crashed) || RenderFails(Table()))
      ensures selectedYear == old(selectedYear) && selectedMonth == old(selectedMonth)
      ensures payslips == old(payslips) && employees == old(employees)
    {
      if RenderFails(Table()) {
        crashed := true;
      }
    }

    /** The mount effect, which has no error handling: text that does not parse throws
        out of the effect and crashes the dialog, after the payslips are set when only
        the employees are unreadable. */
    method Mount(storage: Storage)
      modifies this
      ensures Merged(storage.payslips, demoPayslips).Some? ==>
                payslips == Merged(storage.payslips, demoPayslips).value
      ensures Merged(storage.payslips, demoPayslips).None? ==> payslips == old(payslips)
      ensures Merged(storage.payslips, demoPayslips).Some? && Merged(storage.employees, demoEmployees).Some? ==>
                employees == Merged(storage.employees, demoEmployees).value
      ensures Merged(storage.payslips, demoPayslips).None? || Merged(storage.employees, demoEmployees).None? ==>
                employees == old(employees)
      ensures crashed == (old(crashed) || storage.payslips.Corrupt? || storage.employees.Corrupt?
                          || RenderFails(Table()))
      ensures selectedYear == old(selectedYear) && selectedMonth == old(selectedMonth)
    {
      var loadedPayslips := Merged(storage.payslips, demoPayslips);
      if loadedPayslips.None? {
        crashed := true;
        return;
      }
      payslips := loadedPayslips.value;
      var loadedEmployees := Merged(storage.employees, demoEmployees);
      if loadedEmployees.None? {
        crashed := true;
        return;
      }
      employees := loadedEmployees.value;
      Render();
    }

    method SelectYear(year: string)
      modifies this
      ensures selectedYear == year && selectedMonth == old(selectedMonth)
      ensures payslips == old(payslips) && employees == old(employees)
      ensures crashed == (old(crashed) || RenderFails(Table()))
    {
      selectedYear := year;
      Render();
    }

    method SelectMonth(month: string)
      modifies this
      ensures selectedMonth == month && selectedYear == old(selectedYear)
      ensures payslips == old(payslips) && employees == old(employees)
      ensures crashed == (old(crashed) || RenderFails(Table()))
    {
      selectedMonth := month;
      Render();
    }
  }

  // ---------------------------------------------------------------- form to history

  lemma RenderedYears()
    ensures IntToString(2023) == "2023" && IntToString(2024) == "2024"
    ensures IntToString(2025) == "2025" && IntToString(2026) == "2026"
  {
    assert NatToString(2) == "2";
    assert NatToString(20) == "20";
    assert NatToString(202) == "202";
  }

  /** The years the selector offers are exactly the financial years the form renders for
      the years 2023 to 2025. */
  lemma YearOptionsAreRendered(y: int)
    requires 2023 <= y <= 2025
    ensures FinancialYearOf(IntToString(y)) == YearOptions[y - 2023]
  {
    YearOptionSpelling(y);
    FinancialYearOfRendered(y);
  }

  lemma YearOptionSpelling(y: int)
    requires 2023 <= y <= 2025
    ensures YearOptions[y - 2023] == IntToString(y) + "-" + IntToString(y + 1)
  {
    RenderedYears();
    var a, b := IntToString(y), IntToString(y + 1);
    if y == 2023 {
      assert a == "2023" && b == "2024";
    } else if y == 2024 {
      assert a == "2024" && b == "2025";
    } else {
      assert a == "2025" && b == "2026";
    }
  }

  /** A payslip saved for a month and year the selectors offer is listed under them,
      after everything stored before it. */
  lemma SavedPayslipIsListed(stored: seq<Payslip>, demo: seq<Payslip>, p: Payslip, year: string, month: string)
    requires p.financialYear == year && p.month == month
    ensures Listed(stored + [p] + demo, year, month)
            == Listed(stored, year, month) + [p] + Listed(demo, year, month)
  {
    ListedAppend(stored + [p], demo, year, month);
    ListedAppend(stored, [p], year, month);
    assert Listed([p], year, month) == [p];
  }

  /** A payslip whose month is none of the selector's months is never listed, whatever
      is selected. */
  lemma UnofferedMonthNeverListed(ledger: seq<Payslip>, year: string, month: string, p: Payslip)
    requires month in MonthOptions && p.month !in MonthOptions
    ensures p !in Listed(ledger, year, month)
  {
    ListedIff(ledger, year, month, p);
  }

  /** Whatever follows the first space, the saved month is the text before it. */
  lemma SavedMonth(info: map<string, string>, earnings: seq<LineItem>,
                   deductions: seq<LineItem>, payslipId: string,
                   employeeId: string, currentYear: int, month: string, rest: string)
    requires AdminInfoKeys <= info.Keys && |earnings| == 6 && |deductions| == 6
    requires ' ' !in month && info["payPeriod"] == month + " " + rest
    ensures PayslipOf(info, earnings, deductions, payslipId, employeeId, currentYear).month == month
  {
    assert month + " " + rest == month + [' '] + rest;
    SplitAtFirst(month, ' ', rest);
  }

  /** A payslip saved with a month the selector does not offer is stored, yet never
      listed whatever period is selected. */
  lemma UnofferedSavedMonthNeverListed(info: map<string, string>, earnings: seq<LineItem>,
                                       deductions: seq<LineItem>, payslipId: string,
                                       employeeId: string, currentYear: int,
                                       month: string, rest: string,
                                       ledger: seq<Payslip>, year: string, selected: string)
    requires AdminInfoKeys <= info.Keys && |earnings| == 6 && |deductions| == 6
    requires ' ' !in month && info["payPeriod"] == month + " " + rest
    requires month !in MonthOptions && selected in MonthOptions
    ensures PayslipOf(info, earnings, deductions, payslipId, employeeId, currentYear)
            !in Listed(ledger, year, selected)
  {
    SavedMonth(info, earnings, deductions, payslipId, employeeId, currentYear, month, rest);
    UnofferedMonthNeverListed(ledger, year, selected,
                              PayslipOf(info, earnings, deductions, payslipId, employeeId, currentYear));
  }

  /** The form's own example, "Jan 2025", is such a period: its month "Jan" is not one
      the selector offers. */
  lemma PlaceholderMonthUnoffered()
    ensures "Jan 2025" == "Jan" + " " + "2025" && ' ' !in "Jan" && "Jan" !in MonthOptions
  {
  }
}

=== FILE: payslip_view.dfy ===
/** The payslip as it is shown in the dialog and written to the print window: the
    employee's details, the pay period, the twelve amount rows with their totals, the
    net salary and the signature line. Currency formatting is not part of this model;
    amounts are shown as the exact values. */
module PayslipView {
  import opened Text
  import opened Amounts
  import opened Payslips
  import opened PayslipForms

  /** Everything the payslip document shows, before formatting. */
  datatype Statement = Statement(
    employeeName: string, employeeId: string, bankDetails: string, taxNumber: string,
    payPeriod: string, payCycle: string,
    earningRows: seq<(string, real)>, totalEarnings: real,
    deductionRows: seq<(string, real)>, totalDeductions: real,
    netSalary: real, receivedBy: string)

  /** The rows of the earnings table, in the order the document lists them. */
  function EarningRows(e: Earnings): seq<(string, real)> {
    [("Basic Salary", e.basicSalary), ("HRA", e.hra), ("Conveyance", e.conveyance),
     ("Dearness Allowance", e.dearnessAllowance), ("Overtime", e.overtime), ("Bonus", e.bonus)]
  }

  function DeductionRows(d: Deductions): seq<(string, real)> {
    [("Provident Fund", d.providentFund), ("ESI", d.esi), ("Professional Tax", d.professionalTax),
     ("Salary Advance", d.salaryAdvance), ("TDS", d.tds), ("Other Deduction", d.otherDeduction)]
  }

  function SumRows(rows: seq<(string, real)>): real {
    if rows == [] then 0.0 else SumRows(rows[..|rows| - 1]) + rows[|rows| - 1].1
  }

  /** `${payslip.month} ${payslip.financialYear.split("-")[0]}`. */
  function PayPeriodText(p: Payslip): string {
    p.month + " " + Split(p.financialYear, '-')[0]
  }

  /** The document for one employee and one payslip. Each total is the sum of the
      rows above it, and the net salary is gross minus deductions, unrounded and not
      clamped at zero; the employee signs as the receiver. */
  function StatementOf(employee: Employee, p: Payslip): (s: Statement)
    ensures SumRows(s.earningRows) == s.totalEarnings == GrossOf(p.earnings)
    ensures SumRows(s.deductionRows) == s.totalDeductions == DeductionsOf(p.deductions)
    ensures s.netSalary == s.totalEarnings - s.totalDeductions
    ensures s.earningRows == EarningRows(p.earnings) && s.deductionRows == DeductionRows(p.deductions)
    ensures s.employeeName == s.receivedBy == employee.name && s.employeeId == employee.id
    ensures s.bankDetails == employee.bankDetails && s.taxNumber == employee.taxNumber
    ensures s.payPeriod == PayPeriodText(p) && s.payCycle == "Monthly"
  {
    SumSix(EarningRows(p.earnings));
    SumSix(DeductionRows(p.deductions));
    Statement(employee.name, employee.id, employee.bankDetails, employee.taxNumber,
              PayPeriodText(p), "Monthly",
              EarningRows(p.earnings), GrossOf(p.earnings),
              DeductionRows(p.deductions), DeductionsOf(p.deductions),
              NetOf(p), employee.name)
  }

  /** The payslip dialog renders nothing unless it has both an employee and a payslip. */
  function Dialog(employee: Option<Employee>, payslip: Option<Payslip>): (r: Option<Statement>)
    ensures r.Some? <==> employee.Some? && payslip.Some?
    ensures r.Some? ==> r.value == StatementOf(employee.value, payslip.value)
  {
    if employee.None? || payslip.None? then None else Some(StatementOf(employee.value, payslip.value))
  }

  /** `generatePDF`: when the browser refuses to open a print window the user is
      alerted and no document is produced; otherwise the document shows the same
      statement as the dialog. */
  function PrintDocument(employee: Employee, p: Payslip, windowOpened: bool): (r: Option<Statement>)
    ensures r.Some? <==> windowOpened
    ensures r.Some? ==> r.value == StatementOf(employee, p)
  {
    if windowOpened then Some(StatementOf(employee, p)) else None
  }

  // ---------------------------------------------------------------- lemmas

  lemma SumLast(rows: seq<(string, real)>, n: nat)
    requires 0 < n <= |rows|
    ensures SumRows(rows[..n]) == SumRows(rows[..n - 1]) + rows[n - 1].1
  {
    assert rows[..n][..n - 1] == rows[..n - 1];
  }

  lemma SumSix(rows: seq<(string, real)>)
    requires |rows| == 6
    ensures SumRows(rows) == rows[0].1 + rows[1].1 + rows[2].1 + rows[3].1 + rows[4].1 + rows[5].1
  {
    assert rows[..6] == rows;
    SumLast(rows, 6);
    SumLast(rows, 5);
    SumLast(rows, 4);
    SumLast(rows, 3);
    SumLast(rows, 2);
    SumLast(rows, 1);
  }

  /** The rows carry the payslip's fields under the form's own labels: each row shows
      the field its label names. */
  lemma RowLabelsAreFormLabels(e: Earnings, d: Deductions)
    ensures |EarningRows(e)| == |EarningNames| && |DeductionRows(d)| == |DeductionNames|
    ensures forall i :: 0 <= i < 6 ==> EarningRows(e)[i].0 == EarningNames[i]
    ensures forall i :: 0 <= i < 6 ==> DeductionRows(d)[i].0 == DeductionNames[i]
    ensures EarningRows(e)[0].1 == e.basicSalary && EarningRows(e)[1].1 == e.hra
    ensures EarningRows(e)[2].1 == e.conveyance && EarningRows(e)[3].1 == e.dearnessAllowance
    ensures EarningRows(e)[4].1 == e.overtime && EarningRows(e)[5].1 == e.bonus
    ensures DeductionRows(d)[0].1 == d.providentFund && DeductionRows(d)[1].1 == d.esi
    ensures DeductionRows(d)[2].1 == d.professionalTax && DeductionRows(d)[3].1 == d.salaryAdvance
    ensures DeductionRows(d)[4].1 == d.tds && DeductionRows(d)[5].1 == d.otherDeduction
  {
  }

  /** A payslip saved from the admin form shows, in each row, the row's label and the
      amount typed into the form's row at the same position. */
  lemma StatementShowsTypedAmounts(employee: Employee, info: map<string, string>,
                                   earnings: seq<LineItem>, deductions: seq<LineItem>,
                                   payslipId: string, employeeId: string, currentYear: int)
    requires AdminInfoKeys <= info.Keys && |earnings| == 6 && |deductions| == 6
    ensures var s := StatementOf(employee, PayslipOf(info, earnings, deductions, payslipId, employeeId, currentYear));
            && |s.earningRows| == 6 && |s.deductionRows| == 6
            && (forall i :: 0 <= i < 6 ==> s.earningRows[i] == (EarningNames[i], ParseAmount(earnings[i].amount)))
            && (forall i :: 0 <= i < 6 ==> s.deductionRows[i] == (DeductionNames[i], ParseAmount(deductions[i].amount)))
  {
    var p := PayslipOf(info, earnings, deductions, payslipId, employeeId, currentYear);
    EarningRowsOfItems(p.earnings, earnings);
    DeductionRowsOfItems(p.deductions, deductions);
  }

  /** Fields equal to the rows' parsed amounts give rows showing those amounts. */
  lemma EarningRowsOfItems(e: Earnings, items: seq<LineItem>)
    requires |items| == 6
    requires e.basicSalary == ParseAmount(items[0].amount) && e.hra == ParseAmount(items[1].amount)
    requires e.conveyance == ParseAmount(items[2].amount) && e.dearnessAllowance == ParseAmount(items[3].amount)
    requires e.overtime == ParseAmount(items[4].amount) && e.bonus == ParseAmount(items[5].amount)
    ensures |EarningRows(e)| == 6
    ensures forall i :: 0 <= i < 6 ==> EarningRows(e)[i] == (EarningNames[i], ParseAmount(items[i].amount))
  {
  }

  lemma DeductionRowsOfItems(d: Deductions, items: seq<LineItem>)
    requires |items| == 6
    requires d.providentFund == ParseAmount(items[0].amount) && d.esi == ParseAmount(items[1].amount)
    requires d.professionalTax == ParseAmount(items[2].amount) && d.salaryAdvance == ParseAmount(items[3].amount)
    requires d.tds == ParseAmount(items[4].amount) && d.otherDeduction == ParseAmount(items[5].amount)
    ensures |DeductionRows(d)| == 6
    ensures forall i :: 0 <= i < 6 ==> DeductionRows(d)[i] == (DeductionNames[i], ParseAmount(items[i].amount))
  {
  }

  /** The net salary is the difference itself for every payslip: it is negative
      exactly when the deductions exceed the earnings. */
  lemma NetNotClamped(employee: Employee, p: Payslip)
    ensures StatementOf(employee, p).netSalary < 0.0 <==> DeductionsOf(p.deductions) > GrossOf(p.earnings)
    ensures StatementOf(employee, p).netSalary == GrossOf(p.earnings) - DeductionsOf(p.deductions)
  {
  }

  /** The pay period the document shows for a payslip saved with "<month> <y>" is that
      same text, for every year y that is not negative. */
  lemma PayPeriodRoundTrip(info: map<string, string>, earnings: seq<LineItem>,
                           deductions: seq<LineItem>, payslipId: string,
                           employeeId: string, currentYear: int, month: string, y: nat)
    requires AdminInfoKeys <= info.Keys && |earnings| == 6 && |deductions| == 6
    requires ' ' !in month && info["payPeriod"] == month + " " + IntToString(y)
    ensures PayPeriodText(PayslipOf(info, earnings, deductions, payslipId, employeeId, currentYear))
            == info["payPeriod"]
  {
    PeriodOfMonthAndYear(month, y, currentYear);
    var p := PayslipOf(info, earnings, deductions, payslipId, employeeId, currentYear);
    assert p.month == month;
    var start := IntToString(y);
    assert p.financialYear == start + "-" + IntToString(y + 1);
    assert '-' !in start by {
      assert start == NatToString(y);
    }
    assert p.financialYear == start + ['-'] + IntToString(y + 1);
    SplitAtFirst(start, '-', IntToString(y + 1));
  }

  /** For a negative year the financial year starts with '-', so the pay period shows
      the month followed by a space and nothing else. */
  lemma PayPeriodOfNegativeYear(p: Payslip, y: int)
    requires y < 0 && p.financialYear == FinancialYearOf(IntToString(y))
    ensures PayPeriodText(p) == p.month + " "
  {
    FinancialYearOfRendered(y);
    var fy := p.financialYear;
    assert fy[0] == '-';
    assert fy == [] + ['-'] + fy[1..];
    SplitAtFirst([], '-', fy[1..]);
  }
}

=== FILE: payslips.dfy ===
/** Employees and payslips as the payroll screens keep them in the browser's storage
    under the keys "employees" and "payslips", and the rules by which a saved form
    turns into those records. */
module Payslips {
  import opened Text
  import opened Amounts

  /** A stored employee. The five named fields are the ones every screen reads; any
      further keys a record carries (the admin form adds "pfNumber" and "utiNumber")
      are kept in `others`. */
  datatype Employee = Employee(id: string, name: string, department: string,
                               bankDetails: string, taxNumber: string,
                               others: map<string, string>)

  datatype Earnings = Earnings(basicSalary: real, hra: real, conveyance: real,
                               dearnessAllowance: real, overtime: real, bonus: real)

  datatype Deductions = Deductions(providentFund: real, esi: real, professionalTax: real,
                                   salaryAdvance: real, tds: real, otherDeduction: real)

  datatype Payslip = Payslip(id: string, employeeId: string, financialYear: string,
                             month: string, earnings: Earnings, deductions: Deductions)

  /** What reading one storage key and parsing it as JSON gives: nothing stored (the
      key is absent or holds the empty string), text that does not parse, or a list. */
  datatype Stored<T> = Missing | Corrupt | Present(items: seq<T>)

  /** `JSON.parse(localStorage.getItem(key) || "[]")` once it has not thrown: nothing
      stored reads as the empty list. */
  function ListOf<T>(s: Stored<T>): seq<T>
    requires !s.Corrupt?
  {
    if s.Present? then s.items else []
  }

  /** The two storage keys the payroll screens share. */
  class Storage {
    var employees: Stored<Employee>
    var payslips: Stored<Payslip>

    constructor (employees: Stored<Employee>, payslips: Stored<Payslip>)
      ensures this.employees == employees && this.payslips == payslips
    {
      this.employees := employees;
      this.payslips := payslips;
    }

    /** The writes of a saved payslip: the employee is upserted into the stored
        employees and the payslip appended to the stored payslips. */
    method SavePayslip(employee: Employee, payslip: Payslip)
      requires !employees.Corrupt? && !payslips.Corrupt?
      modifies this
      ensures employees == Present(Upsert(ListOf(old(employees)), employee))
      ensures payslips == Present(ListOf(old(payslips)) + [payslip])
    {
      employees := Present(Upsert(ListOf(employees), employee));
      payslips := Present(ListOf(payslips) + [payslip]);
    }
  }

  // ---------------------------------------------------------------- payslip sums

  /** `Object.values(earnings).reduce((a, b) => a + b, 0)`. */
  function GrossOf(e: Earnings): real {
    e.basicSalary + e.hra + e.conveyance + e.dearnessAllowance + e.overtime + e.bonus
  }

  function DeductionsOf(d: Deductions): real {
    d.providentFund + d.esi + d.professionalTax + d.salaryAdvance + d.tds + d.otherDeduction
  }

  function NetOf(p: Payslip): real {
    GrossOf(p.earnings) - DeductionsOf(p.deductions)
  }

  // ---------------------------------------------------------------- employees

  /** `list.findIndex(e => e.id === id)`: the first position holding `id`, or -1. */
  function FindIndex(list: seq<Employee>, id: string): (k: int)
    ensures -1 <= k < |list|
    ensures k == -1 <==> forall j :: 0 <= j < |list| ==> list[j].id != id
    ensures k >= 0 ==> list[k].id == id && forall j :: 0 <= j < k ==> list[j].id != id
  {
    if list == [] then -1
    else if list[0].id == id then 0
    else
      var k := FindIndex(list[1..], id);
      if k == -1 then -1 else k + 1
  }

  /** `{ ...existing, ...update }` for two employee records: the update's fields win
      and the keys only the existing record has survive. */
  function Merge(existing: Employee, update: Employee): Employee {
    update.(others := existing.others + update.others)
  }

  /** Replace the first record with the same id by the merge, or append. The list
      grows only for a new id, every position keeps its id, and records with other
      ids are untouched. */
  function Upsert(list: seq<Employee>, e: Employee): (r: seq<Employee>)
    ensures |r| == if FindIndex(list, e.id) >= 0 then |list| else |list| + 1
    ensures forall j :: 0 <= j < |list| ==> r[j].id == list[j].id
    ensures forall j :: 0 <= j < |list| && list[j].id != e.id ==> r[j] == list[j]
    ensures r[|r| - 1].id == e.id || FindIndex(list, e.id) >= 0
  {
    var k := FindIndex(list, e.id);
    if k >= 0 then list[k := Merge(list[k], e)] else list + [e]
  }

  predicate UniqueIds(list: seq<Employee>) {
    forall i, j :: 0 <= i < j < |list| ==> list[i].id != list[j].id
  }

  /** After an upsert the record is found under its id with the new fields, the list
      grew only when the id was new, every other record is where it was, and no second
      record with the same id appears. */
  lemma UpsertStoresRecord(list: seq<Employee>, e: Employee)
    ensures var r := Upsert(list, e); var k := FindIndex(r, e.id);
            k >= 0 && r[k] == Merge(if k < |list| then list[k] else e, e)
    ensures |Upsert(list, e)| == if FindIndex(list, e.id) >= 0 then |list| else |list| + 1
    ensures forall j :: 0 <= j < |list| && list[j].id != e.id ==> Upsert(list, e)[j] == list[j]
    ensures UniqueIds(list) ==> UniqueIds(Upsert(list, e))
  {
    var k := FindIndex(list, e.id);
    var r := Upsert(list, e);
    if k < 0 {
      assert r[|list|].id == e.id;
    } else {
      assert r[k].id == e.id;
      assert forall j :: 0 <= j < k ==> r[j].id != e.id;
    }
  }

  // ---------------------------------------------------------------- pay period

  /** The month and year text `handleSave` takes from the "Pay Period" field: with
      nothing typed, "January" and the current year; otherwise the first and (when
      there is one) the second part of splitting on single spaces. */
  function PeriodOf(payPeriod: string, currentYear: int): (r: (string, string))
    ensures ' ' !in r.0
    ensures payPeriod == [] ==> r.0 == "January"
    ensures payPeriod != [] ==> r.0 <= payPeriod
    ensures payPeriod != [] ==> r.0 == payPeriod || payPeriod[|r.0|] == ' '
  {
    if payPeriod == [] then ("January", IntToString(currentYear))
    else
      var parts := Split(payPeriod, ' ');
      (parts[0], if |parts| >= 2 then parts[1] else IntToString(currentYear))
  }

  /** `${parseInt(year)}-${parseInt(year) + 1}`, with "NaN-NaN" when the year does
      not read as a number. */
  function FinancialYearOf(year: string): (r: string)
    ensures r == "NaN-NaN" <==> ParseIntPrefix(year).None?
    ensures ParseIntPrefix(year).Some? ==> ParseIntPrefix(r) == ParseIntPrefix(year)
  {
    match ParseIntPrefix(year)
    case Some(y) =>
      var tail := "-" + IntToString(y + 1);
      IntToStringParsesBefore(y, tail);
      assert "NaN-NaN"[0] == 'N';
      IntToString(y) + tail
    case None => "NaN-NaN"
  }

  /** The form's advertised input, "Jan 2025", gives that month and the year that
      starts in that year. */
  lemma PeriodOfMonthAndYear(month: string, y: int, currentYear: int)
    requires ' ' !in month
    ensures PeriodOf(month + " " + IntToString(y), currentYear) == (month, IntToString(y))
    ensures FinancialYearOf(IntToString(y)) == IntToString(y) + "-" + IntToString(y + 1)
  {
    var year := IntToString(y);
    assert ' ' !in year by {
      if y < 0 {
        assert year == "-" + NatToString(-y);
        assert forall i :: 0 <= i < |year| ==> year[i] == '-' || IsDigit(year[i]);
      }
    }
    assert month + " " + year == month + [' '] + year;
    SplitAtFirst(month, ' ', year);
    SplitNoSeparator(year, ' ');
    FinancialYearOfRendered(y);
  }

  /** A rendered year gives the financial year starting in it. */
  lemma FinancialYearOfRendered(y: int)
    ensures FinancialYearOf(IntToString(y)) == IntToString(y) + "-" + IntToString(y + 1)
  {
    IntToStringParses(y);
  }

  /** An empty pay period falls back to January of the current year. */
  lemma PeriodOfEmpty(currentYear: int)
    ensures PeriodOf("", currentYear).0 == "January"
    ensures FinancialYearOf(PeriodOf("", currentYear).1)
            == IntToString(currentYear) + "-" + IntToString(currentYear + 1)
  {
    IntToStringParses(currentYear);
  }

  /** A pay period of blanks only is not empty, so nothing falls back: the month is
      the empty first part and the year the empty second part, which is not a number. */
  lemma PeriodOfBlank(currentYear: int)
    ensures PeriodOf("  ", currentYear) == ("", "")
    ensures FinancialYearOf("") == "NaN-NaN"
  {
    assert "  " == [] + [' '] + " ";
    SplitAtFirst([], ' ', " ");
    assert " " == [] + [' '] + [];
    SplitAtFirst([], ' ', []);
  }

  /** A single word is taken as the month and the current year is kept. */
  lemma PeriodOfMonthOnly(month: string, currentYear: int)
    requires month != [] && ' ' !in month
    ensures PeriodOf(month, currentYear) == (month, IntToString(currentYear))
  {
    SplitNoSeparator(month, ' ');
  }
}

=== FILE: task_board.dfy ===
/** The administrator's project board: three projects with their team members, one
    project selected at a time, and a swap that turns every front-end member of the
    selected project into a back-end member and every other member into a front-end
    one. */
module TaskBoard {
  import opened Text

  datatype Member = Member(id: int, name: string, role: string)

  const Projects: set<string> := {"Fasthire", "Fastjob", "Fasttrade"}

  /** `role === "frontend" ? "backend" : "frontend"`. */
  function SwappedRole(role: string): string {
    if role == "frontend" then "backend" else "frontend"
  }

  /** The team with every member's role swapped. */
  function SwapRoles(team: seq<Member>): (r: seq<Member>)
    ensures |r| == |team|
    ensures forall i :: 0 <= i < |team| ==> r[i] == team[i].(role := SwappedRole(team[i].role))
  {
    if team == [] then []
    else SwapRoles(team[..|team| - 1]) + [team[|team| - 1].(role := SwappedRole(team[|team| - 1].role))]
  }

  /** Every member is either front-end or back-end. */
  predicate TwoRoles(team: seq<Member>) {
    forall i :: 0 <= i < |team| ==> team[i].role == "frontend" || team[i].role == "backend"
  }

  /** How many members have the role. */
  function RoleCount(team: seq<Member>, role: string): (n: nat)
    ensures n <= |team|
  {
    if team == [] then 0
    else RoleCount(team[..|team| - 1], role) + (if team[|team| - 1].role == role then 1 else 0)
  }

  class ProjectBoard {
    var employees: map<string, seq<Member>>
    var activeProject: Option<string>

    predicate Valid()
      reads this
    {
      Projects <= employees.Keys && (activeProject.Some? ==> activeProject.value in employees)
    }

    constructor (initial: map<string, seq<Member>>)
      requires Projects <= initial.Keys
      ensures Valid() && employees == initial && activeProject == None
    {
      employees := initial;
      activeProject := None;
    }

    /** `handleProjectClick`: one of the three project buttons selects its project. */
    method ProjectClick(project: string)
      requires Valid() && project in Projects
      modifies this
      ensures Valid() && activeProject == Some(project) && employees == old(employees)
    {
      activeProject := Some(project);
    }

    /** `handleSwap`: with a project selected its team's roles are swapped and the
        other projects are kept; with none selected nothing changes. */
    method Swap()
      requires Valid()
      modifies this
      ensures Valid() && activeProject == old(activeProject)
      ensures old(activeProject).None? ==> employees == old(employees)
      ensures old(activeProject).Some? ==>
                var p := old(activeProject).value;
                employees == old(employees)[p := SwapRoles(old(employees)[p])]
    {
      if activeProject.Some? {
        var p := activeProject.value;
        employees := employees[p := SwapRoles(employees[p])];
      }
    }
  }

  // ---------------------------------------------------------------- lemmas

  /** Swapping twice restores a team whose members are all front-end or back-end. */
  lemma SwapTwiceRestores(team: seq<Member>)
    requires TwoRoles(team)
    ensures SwapRoles(SwapRoles(team)) == team
  {
  }

  /** Any other role does not come back: after two swaps it is "backend". */
  lemma OtherRoleNotRestored(m: Member)
    requires m.role != "frontend" && m.role != "backend"
    ensures SwapRoles(SwapRoles([m])) == [m.(role := "backend")]
  {
  }

  /** A swap keeps every member (id and name) in place and leaves the team with only
      the two roles. */
  lemma SwapKeepsMembers(team: seq<Member>)
    ensures TwoRoles(SwapRoles(team))
    ensures forall i :: 0 <= i < |team| ==>
              SwapRoles(team)[i].id == team[i].id && SwapRoles(team)[i].name == team[i].name
  {
  }

  /** After a swap the front-end count is the old back-end count, for a team with only
      the two roles. */
  lemma {:induction false} SwapExchangesCounts(team: seq<Member>)
    requires TwoRoles(team)
    ensures RoleCount(SwapRoles(team), "frontend") == RoleCount(team, "backend")
    ensures RoleCount(SwapRoles(team), "backend") == RoleCount(team, "frontend")
  {
    if team != [] {
      var init := team[..|team| - 1];
      var s := SwapRoles(team);
      assert s[..|s| - 1] == SwapRoles(init);
      SwapExchangesCounts(init);
    }
  }
}

=== FILE: text.dfy ===
/** Options and the string operations the dashboard leans on: ASCII case mapping,
    substring search, splitting on one separator character, digit filtering and the
    decimal rendering and parsing of integers. JavaScript strings are modelled as
    `seq<char>`; case mapping covers the ASCII letters only. */
module Text {

  datatype Option<+T> = None | Some(value: T) {
    function GetOr(default: T): T {
      match this
      case Some(v) => v
      case None => default
    }
  }

  // ---------------------------------------------------------------- characters

  predicate IsDigit(c: char) { '0' <= c <= '9' }

  predicate IsAsciiLetter(c: char) { 'a' <= c <= 'z' || 'A' <= c <= 'Z' }

  /** The characters `String.prototype.trim` removes, restricted to ASCII. */
  predicate IsBlankChar(c: char) {
    c == ' ' || c == '\t' || c == '\n' || c == '\r' || c == '\U{B}' || c == '\U{C}'
  }

  function LowerChar(c: char): char {
    if 'A' <= c <= 'Z' then (c as int + 32) as char else c
  }

  function UpperChar(c: char): char {
    if 'a' <= c <= 'z' then (c as int - 32) as char else c
  }

  function DigitValue(c: char): nat
    requires IsDigit(c)
  {
    c as int - '0' as int
  }

  function DigitChar(d: nat): (c: char)
    requires d < 10
    ensures IsDigit(c) && DigitValue(c) == d
  {
    ('0' as int + d) as char
  }

  // ---------------------------------------------------------------- whole strings

  function ToLower(s: string): (r: string)
    ensures |r| == |s|
    ensures forall i :: 0 <= i < |s| ==> r[i] == LowerChar(s[i])
  {
    if s == [] then [] else [LowerChar(s[0])] + ToLower(s[1..])
  }

  function ToUpper(s: string): (r: string)
    ensures |r| == |s|
    ensures forall i :: 0 <= i < |s| ==> r[i] == UpperChar(s[i])
  {
    if s == [] then [] else [UpperChar(s[0])] + ToUpper(s[1..])
  }

  /** Lower-casing forgets every earlier change of case. */
  lemma LowerOfUpper(s: string)
    ensures ToLower(ToUpper(s)) == ToLower(s)
    ensures ToLower(ToLower(s)) == ToLower(s)
  {
  }

  /** Upper-casing works character by character, so it distributes over joining. */
  lemma UpperAppend(x: string, y: string)
    ensures ToUpper(x + y) == ToUpper(x) + ToUpper(y)
  {
    var l := ToUpper(x + y);
    var r := ToUpper(x) + ToUpper(y);
    assert |l| == |r|;
    forall i | 0 <= i < |l|
      ensures l[i] == r[i]
    {
      if i >= |x| {
        assert (x + y)[i] == y[i - |x|];
      }
    }
  }

  /** Upper-casing twice is upper-casing once. */
  lemma UpperIdempotent(s: string)
    ensures ToUpper(ToUpper(s)) == ToUpper(s)
  {
  }

  /** Text without upper-case letters is its own lower case. */
  lemma LowerWithoutCapitals(s: string)
    requires forall i :: 0 <= i < |s| ==> !('A' <= s[i] <= 'Z')
    ensures ToLower(s) == s
  {
  }

  /** `String.prototype.includes`: `t` occurs in `s` at some position. */
  predicate Contains(s: string, t: string) {
    exists i | 0 <= i <= |s| :: OccursAt(s, t, i)
  }

  predicate OccursAt(s: string, t: string, i: int) {
    0 <= i <= |s| - |t| && s[i..i + |t|] == t
  }

  lemma ContainsEmpty(s: string)
    ensures Contains(s, "")
  {
    assert OccursAt(s, "", 0);
  }

  /** Case-insensitive `includes`, as `a.toLowerCase().includes(b.toLowerCase())`. */
  predicate ContainsIgnoringCase(s: string, t: string) {
    Contains(ToLower(s), ToLower(t))
  }

  lemma ContainsIgnoringCaseEmpty(s: string)
    ensures ContainsIgnoringCase(s, "")
  {
    ContainsEmpty(ToLower(s));
  }

  /** `trim()` yields the empty string. */
  predicate IsBlank(s: string) {
    forall i :: 0 <= i < |s| ==> IsBlankChar(s[i])
  }

  predicate AllDigits(s: string) {
    forall i :: 0 <= i < |s| ==> IsDigit(s[i])
  }

  /** `s.replace(/\D/g, '')`: the digit characters of `s`, in order. */
  function DigitsOnly(s: string): (r: string)
    ensures AllDigits(r)
    ensures |r| <= |s|
    ensures forall c :: IsDigit(c) ==> multiset(r)[c] == multiset(s)[c]
  {
    if s == [] then []
    else
      assert s == [s[0]] + s[1..];
      if IsDigit(s[0]) then [s[0]] + DigitsOnly(s[1..])
      else DigitsOnly(s[1..])
  }

  /** The filter keeps the digits in their order: filtering a joined text is joining
      the filtered parts. */
  lemma {:induction false} DigitsOnlyAppend(a: string, b: string)
    ensures DigitsOnly(a + b) == DigitsOnly(a) + DigitsOnly(b)
  {
    if a == [] {
      assert a + b == b;
    } else {
      DigitsOnlyAppend(a[1..], b);
      DigitsOnlyAppendStep(a, b);
    }
  }

  /** The inductive step of DigitsOnlyAppend: the first character of `a` is filtered
      the same way whether or not `b` follows. */
  lemma DigitsOnlyAppendStep(a: string, b: string)
    requires a != []
    requires DigitsOnly(a[1..] + b) == DigitsOnly(a[1..]) + DigitsOnly(b)
    ensures DigitsOnly(a + b) == DigitsOnly(a) + DigitsOnly(b)
  {
    var rest := a[1..];
    var head := if IsDigit(a[0]) then [a[0]] else [];
    assert DigitsOnly(a + b) == head + DigitsOnly(rest + b) by {
      TailOfAppend(a, b);
      DigitsOnlyFirst(a + b);
    }
    assert DigitsOnly(a) == head + DigitsOnly(rest) by {
      DigitsOnlyFirst(a);
    }
    AppendAssoc(head, DigitsOnly(rest), DigitsOnly(b));
  }

  lemma TailOfAppend<T>(a: seq<T>, b: seq<T>)
    requires a != []
    ensures (a + b)[0] == a[0] && (a + b)[1..] == a[1..] + b
  {
  }

  lemma AppendAssoc<T>(a: seq<T>, b: seq<T>, c: seq<T>)
    ensures a + (b + c) == (a + b) + c
  {
  }

  /** The filter keeps the first character exactly when it is a digit. */
  lemma DigitsOnlyFirst(s: string)
    requires s != []
    ensures DigitsOnly(s) == (if IsDigit(s[0]) then [s[0]] else []) + DigitsOnly(s[1..])
  {
  }

  /** Text made of digits passes the digit filter unchanged, so filtering twice is
      filtering once. */
  lemma DigitsOnlyOfDigits(s: string)
    ensures AllDigits(s) ==> DigitsOnly(s) == s
    ensures DigitsOnly(DigitsOnly(s)) == DigitsOnly(s)
  {
    if AllDigits(s) {
      DigitsOnlyOfDigitsOnly(s);
    }
    DigitsOnlyOfDigitsOnly(DigitsOnly(s));
  }

  lemma {:induction false} DigitsOnlyOfDigitsOnly(s: string)
    requires AllDigits(s)
    ensures DigitsOnly(s) == s
  {
    if s != [] {
      DigitsOnlyOfDigitsOnly(s[1..]);
      assert s == [s[0]] + s[1..];
    }
  }

  /** `s.padStart(width, c)`. */
  function PadStart(s: string, width: nat, c: char): (r: string)
    ensures |r| == if |s| < width then width else |s|
    ensures s <= r[|r| - |s|..] && forall i :: 0 <= i < |r| - |s| ==> r[i] == c
  {
    if |s| < width then seq(width - |s|, _ => c) + s else s
  }

  // ---------------------------------------------------------------- split

  /** `s.split(sep)` for a one-character separator: the maximal runs between
      separators, including empty ones; never an empty list. */
  function Split(s: string, sep: char): (parts: seq<string>)
    ensures |parts| >= 1
    ensures forall k :: 0 <= k < |parts| ==> sep !in parts[k]
    ensures parts[0] <= s
    ensures parts[0] == s || s[|parts[0]|] == sep
  {
    if s == [] then [""]
    else if s[0] == sep then [""] + Split(s[1..], sep)
    else
      var rest := Split(s[1..], sep);
      [[s[0]] + rest[0]] + rest[1..]
  }

  /** The parts joined again with the separator. */
  function Join(parts: seq<string>, sep: char): string
    requires |parts| >= 1
  {
    if |parts| == 1 then parts[0] else parts[0] + [sep] + Join(parts[1..], sep)
  }

  lemma {:induction false} SplitJoin(s: string, sep: char)
    ensures Join(Split(s, sep), sep) == s
  {
    if s == [] {
    } else if s[0] == sep {
      SplitJoin(s[1..], sep);
      assert s == [sep] + s[1..];
    } else {
      var rest := Split(s[1..], sep);
      SplitJoin(s[1..], sep);
      assert s == [s[0]] + s[1..];
      if |rest| == 1 {
      } else {
        assert ([[s[0]] + rest[0]] + rest[1..])[1..] == rest[1..];
      }
    }
  }

  /** Splitting at the first separator: the text before it is the first part and the
      rest is split on its own. */
  lemma {:induction false} SplitAtFirst(prefix: string, sep: char, tail: string)
    requires sep !in prefix
    ensures Split(prefix + [sep] + tail, sep) == [prefix] + Split(tail, sep)
  {
    var s := prefix + [sep] + tail;
    if prefix == [] {
      assert s[0] == sep && s[1..] == tail;
    } else {
      assert s[0] == prefix[0];
      assert s[1..] == prefix[1..] + [sep] + tail;
      SplitAtFirst(prefix[1..], sep, tail);
      assert [s[0]] + prefix[1..] == prefix;
    }
  }

  /** Text that holds the separator splits into at least two parts. */
  lemma SplitWithSeparator(s: string, sep: char)
    requires sep in s
    ensures |Split(s, sep)| >= 2
  {
    SplitJoin(s, sep);
  }

  lemma {:induction false} SplitNoSeparator(s: string, sep: char)
    requires sep !in s
    ensures Split(s, sep) == [s]
  {
    if s != [] {
      SplitNoSeparator(s[1..], sep);
      assert s == [s[0]] + s[1..];
    }
  }

  // ---------------------------------------------------------------- integers

  /** The decimal rendering of a natural number, without leading zeros. */
  function NatToString(n: nat): (r: string)
    ensures |r| >= 1 && AllDigits(r)
    ensures |r| > 1 ==> r[0] != '0'
    decreases n
  {
    if n < 10 then [DigitChar(n)] else NatToString(n / 10) + [DigitChar(n % 10)]
  }

  /** `${i}` for an integer. */
  function IntToString(i: int): string {
    if i < 0 then "-" + NatToString(-i) else NatToString(i)
  }

  /** The value of a string of decimal digits. */
  function DigitsValue(s: string): nat
    requires AllDigits(s)
  {
    if s == [] then 0 else DigitsValue(s[..|s| - 1]) * 10 + DigitValue(s[|s| - 1])
  }

  lemma {:induction false} NatToStringRoundTrip(n: nat)
    ensures DigitsValue(NatToString(n)) == n
    decreases n
  {
    if n >= 10 {
      NatToStringRoundTrip(n / 10);
      var r := NatToString(n);
      assert r[..|r| - 1] == NatToString(n / 10);
    }
  }

  lemma {:induction false} ZerosValue(z: nat)
    ensures AllDigits(seq(z, _ => '0')) && DigitsValue(seq(z, _ => '0')) == 0
  {
    if z > 0 {
      assert seq(z, _ => '0')[..z - 1] == seq(z - 1, _ => '0');
      ZerosValue(z - 1);
    }
  }

  /** Leading zeros do not change the value of a string of digits. */
  lemma {:induction false} LeadingZerosValue(z: nat, s: string)
    requires AllDigits(s)
    ensures AllDigits(seq(z, _ => '0') + s)
    ensures DigitsValue(seq(z, _ => '0') + s) == DigitsValue(s)
    decreases |s|
  {
    var t := seq(z, _ => '0') + s;
    if s == [] {
      ZerosValue(z);
      assert t == seq(z, _ => '0');
    } else {
      assert t[..|t| - 1] == seq(z, _ => '0') + s[..|s| - 1];
      LeadingZerosValue(z, s[..|s| - 1]);
    }
  }

  /** The longest prefix of `s` made of decimal digits. */
  function LeadingDigits(s: string): (r: string)
    ensures r <= s && AllDigits(r)
    ensures |r| < |s| ==> !IsDigit(s[|r|])
  {
    if s != [] && IsDigit(s[0]) then [s[0]] + LeadingDigits(s[1..]) else []
  }

  lemma {:induction false} LeadingDigitsOfDigits(s: string, rest: string)
    requires AllDigits(s)
    requires rest == [] || !IsDigit(rest[0])
    ensures LeadingDigits(s + rest) == s
  {
    if s != [] {
      assert (s + rest)[1..] == s[1..] + rest;
      LeadingDigitsOfDigits(s[1..], rest);
    }
  }

  /** `parseInt(s)` without a radix, for the forms the dashboard meets: leading
      blanks, an optional sign and a run of decimal digits; `None` stands for `NaN`.
      A "0x" hexadecimal prefix is not modelled. */
  function ParseIntPrefix(s: string): Option<int> {
    var body := UnsignedPart(s);
    var digits := LeadingDigits(body);
    if digits == [] then None
    else if IsNegative(s) then Some(-(DigitsValue(digits) as int))
    else Some(DigitsValue(digits))
  }

  function SkipBlanks(s: string): string {
    if s != [] && IsBlankChar(s[0]) then SkipBlanks(s[1..]) else s
  }

  predicate IsNegative(s: string) {
    var t := SkipBlanks(s);
    t != [] && t[0] == '-'
  }

  function UnsignedPart(s: string): string {
    var t := SkipBlanks(s);
    if t != [] && (t[0] == '-' || t[0] == '+') then t[1..] else t
  }

  /** `parseInt` reads back every rendered integer. */
  lemma IntToStringParses(i: int)
    ensures ParseIntPrefix(IntToString(i)) == Some(i)
  {
    IntToStringParsesBefore(i, []);
    assert IntToString(i) + [] == IntToString(i);
  }

  /** `parseInt` stops at the first character after the digits, so a rendered integer
      followed by anything that does not start with a digit reads back as itself. */
  lemma IntToStringParsesBefore(i: int, tail: string)
    requires tail == [] || !IsDigit(tail[0])
    ensures ParseIntPrefix(IntToString(i) + tail) == Some(i)
    ensures (IntToString(i) + tail)[0] == '-' || IsDigit((IntToString(i) + tail)[0])
  {
    var n: nat := if i < 0 then -i else i;
    var digits := NatToString(n);
    NatToStringRoundTrip(n);
    var s := IntToString(i) + tail;
    if i < 0 {
      assert s == "-" + (digits + tail);
      NegativeDigitsBefore(digits, tail);
      assert IsNegative(s) && LeadingDigits(UnsignedPart(s)) == digits;
    } else {
      assert s == digits + tail;
      DigitsBefore(digits, tail);
      assert !IsNegative(s) && LeadingDigits(UnsignedPart(s)) == digits;
      assert s[0] == digits[0];
    }
  }

  lemma DigitsBefore(digits: string, tail: string)
    requires AllDigits(digits) && digits != []
    requires tail == [] || !IsDigit(tail[0])
    ensures !IsNegative(digits + tail)
    ensures LeadingDigits(UnsignedPart(digits + tail)) == digits
  {
    var s := digits + tail;
    assert s[0] == digits[0];
    assert SkipBlanks(s) == s;
    LeadingDigitsOfDigits(digits, tail);
  }

  lemma NegativeDigitsBefore(digits: string, tail: string)
    requires AllDigits(digits) && digits != []
    requires tail == [] || !IsDigit(tail[0])
    ensures IsNegative("-" + (digits + tail))
    ensures LeadingDigits(UnsignedPart("-" + (digits + tail))) == digits
  {
    var s := "-" + (digits + tail);
    assert s[0] == '-';
    assert SkipBlanks(s) == s;
    assert s[1..] == digits + tail;
    LeadingDigitsOfDigits(digits, tail);
  }
}
